=== FILE: README.md ===
# wg-manager peer registry, modelled in Dafny

wg-manager.py is a terminal menu for a WireGuard server. It keeps its
clients ("peers") in the server configuration `./wg0.conf`. Each client there
is a block made of:

- a `# Client: NAME` marker line;
- a `[Peer]` section with `PublicKey`, `PresharedKey` and
  `AllowedIPs = 10.8.0.N/32`.

This project models the logic that reads and edits that registry:

- **Address allocation.** `find_free_ip` picks the lowest host 2..254 that no
  `AllowedIPs` line claims.
- **Listing.** `get_all_clients` pairs every marker with the first
  `AllowedIPs = …/32` in the four lines after it.
- **Reverse lookup.** `get_client_name_by_ip` finds the client that owns an
  address.
- **Adding a client.** `add_client` appends the peer block and renders the
  client's own configuration.
- **Deleting a client.** `delete_client` has a numeric selection guard, a
  confirmation, and a loop that drops a client's section.
- **Reading keys back.** `show_client_keys` extracts the first-match keys
  from a client configuration, falling back to "Не найден" (not found).
- **Interface name and listing.** The interface name comes from the
  configuration path; `show_client_keys` lists the client files.
- **Diagnostics.** `diagnose_connection` checks the configuration.

The modules follow the program's structure:

- `Strings`, `Numbers`, `Patterns`: the Python and `re` primitives the
  program relies on, stated exactly.
  - `strip`, `lstrip`, `rstrip`, `replace`, `lower`, `in`;
  - `readlines` and `writelines`;
  - `str(n)` and `int(s)`;
  - the `KEY\s*=\s*(CLASS+)SUFFIX` searches.
- `Registry`: the listing, the reverse lookup, the allocator, and the peer
  block template.
- `Deletion`: the section-removal loop and its properties.
- `Menu`: the selection guard and the yes/no confirmation.
- `ClientConf`: the client configuration template and the key extraction
  of `show_client_keys`.
- `Paths`: the interface name from the configuration path, and the listing
  of client configuration files.
- `Diagnose`: the checks of `diagnose_connection`.
- `Manager`: `add_client` and `delete_client` as updates of a
  `ConfigFile` object. The file's text is appended to or rewritten.
  - What the user types and what `wg` prints are parameters.

The code works imperatively in four places, and there the model uses
methods with loop invariants:

- the allocator's counting loop;
- the listing's line scan and its window loop;
- the lookup's nested loops;
- the deletion's skip loop.

Each method is proved against a specification function. The properties
are lemmas about those functions. Templates, extractors and checks are
functions.

Behaviour of the code that the model makes visible:

- **The listing and the deleter recognise a marker differently.**
  - The listing takes any line whose stripped form starts with `# Client:`,
    and strips the name.
  - The deleter wants the stripped line to be exactly `# Client: NAME`.
  - So `# Client:  bob` (two blanks) lists as `bob`, but deleting `bob`
    leaves it in place (`Deletion.TwoSpaceMarker`, `Deletion.MarkerGap`).
- **The reverse lookup matches the address as a substring.** A client
  holding 10.8.0.12 is reported for 10.8.0.1
  (`Registry.LookupMatchesLongerAddress`).
- **The allocator's test needs the exact spacing.** `grep` looks for
  `AllowedIPs = 10.8.0.N/32` with exactly these blanks. The listing's
  pattern allows any blanks around `=`. So a hand-written
  `AllowedIPs=10.8.0.N/32` is listed, yet its address counts as free
  (`Registry.UnspacedAddressIsFree`).
- **`show_client_keys` removes every `.conf` from a file name.** A client
  named `a.conf` is saved as `a.conf.conf` and shown as `a`
  (`Paths.DottedNameListedShort`).
- **`int()` accepts more than digits.** It takes surrounding blanks, which
  the cancel test does not. So `" 0"` and `"00"` are not a cancel; they are
  an out-of-range number (`Menu.OtherZeroIsOutOfRange`).
- **Deleting a client can drop another one from the listing.** When two
  markers share one window of the listing, both take the address that
  follows. Deleting the second also removes the lines holding that
  address, so the first client is no longer listed either
  (`Deletion.SharedWindowLost`). `Deletion.DeleteAddedClient` states
  when a deletion removes exactly the deleted client.
- **`int()` refuses some blanks that `strip()` removes.** The separators
  U+001C-U+001F are whitespace to `str.strip()`, but `int()` does not skip
  them (`Numbers.SeparatorRefused`).
- **`add_client` does not refuse a name in use.** Deleting that name later
  removes every section of it, and a blank line after a section is taken
  as part of its body (`Deletion.EarlierSectionDeleted`).

## Model

| member | source | states |
|---|---|---|
| `Strings.Strip` | wg-manager.py:110 | definition of str.strip(): rstrip of lstrip; what it removes is stated by `TrimStartSpec`, `TrimEndSpec` and `StripSurrounded` |
| `Strings.TrimStartSpec` | wg-manager.py:110 | lstrip removes exactly the leading run of whitespace: the result is a suffix, everything cut is whitespace, and the result does not start with whitespace |
| `Strings.TrimEndSpec` | wg-manager.py:110 | rstrip removes exactly the trailing run of whitespace |
| `Strings.StripSurrounded` | wg-manager.py:112 | strip of blanks + text + blanks is the text, when the text has no blank at either end |
| `Strings.RemoveAll` | wg-manager.py:112 | str.replace(pattern, ''): never longer than the input, and the input itself when the pattern does not occur |
| `Strings.AfterLast` | wg-manager.py:516 | the part after the last separator: a suffix of the input free of the separator, preceded by the separator when shorter than the input |
| `Strings.AfterLastOfJoin` | wg-manager.py:516 | split(c)[-1] of head + c + tail is tail when tail has no c |
| `Strings.Lower` | wg-manager.py:310 | str.lower() keeps the length; a Latin capital A-Z becomes the small letter at the same place in a-z, a Cyrillic capital U+0410-U+042F becomes U+0430-U+044F and U+0400-U+040F becomes U+0450-U+045F; every other character is kept |
| `Strings.Lines` | wg-manager.py:106 | definition of readlines(): the text cut after every line break, the last line left open when the text does not end with one; `LinesJoin` and `LinesOfJoin` state that it and `Join` invert each other |
| `Strings.Join` | wg-manager.py:334 | definition of writelines(): the lines written one after another |
| `Strings.LinesJoin` | wg-manager.py:317 | readlines() then writelines() gives the text back, and every line but the last ends with its line break |
| `Strings.LinesOfJoin` | wg-manager.py:334 | readlines() of what writelines() wrote gives back the same lines |
| `Strings.LinesAppend` | wg-manager.py:171-178 | appending to a text whose last line is complete adds the appended text's lines after the old ones |
| `Strings.LinesCloseLast` | wg-manager.py:106 | a line break added after an open last line closes that line and changes no other line |
| `Strings.StripBreak` | wg-manager.py:110 | strip() gives the same text with or without a final line break |
| `Numbers.ParseInt` | wg-manager.py:303 | definition of int(s) in base 10: the blanks int() skips (IntSpace) stripped, an optional sign, ASCII digits with single underscores between them; None where int() raises ValueError |
| `Numbers.IntTrimStartSpec` | wg-manager.py:303 | the blanks int() skips at the front are removed, exactly the leading run, and the rest does not start with one |
| `Numbers.IntTrimEndSpec` | wg-manager.py:303 | the same at the back |
| `Numbers.SeparatorRefused` | wg-manager.py:303 | U+001C before a digit is whitespace to strip(), yet int() refuses it: IntSpace is str.isspace without U+001C-U+001F |
| `Numbers.NatToStringValue` | wg-manager.py:77 | the decimal numeral str(n) has value n |
| `Numbers.ParseIntOfNatToString` | wg-manager.py:303 | int() reads back what str() wrote |
| `Numbers.ParseIntOfDigits` | wg-manager.py:303 | int() of a digit string is its decimal value |
| `Patterns.MatchHere` | wg-manager.py:116 | one attempt of KEY\s*=\s*(CLASS+)SUFFIX at the start of the text: it succeeds only where the key starts, with a nonempty group; exact for Settled patterns (suffix empty or starting outside the class), the type every pattern constant is declared with |
| `Patterns.Search` | wg-manager.py:116 | re.search: the group of the leftmost position where the attempt succeeds, always nonempty; `SearchAtIndex` and `NothingBeforeIndex` state the leftmost choice |
| `Patterns.SearchInClass` | wg-manager.py:116 | the group a KEY\s*=\s*(CLASS+) search captures is a nonempty run of class characters |
| `Patterns.SearchAtIndex` | wg-manager.py:116 | re.search finds a match exactly when one starts somewhere, and returns the leftmost one's group |
| `Patterns.NothingBeforeIndex` | wg-manager.py:116 | no match starts before the leftmost match |
| `Patterns.SearchFound` | wg-manager.py:143 | the captured group is a piece of the searched text |
| `Patterns.SearchWithoutKey` | wg-manager.py:143 | a text that never mentions the key has no match |
| `Patterns.SearchBreak` | wg-manager.py:116 | for a pattern with no line break in its key or suffix and a class without blanks, a final line break changes no search result |
| `Patterns.MatchAssignment` | wg-manager.py:116 | a line "KEY = value" followed by the pattern's suffix matches with the value captured whole |
| `Patterns.AfterKeyOfEquals` | wg-manager.py:143 | any run of blanks before '=', including none, is stepped over, so "KEY=", "KEY =" and "KEY   =" match alike |
| `Registry.IsMarker` | wg-manager.py:110-111 | definition: a line whose stripped form starts with "# Client:" |
| `Registry.MarkerName` | wg-manager.py:112 | definition: the stripped line with every "# Client:" removed, stripped again; `PaddedMarkerName` and `RenderedMarkerName` state what it reads back |
| `Registry.LineAddress` | wg-manager.py:115-118 | definition: a line offers an address only when it mentions AllowedIPs, and then it is the group of the first AllowedIPs\s*=\s*([0-9.]+)/32 match |
| `Registry.ClientAt` | wg-manager.py:110-121 | definition of one scan step: line i is an entry when it is a marker and a line of the four after it offers an address, the first such; stated by `ClientAtMeaning` |
| `Registry.Clients` | wg-manager.py:100-124 | definition of get_all_clients on the file's lines: the entries of the lines, in document order; stated by `GetAllClients` and `PresentInOrder` |
| `Registry.GetAllClients` | wg-manager.py:100-124 | no file lists no client; otherwise the scan yields exactly Clients of the file's lines |
| `Registry.ReadEntry` | wg-manager.py:110-121 | one step of the scan gives the entry of line i: a marker with an address in its window, or nothing |
| `Registry.WindowAddress` | wg-manager.py:114-119 | the inner loop returns the first address offered by the up to four lines after the marker |
| `Registry.ClientAtMeaning` | wg-manager.py:110-121 | line i lists (name, ip) exactly when it is a marker naming name and some line in its window offers ip with no earlier window line offering an address |
| `Registry.ListedComesFromMarker` | wg-manager.py:111-121 | every listed client comes from a marker line |
| `Registry.PresentInOrder` | wg-manager.py:120-121 | the listing holds the entries of the lines that have one, in document order |
| `Registry.FirstAddressInFound` | wg-manager.py:114-119 | the window's address comes from a line that offers it, and no earlier window line offers one |
| `Registry.WindowMentions` | wg-manager.py:93-96 | definition of the lookup's test: a line among the four after line i mentions AllowedIPs and contains the address as a substring |
| `Registry.ClientNameByIp` | wg-manager.py:87-97 | the name returned is that of the first marker whose window mentions the address; None exactly when no marker's window does |
| `Registry.ListedClientIsMentioned` | wg-manager.py:87-97 | every listed client is found by the reverse lookup's test for its own address |
| `Registry.LookupMatchesLongerAddress` | wg-manager.py:95 | the substring test reports a client holding 10.8.0.12 for 10.8.0.1 |
| `Registry.Occupied` | wg-manager.py:78-80 | definition of grep -q succeeding: some line contains "AllowedIPs = 10.8.0.i/32" |
| `Registry.FindFreeIp` | wg-manager.py:75-84 | returns 10.8.0.i for the smallest i in 2..254 that no line claims, all smaller ones claimed; None exactly when all of 2..254 are claimed |
| `Registry.HostAddressInjective` | wg-manager.py:77 | distinct hosts get distinct addresses |
| `Registry.HostAddressIsAddress` | wg-manager.py:77 | 10.8.0.i is digits and dots |
| `Registry.UnspacedAddressIsFree` | wg-manager.py:75-84 | a peer written AllowedIPs=ADDR/32 is listed, yet the allocator sees its address as free; the listing reads it through the pattern at line 116 |
| `Registry.PeerBlock` | wg-manager.py:171-178 | definition of the appended text: a line break, then the marker, [Peer], PublicKey, PresharedKey and AllowedIPs lines, each complete; `LinesAfterAppend` and `AppendKeepsEntries` state its effect |
| `Registry.RenderedMarkerName` | wg-manager.py:172-178 | the marker written for a plain name reads back as that name, as the listing at line 112 strips it |
| `Registry.PaddedMarkerName` | wg-manager.py:111-112 | a marker with any blank run after "# Client:" reads back as the stripped name |
| `Registry.BlockWellFormed` | wg-manager.py:172-178 | the block's lines are complete lines |
| `Registry.LinesAfterAppend` | wg-manager.py:171-178 | after the append, the file's lines are the lines of the old text followed by the block's opening line break, then the block's five lines. That break closes an open last line, or adds a blank line after a complete one |
| `Registry.AppendBlockLines` | wg-manager.py:100-124 | for a name and keys that read back (Renderable), the block's lines, after any lines, add exactly one client, the new one, at the end of the listing |
| `Registry.AppendedClientIsLast` | wg-manager.py:100-124 | after the peer block is appended to any configuration, the listing is that of the old text with the block's opening line break, followed by the new client |
| `Registry.AppendKeepsEntries` | wg-manager.py:100-124 | for any file, the listing after the append is the old listing, in order, plus the new client |
| `Registry.LineBreakKeepsClients` | wg-manager.py:100-124 | a line break added at the end of any file changes no entry of the listing, whether it closes an open last line or adds a blank one |
| `Registry.LineBreakSameLine` | wg-manager.py:110-118 | a final line break changes neither whether a line is a marker, nor the name it announces, nor the address it offers |
| `Registry.AppendOccupies` | wg-manager.py:75-84 | after the append, the new address is taken for the allocator |
| `Registry.ClientsAppendQuiet` | wg-manager.py:100-124 | lines whose first four offer no address, appended to a document, list their clients after the document's and change none of its entries |
| `Registry.ClientsAfterUnmarked` | wg-manager.py:100-124 | lines without a marker in front of a document list nobody and leave its entries as they are |
| `Registry.OccupiedAppend` | wg-manager.py:75-84 | grep finds an address in joined lines exactly when it finds it in one of the parts |
| `Deletion.IsSectionMarker` | wg-manager.py:323 | definition: the stripped line is exactly "# Client: NAME" |
| `Deletion.Removed` | wg-manager.py:320-330 | definition of the lines written back: each marker of the name is dropped with the lines after it up to the next comment line; every other line is copied; stated by the lemmas below |
| `Deletion.RemoveSection` | wg-manager.py:320-330 | the loop's output is Removed of the lines |
| `Deletion.SkipBody` | wg-manager.py:325-327 | the inner loop stops at the first comment line after the marker, or the end |
| `Deletion.RemovedSubSeq` | wg-manager.py:320-330 | what is written back is an order-preserving subsequence of the lines read |
| `Deletion.RemovedUnchanged` | wg-manager.py:323 | without a line that strips to the marker, the lines are written back unchanged |
| `Deletion.NoMarkerLeft` | wg-manager.py:323-327 | no line that strips to the marker survives |
| `Deletion.RemovedTwice` | wg-manager.py:320-330 | deleting a second time changes nothing |
| `Deletion.CommentsKept` | wg-manager.py:326 | every comment line other than the marker is kept, in order |
| `Deletion.RemovedAppend` | wg-manager.py:320-330 | deleting from lines followed by a part that opens with a comment deletes from each part separately |
| `Deletion.BlockRemoved` | wg-manager.py:320-330 | the rendered block is exactly one section of its client |
| `Deletion.AddThenDelete` | wg-manager.py:320-330 | deleting a client right after adding it gives what deleting it from the file before the add gives, with the block's opening line break kept: the appended section leaves no trace |
| `Deletion.EarlierSectionDeleted` | wg-manager.py:320-330 | an earlier section of the same name is deleted too, together with a blank line after it, since add_client does not refuse a name in use |
| `Deletion.MarkerGap` | wg-manager.py:323 | a marker with a blank run after "# Client:" lists the name, but the deleter finds it only when the run is one blank, unlike the listing at lines 111-112 |
| `Deletion.WideMarkerSurvives` | wg-manager.py:323 | such a marker with a wider run is listed and survives deletion |
| `Deletion.TwoSpaceMarker` | wg-manager.py:323 | "# Client:  bob" lists bob, and deleting bob leaves the lines unchanged |
| `Deletion.DeleteAddedClient` | wg-manager.py:320-330 | deleting a client whose block sits between two parts holding no section of its name gives back the first part and the second, less the second's lines up to its first comment line. When the second part starts with four lines offering no address, both as it is and after those lines, the listing before the deletion is the first part's clients, the client, then the second part's clients, and after it the same without the client. The allocator then sees an address as taken exactly when a line left in the file holds it |
| `Deletion.RemovedSectionBetween` | wg-manager.py:320-330 | a section between two parts without its marker is removed with the lines after it up to the next comment line, and nothing else is |
| `Deletion.SharedWindowLost` | wg-manager.py:320-330 | two markers in one window of the listing (lines 114-121) both list its address; deleting the second also deletes the lines that held it, so the first is no longer listed either |
| `Menu.IsYes` | wg-manager.py:310-311 | definition: the answer lowered is one of д, y, да, yes; stated by `YesIgnoresCase` and `CapitalYes` |
| `Menu.SelectIndex` | wg-manager.py:299-307 | cancel exactly on an empty answer or "0"; otherwise NotANumber exactly when int() fails, and for a number n that int() reads, the choice of entry n-1 when 1 <= n <= count and OutOfRange otherwise |
| `Menu.SelectNumeral` | wg-manager.py:303-304 | typing entry k's 1-based number selects entry k |
| `Menu.PastEndIsOutOfRange` | wg-manager.py:304 | the number one past the last entry is rejected |
| `Menu.OtherZeroIsOutOfRange` | wg-manager.py:300-304 | "00" and " 0" are not a cancel but an out-of-range number |
| `Menu.YesIgnoresCase` | wg-manager.py:310-311 | the confirmation ignores case, and a yes has one to three characters |
| `Menu.CapitalYes` | wg-manager.py:310-311 | YES, Да, Y and Д confirm; н, no and the empty answer do not |
| `ClientConf.ConfigLines` | wg-manager.py:220-231 | definition of the client configuration's ten lines in the order add_client writes them |
| `ClientConf.ClientConfig` | wg-manager.py:220-231 | definition: those lines as one text; the read-back lemmas below state what show_client_keys finds in it |
| `ClientConf.KeyField` | wg-manager.py:436-452 | definition: the first match of a key pattern, or "Не найден" when there is none |
| `ClientConf.KeyFieldFallback` | wg-manager.py:436-452 | the fallback "Не найден" is shown exactly when the pattern has no match; otherwise the key shown is nonempty and blank-free |
| `ClientConf.AbsentKey` | wg-manager.py:436-452 | a configuration without the key word shows the fallback |
| `ClientConf.ShowKeys` | wg-manager.py:436-462 | the client's public key is shown only when a private key was found and `wg pubkey` succeeded |
| `ClientConf.PrivateKeyReadBack` | wg-manager.py:436-440 | the private key written into the client configuration is the one read back |
| `ClientConf.ServerKeyReadBack` | wg-manager.py:448-452 | the server's public key written into it is the PublicKey read back |
| `ClientConf.PresharedKeyReadBack` | wg-manager.py:442-446 | the preshared key written into it is the one read back |
| `ClientConf.ShowKeysOfClientConfig` | wg-manager.py:436-462 | show_client_keys on a rendered client configuration shows the private key, server key and preshared key that were written |
| `Paths.InterfaceName` | wg-manager.py:183 | definition: the configuration path's last '/'-component with every ".conf" removed |
| `Paths.InterfaceOf` | wg-manager.py:183 | the interface of DIR/NAME.conf is NAME |
| `Paths.ServerInterface` | wg-manager.py:183 | the server's interface is wg0, the same name delete_client derives at line 374 |
| `Paths.DropConfSuffix` | wg-manager.py:183 | removing ".conf" from NAME.conf gives NAME when NAME has no dot |
| `Paths.ConfigFiles` | wg-manager.py:408 | the directory entries ending in ".conf", never more than there are entries |
| `Paths.ConfigFilesMembers` | wg-manager.py:408 | the listing keeps exactly the directory entries ending in ".conf" |
| `Paths.ConfigFilesAppend` | wg-manager.py:408 | the listing keeps directory order |
| `Paths.ListedName` | wg-manager.py:414 | definition: the file name with every ".conf" removed |
| `Paths.ListedNameOfClient` | wg-manager.py:414 | the file add_client writes for a dotless name lists under that name |
| `Paths.DottedNameListedShort` | wg-manager.py:414 | the file for the name "a.conf" lists as "a" |
| `Diagnose.EndpointPort` | wg-manager.py:516 | definition: what follows the endpoint's last ':' |
| `Diagnose.ServerEndpointPort` | wg-manager.py:516 | the endpoint's port is 51820 |
| `Diagnose.SegmentsFrom` | wg-manager.py:521 | definition of findall's repeated lazy match from position k: each piece runs from a "[Peer]" up to the next one or the end, and the search resumes where the piece ended |
| `Diagnose.PeerSegments` | wg-manager.py:521 | definition: those pieces from the start of the text; stated by `SegmentsShape`, `SegmentsCover` and `SegmentsCount` |
| `Diagnose.HeaderAtIsPrefix` | wg-manager.py:521 | a header at position k is the text "[Peer]" starting there |
| `Diagnose.NextPeer` | wg-manager.py:521 | the position of the first "[Peer]" at or after k, or the end |
| `Diagnose.NoPeerBefore` | wg-manager.py:521 | no "[Peer]" starts before the one NextPeer finds |
| `Diagnose.FirstSegment` | wg-manager.py:521 | the text cut for a header is a segment: it starts with "[Peer]" and holds no other |
| `Diagnose.SegmentsShape` | wg-manager.py:521 | every segment findall returns is a segment |
| `Diagnose.SegmentsCover` | wg-manager.py:521 | the segments laid end to end are the text from its first "[Peer]" on |
| `Diagnose.SegmentsCount` | wg-manager.py:521-525 | there is one segment per "[Peer]" in the text |
| `Diagnose.CheckPeer` | wg-manager.py:528-535 | definition of one peer's check: whether its segment has a PublicKey match and an AllowedIPs match |
| `Diagnose.CheckPeers` | wg-manager.py:528-535 | one check per segment, in order |
| `Diagnose.Diagnose` | wg-manager.py:496-535 | the report: the port is a run of digits, a mismatch is raised exactly when a port is set and is not 51820, and there is one peer check per "[Peer]", each on its own segment |
| `Diagnose.MatchFound` | wg-manager.py:529-533 | a match anywhere in a segment is found by the search |
| `Diagnose.SectionIsSegment` | wg-manager.py:521 | the section add_client writes is one whole segment |
| `Diagnose.SectionPasses` | wg-manager.py:528-535 | that section passes both peer checks |
| `Diagnose.LastSegment` | wg-manager.py:521 | a segment at the end of the text is the last segment cut |
| `Diagnose.AppendedPeerPasses` | wg-manager.py:521-535 | after add_client appends a peer, the last segment is the new peer's section and it passes both checks |
| `Manager.ConfigFile.Append` | wg-manager.py:171-178 | the block is added at the end of the file's text |
| `Manager.ConfigFile.Rewrite` | wg-manager.py:333-334 | the file's text becomes the lines written, joined |
| `Manager.ConfigFile.Listing` | wg-manager.py:100-124 | a missing file lists nobody |
| `Manager.ClientName` | wg-manager.py:130-133 | the typed name, or a name starting "client-" when nothing was typed |
| `Manager.CommandOutput` | wg-manager.py:65-72 | a tool's output counts only when the command succeeded and printed something besides blanks |
| `Manager.AddClient` | wg-manager.py:126-236 | the file changes only when a client is added: the block goes at the end, with the lowest free address and the tools' keys. Each failure (no address, no file, no server key, a tool failing) is reported exactly when it occurs. When the name and keys read back (Renderable: a name with no blank at either end and no line break, "# Client:" or "AllowedIPs" in it; keys without blanks or "AllowedIPs"), the listing after the add is the listing before it plus the new client, and its address is taken |
| `Manager.Decide` | wg-manager.py:283-314 | no clients, cancel, not a number, out of range, declined or deleted; deletion exactly after a valid choice and a yes, of the chosen client |
| `Manager.DeleteClient` | wg-manager.py:280-334 | the outcome is the guard's decision on the listing; the file is rewritten only on a confirmed deletion, and then holds the lines without every section whose marker strips to exactly `# Client: NAME`; for a client listed from a marker such as `# Client:  bob` nothing is removed |
| `Manager.AddThenDeleteFile` | wg-manager.py:320-334 | for a name and keys that read back, after the add the listing is the old one plus the client; deleting it then removes what deleting it before the add would have; when the file held no section of that name, the text written back is the text before the add plus the line break the block opens with |

## Left out

- File I/O is replaced by the `ConfigFile` object and by text parameters:
  - reading, appending and writing;
  - `os.path.exists`;
  - the keys directory and its files (the client configuration is returned
    instead of saved);
  - temporary PSK files.
- Text files are assumed to use '\n' line breaks. Universal-newline
  translation is not modelled.
- Every subprocess becomes a parameter whose value is the tool's output,
  None when the command fails:
  - `wg genkey`, `wg pubkey`, `wg genpsk`;
  - `wg set`, `sudo`, PowerShell;
  - `systemctl`, `wg-quick`.
- Live application of the new peer (`wg set`) and live removal after a
  deletion are left out. They only run external commands.
- The public-key lookup after a deletion is left out. It re-reads the file
  after the section is gone and builds a regex from the unescaped name.
- The name-based removal of the client's configuration file is left out.
- `client-TIMESTAMP` takes the timestamp as a parameter. The clock and
  `time.sleep` are not modelled.
- `Registry.FindFreeIp` models the `grep` test as "some line contains the
  text". `grep` reads `.` as any character, so with a crafted line it can
  also claim an address the model leaves free. A missing file makes `grep`
  fail, which reads as "free", the same as a file with no lines.
- `\d`, `[0-9]` and the digits `int()` accepts are limited to ASCII.
  Unicode digits are not modelled.
- `Strings.Lower` maps exactly A-Z and U+0400-U+042F to their small
  letters. Every other capital is kept, although Python lowercases it too:
  À, Ł, Ѡ (U+0460) and the like. None of them lowers to a letter of д, y,
  да or yes, so the confirmation reads the same.
- The whitespace set is Python's `str.isspace` for the characters the
  program meets. The model's set is fixed in `Strings.IsSpace`; `int()`
  skips the same set less U+001C-U+001F (`Numbers.IntSpace`).
- `os.path.basename` is modelled for '/' separators only.
- The UDP socket probe of `diagnose_connection`, service status and
  restart, terminal output, colours and menus are not modelled.
- `diagnose_connection` reports an unreadable file through its exception
  handler. `Diagnose.Diagnose` takes the text of a file that was read.
- The per-client window scan for an address models `AllowedIPs\s*=\s*([0-9.]+)/32`
  with backtracking argued away. A `[0-9.]+` run followed by `/32` is
  taken greedily, as the regex engine does for these patterns.
  `Patterns.MatchHere` is exact only for Settled patterns, whose suffix is
  empty or starts outside the class. Every pattern constant is declared
  with the type `SettledPattern`, so this holds for each pattern the
  program uses.

=== FILE: clientconf.dfy ===
/** The client configuration written by add_client, the key fields read back
    from a configuration by show_client_keys, and the names derived from the
    configuration files' paths. */
module ClientConf {
  import opened Options
  import opened Strings
  import opened Patterns
  import opened Registry

  const Endpoint := "92.113.151.201:51820"
  /** The text shown for a key field the configuration does not have. */
  const NotFound := "Не найден"
  /** The text shown for the client's public key when it cannot be derived. */
  const NoClientKey := "Не удалось получить"

  /** PrivateKey\s*=\s*(\S+), PresharedKey\s*=\s*(\S+), PublicKey\s*=\s*(\S+) */
  const PrivateKeyWord := "PrivateKey"
  const PresharedKeyWord := "PresharedKey"
  const PublicKeyWord := "PublicKey"
  const PrivateKeyField: SettledPattern := FieldPattern(PrivateKeyWord, NonSpace, "")
  const PresharedKeyField: SettledPattern := FieldPattern(PresharedKeyWord, NonSpace, "")
  const PublicKeyField: SettledPattern := FieldPattern(PublicKeyWord, NonSpace, "")

  /** The lines of the client configuration, in the order add_client writes
      them. */
  function ConfigLines(priv: string, ip: string, serverPub: string, psk: string): seq<string>
  {
    ["[Interface]\n",
     PrivateKeyWord + " = " + priv + "\n",
     "Address = " + ip + "/24\n",
     "DNS = 1.1.1.1\n",
     "\n",
     "[Peer]\n",
     PublicKeyWord + " = " + serverPub + "\n",
     PresharedKeyWord + " = " + psk + "\n",
     "AllowedIPs = 10.8.0.0/24\n",
     "Endpoint = " + Endpoint + "\n"]
  }

  function ClientConfig(priv: string, ip: string, serverPub: string, psk: string): string
  {
    Join(ConfigLines(priv, ip, serverPub, psk))
  }

  /** The first match of a key pattern, or the fallback text. */
  function KeyField(config: string, p: FieldPattern): string
  {
    match Search(config, p)
    case Some(v) => v
    case None => NotFound
  }

  /** The fallback is shown exactly when the pattern has no match: a value
      matched by \S+ never equals it, since it holds a blank. */
  lemma KeyFieldFallback(config: string, p: FieldPattern)
    requires p.value == NonSpace
    ensures KeyField(config, p) == NotFound <==> Search(config, p) == None
    ensures KeyField(config, p) != NotFound ==> KeyField(config, p) != [] && NoSpace(KeyField(config, p))
  {
    SearchInClass(config, p);
    if Search(config, p).Some? {
      NotAKey(Search(config, p).value);
    }
  }

  /** The fallback holds a blank, so no key equals it. */
  lemma NotAKey(v: string)
    requires NoSpace(v)
    ensures v != NotFound
  {
    BlankChars();
    assert NotFound[2] == ' ';
  }

  /** A configuration without the key word shows the fallback. */
  lemma AbsentKey(config: string, p: FieldPattern)
    requires !Contains(config, p.key)
    ensures KeyField(config, p) == NotFound
  {
    SearchWithoutKey(config, p);
  }

  /** What show_client_keys displays. */
  datatype ClientKeys = ClientKeys(
    privateKey: string,
    clientPublicKey: string,
    serverPublicKey: string,
    presharedKey: string)

  /** The keys shown for a client configuration; `derived` is what `wg pubkey`
      printed for the private key, None when it failed. */
  function ShowKeys(config: string, derived: Option<string>): (k: ClientKeys)
    ensures k.clientPublicKey != NoClientKey ==> k.privateKey != NotFound && derived.Some?
  {
    var priv := KeyField(config, PrivateKeyField);
    var clientPub :=
      if priv != NotFound then
        match derived
        case Some(out) => Strip(out)
        case None => NoClientKey
      else NoClientKey;
    ClientKeys(priv, clientPub, KeyField(config, PublicKeyField), KeyField(config, PresharedKeyField))
  }

  /** A key as `wg` prints it: not empty, no blank, and none of the three
      key words inside. */
  predicate KeyText(k: string)
  {
    k != [] && NoSpace(k)
    && !Contains(k, PrivateKeyWord) && !Contains(k, PublicKeyWord) && !Contains(k, PresharedKeyWord)
  }

  /** A line no match of `p` starts in: its text before the line break does
      not hold the key word. */
  predicate Quiet(line: string, p: FieldPattern)
  {
    line != [] && line[|line| - 1] == '\n' && !Contains(line[..|line| - 1], p.key)
  }

  lemma SearchPastLine(ls: seq<string>, p: FieldPattern)
    requires p.key != [] && '\n' !in p.key
    requires ls != [] && Quiet(ls[0], p)
    ensures Search(Join(ls), p) == Search(Join(ls[1..]), p)
  {
    var l := ls[0];
    var body := l[..|l| - 1];
    var rest := Join(ls[1..]);
    assert l == body + "\n" by {
      assert l == body + [l[|l| - 1]];
    }
    assert Join(ls) == body + ("\n" + rest);
    SearchSkipValue(body, "\n" + rest, p);
    SearchSkipUnmarked("\n", rest, p);
  }

  /** A line "KEY = value" is where the search stops. */
  lemma SearchAtLine(ls: seq<string>, p: FieldPattern, v: string)
    requires p.value == NonSpace && p.suffix == []
    requires v != [] && NoSpace(v)
    requires ls != [] && ls[0] == p.key + " = " + v + "\n"
    ensures Search(Join(ls), p) == Some(v)
  {
    var rest := "\n" + Join(ls[1..]);
    BlankChars();
    assert Join(ls) == p.key + " = " + v + p.suffix + rest;
    MatchAssignment(v, p, rest);
  }

  /** A text without the key word's first letter does not hold it. */
  lemma NoInitial(body: string, t: string)
    requires t != [] && t[0] !in body
    ensures !Contains(body, t)
  {
    ContainsSkipPrefix(body, [], t);
    assert body + [] == body;
  }

  /** `w` differs from the key word `t` at position k and holds its first
      letter only at its own start. */
  predicate WordStart(w: string, t: string, k: nat)
  {
    k < |w| && k < |t| && w[k] != t[k] && t != [] && t[0] !in w[1..]
  }

  /** Such a word followed by a value without the key word does not hold
      it. */
  lemma WordThenValue(w: string, v: string, t: string, k: nat)
    requires WordStart(w, t, k) && !Contains(v, t)
    ensures !Contains(w + v, t)
  {
    var s := w + v;
    assert !StartsWith(s, t);
    assert s[1..] == w[1..] + v;
    ContainsSkipPrefix(w[1..], v, t);
  }

  lemma AddressHasNoLetters(ip: string)
    requires AddressText(ip)
    ensures 'P' !in ip
  {
  }

  /** The private key written into the configuration is the one shown. */
  lemma PrivateKeyReadBack(priv: string, ip: string, serverPub: string, psk: string)
    requires priv != [] && NoSpace(priv)
    ensures KeyField(ClientConfig(priv, ip, serverPub, psk), PrivateKeyField) == priv
  {
    var ls := ConfigLines(priv, ip, serverPub, psk);
    var p := PrivateKeyField;
    assert Quiet(ls[0], p) by { QuietHeader("[Interface]\n", p); }
    SearchPastLine(ls, p);
    SearchAtLine(ls[1..], p, priv);
  }

  /** The server's public key written into the configuration is the one
      shown: the search for PublicKey passes the interface section. */
  lemma ServerKeyReadBack(priv: string, ip: string, serverPub: string, psk: string)
    requires KeyText(priv) && AddressText(ip) && serverPub != [] && NoSpace(serverPub)
    ensures KeyField(ClientConfig(priv, ip, serverPub, psk), PublicKeyField) == serverPub
  {
    var ls := ConfigLines(priv, ip, serverPub, psk);
    var p := PublicKeyField;
    PublicKeyPasses(priv);
    InterfacePassed(priv, ip, serverPub, psk, p, 1);
    SearchAtLine(ls[6..], p, serverPub);
  }

  /** The preshared key written into the configuration is the one shown: the
      search for PresharedKey passes the interface section and the server's
      public key. */
  lemma PresharedKeyReadBack(priv: string, ip: string, serverPub: string, psk: string)
    requires KeyText(priv) && KeyText(serverPub) && AddressText(ip) && psk != [] && NoSpace(psk)
    ensures KeyField(ClientConfig(priv, ip, serverPub, psk), PresharedKeyField) == psk
  {
    var ls := ConfigLines(priv, ip, serverPub, psk);
    var p := PresharedKeyField;
    PresharedKeyPasses(priv);
    InterfacePassed(priv, ip, serverPub, psk, p, 2);
    PublicKeyLine(serverPub);
    SearchPastLineAt(ls, 6, p);
    SearchAtLine(ls[7..], p, psk);
  }

  /** What a search must meet to pass the interface section: a key word
      that starts with 'P', differs from "PrivateKey" at position k, is
      longer than "[Peer]", and does not occur in the private key. */
  predicate PassesInterface(p: FieldPattern, k: nat, priv: string)
  {
    |p.key| > 6 && p.key[0] == 'P' && '\n' !in p.key
    && 0 < k < |PrivateKeyWord| && k < |p.key| && PrivateKeyWord[k] != p.key[k]
    && !Contains(priv, p.key)
  }

  lemma PublicKeyPasses(priv: string)
    requires KeyText(priv)
    ensures PassesInterface(PublicKeyField, 1, priv)
  {
  }

  lemma PresharedKeyPasses(priv: string)
    requires KeyText(priv)
    ensures PassesInterface(PresharedKeyField, 2, priv)
  {
  }

  /** The searches for PublicKey and PresharedKey pass the six lines of the
      interface section. */
  lemma InterfacePassed(priv: string, ip: string, serverPub: string, psk: string, p: FieldPattern, k: nat)
    requires PassesInterface(p, k, priv) && AddressText(ip)
    ensures Search(ClientConfig(priv, ip, serverPub, psk), p)
      == Search(Join(ConfigLines(priv, ip, serverPub, psk)[6..]), p)
  {
    var ls := ConfigLines(priv, ip, serverPub, psk);
    InterfaceQuiet(ls, priv, ip, p, k);
    SearchPastLines(ls, 6, p);
  }

  lemma InterfaceQuiet(ls: seq<string>, priv: string, ip: string, p: FieldPattern, k: nat)
    requires PassesInterface(p, k, priv) && AddressText(ip)
    requires |ls| >= 6 && ls[0] == "[Interface]\n" && ls[1] == PrivateKeyWord + " = " + priv + "\n"
    requires ls[2] == "Address = " + ip + "/24\n" && ls[3] == "DNS = 1.1.1.1\n"
    requires ls[4] == "\n" && ls[5] == "[Peer]\n"
    ensures forall j :: 0 <= j < 6 ==> Quiet(ls[j], p)
  {
    QuietHeader("[Interface]\n", p);
    PrivateKeyLine(priv, p, k);
    QuietAddress(ip, p);
    QuietHeader("DNS = 1.1.1.1\n", p);
    QuietHeader("\n", p);
    QuietPeer(p);
  }

  lemma {:induction false} SearchPastLines(ls: seq<string>, n: nat, p: FieldPattern)
    requires p.key != [] && '\n' !in p.key
    requires n <= |ls| && forall j :: 0 <= j < n ==> Quiet(ls[j], p)
    ensures Search(Join(ls), p) == Search(Join(ls[n..]), p)
    decreases n
  {
    if n > 0 {
      SearchPastLine(ls, p);
      assert ls[1..][n - 1..] == ls[n..];
      SearchPastLines(ls[1..], n - 1, p);
    }
  }

  lemma PublicKeyLine(serverPub: string)
    requires !Contains(serverPub, PresharedKeyWord)
    ensures Quiet(PublicKeyWord + " = " + serverPub + "\n", PresharedKeyField)
  {
    PublicKeyStart();
    QuietAssignment(PublicKeyWord + " = ", serverPub, PresharedKeyField, 1);
  }

  lemma PrivateKeyLine(priv: string, p: FieldPattern, k: nat)
    requires PassesInterface(p, k, priv)
    ensures Quiet(PrivateKeyWord + " = " + priv + "\n", p)
  {
    PrivateKeyStart(p.key, k);
    QuietAssignment(PrivateKeyWord + " = ", priv, p, k);
  }

  lemma PrivateKeyStart(t: string, k: nat)
    requires t != [] && t[0] == 'P' && 0 < k < |PrivateKeyWord| && k < |t| && PrivateKeyWord[k] != t[k]
    ensures WordStart(PrivateKeyWord + " = ", t, k)
  {
    var w := PrivateKeyWord + " = ";
    assert w[k] == PrivateKeyWord[k];
    assert 'P' !in w[1..];
  }

  lemma PublicKeyStart()
    ensures WordStart(PublicKeyWord + " = ", PresharedKeyWord, 1)
  {
    var w := PublicKeyWord + " = ";
    assert w[1] == 'u';
    assert 'P' !in w[1..];
  }

  lemma SearchPastLineAt(ls: seq<string>, k: nat, p: FieldPattern)
    requires p.key != [] && '\n' !in p.key
    requires k < |ls| && Quiet(ls[k], p)
    ensures Search(Join(ls[k..]), p) == Search(Join(ls[k + 1..]), p)
  {
    assert ls[k..][1..] == ls[k + 1..];
    SearchPastLine(ls[k..], p);
  }

  lemma QuietHeader(line: string, p: FieldPattern)
    requires line != [] && line[|line| - 1] == '\n' && p.key != [] && p.key[0] !in line
    ensures Quiet(line, p)
  {
    NoInitial(line[..|line| - 1], p.key);
  }

  lemma QuietAssignment(w: string, v: string, p: FieldPattern, k: nat)
    requires WordStart(w, p.key, k) && !Contains(v, p.key)
    ensures Quiet(w + v + "\n", p)
  {
    var l := w + v + "\n";
    assert l[..|l| - 1] == w + v;
    WordThenValue(w, v, p.key, k);
  }

  lemma QuietAddress(ip: string, p: FieldPattern)
    requires AddressText(ip) && p.key != [] && p.key[0] == 'P'
    ensures Quiet("Address = " + ip + "/24\n", p)
  {
    var l := "Address = " + ip + "/24\n";
    assert l[..|l| - 1] == "Address = " + ip + "/24";
    AddressHasNoLetters(ip);
    NoInitial("Address = " + ip + "/24", p.key);
  }

  lemma QuietPeer(p: FieldPattern)
    requires |p.key| > 6
    ensures Quiet("[Peer]\n", p)
  {
    assert "[Peer]\n"[..6] == "[Peer]";
    ShortNotContains("[Peer]", p.key);
  }

  /** show_client_keys on a configuration add_client wrote shows back its
      keys. */
  lemma ShowKeysOfClientConfig(priv: string, ip: string, serverPub: string, psk: string, derived: Option<string>)
    requires KeyText(priv) && KeyText(serverPub) && KeyText(psk) && AddressText(ip)
    ensures ShowKeys(ClientConfig(priv, ip, serverPub, psk), derived)
      == ClientKeys(priv, if derived.Some? then Strip(derived.value) else NoClientKey, serverPub, psk)
  {
    PrivateKeyReadBack(priv, ip, serverPub, psk);
    ServerKeyReadBack(priv, ip, serverPub, psk);
    PresharedKeyReadBack(priv, ip, serverPub, psk);
    NotAKey(priv);
  }
}

=== FILE: deletion.dfy ===
/** The removal of a client's section done by delete_client: the file is
    read as lines, every line that strips to exactly "# Client: NAME" is
    dropped together with the lines after it up to the next line whose
    stripped form starts with '#', and every other line is written back in
    order. */
module Deletion {
  import opened Strings
  import opened Options
  import opened Registry

  /** A line that ends a skipped section: its stripped form starts with '#'. */
  predicate IsComment(line: string)
  {
    StartsWith(Strip(line), "#")
  }

  /** The text the deleter compares stripped lines against. */
  function SectionMarker(name: string): string
  {
    "# Client: " + name
  }

  predicate IsSectionMarker(line: string, name: string)
  {
    Strip(line) == SectionMarker(name)
  }

  /** How many lines at the front of `ls` come before its first comment line. */
  function BodyLength(ls: seq<string>): (n: nat)
    ensures n <= |ls|
  {
    if ls == [] || IsComment(ls[0]) then 0 else 1 + BodyLength(ls[1..])
  }

  /** The lines delete_client writes back for `name`. */
  function Removed(lines: seq<string>, name: string): seq<string>
    decreases |lines|
  {
    if lines == [] then []
    else if IsSectionMarker(lines[0], name) then Removed(lines[1 + BodyLength(lines[1..])..], name)
    else [lines[0]] + Removed(lines[1..], name)
  }

  /** The deletion loop of delete_client: a marker line is dropped and the
      inner loop skips its body; every other line is copied. */
  method RemoveSection(lines: seq<string>, name: string) returns (newLines: seq<string>)
    ensures newLines == Removed(lines, name)
  {
    newLines := [];
    var i := 0;
    assert lines[0..] == lines;
    while i < |lines|
      invariant 0 <= i <= |lines|
      invariant newLines + Removed(lines[i..], name) == Removed(lines, name)
    {
      if IsSectionMarker(lines[i], name) {
        var e := SkipBody(lines, i + 1);
        MarkerLine(lines, i, e, name, newLines);
        i := e;
      } else {
        KeepLine(lines, i, name, newLines);
        newLines := newLines + [lines[i]];
        i := i + 1;
      }
    }
  }

  /** The inner loop of the deletion: from `start`, it advances past every
      line that is not a comment line. */
  method SkipBody(lines: seq<string>, start: nat) returns (i: nat)
    requires start <= |lines|
    ensures start <= i <= |lines|
    ensures i == |lines| || IsComment(lines[i])
    ensures forall j :: start <= j < i ==> !IsComment(lines[j])
    ensures i == start + BodyLength(lines[start..])
  {
    i := start;
    while i < |lines| && !IsComment(lines[i])
      invariant start <= i <= |lines|
      invariant forall j :: start <= j < i ==> !IsComment(lines[j])
      invariant BodyLength(lines[start..]) == (i - start) + BodyLength(lines[i..])
    {
      BodyStep(lines, i);
      i := i + 1;
    }
    BodyEnd(lines, i);
  }

  lemma BodyStep(lines: seq<string>, i: nat)
    requires i < |lines| && !IsComment(lines[i])
    ensures BodyLength(lines[i..]) == 1 + BodyLength(lines[i + 1..])
  {
    assert lines[i..][1..] == lines[i + 1..];
  }

  lemma BodyEnd(lines: seq<string>, i: nat)
    requires i <= |lines| && (i == |lines| || IsComment(lines[i]))
    ensures BodyLength(lines[i..]) == 0
  {
  }

  /** A marker at line i drops out together with its body, which ends at e. */
  lemma MarkerLine(lines: seq<string>, i: nat, e: nat, name: string, done: seq<string>)
    requires i < |lines| && IsSectionMarker(lines[i], name)
    requires e == i + 1 + BodyLength(lines[i + 1..])
    ensures done + Removed(lines[i..], name) == done + Removed(lines[e..], name)
  {
    assert lines[i..][1..] == lines[i + 1..];
    assert lines[i..][1 + BodyLength(lines[i + 1..])..] == lines[e..];
  }

  lemma KeepLine(lines: seq<string>, i: nat, name: string, done: seq<string>)
    requires i < |lines| && !IsSectionMarker(lines[i], name)
    ensures done + Removed(lines[i..], name) == (done + [lines[i]]) + Removed(lines[i + 1..], name)
  {
    assert lines[i..][1..] == lines[i + 1..];
    assert Removed(lines[i..], name) == [lines[i]] + Removed(lines[i + 1..], name);
  }

  /** `a` is an order-preserving subsequence of `b`. */
  predicate SubSeq(a: seq<string>, b: seq<string>)
    decreases |b|
  {
    if a == [] then true
    else if b == [] then false
    else (a[0] == b[0] && SubSeq(a[1..], b[1..])) || SubSeq(a, b[1..])
  }

  lemma {:induction false} SubSeqSkip(a: seq<string>, b: seq<string>, k: nat)
    requires k <= |b| && SubSeq(a, b[k..])
    ensures SubSeq(a, b)
    decreases k
  {
    if k > 0 {
      assert b[1..][k - 1..] == b[k..];
      SubSeqSkip(a, b[1..], k - 1);
      assert b != [];
      assert a == [] || SubSeq(a, b[1..]);
    }
  }

  /** What is written back is the input with some lines left out, in order. */
  lemma {:induction false} RemovedSubSeq(lines: seq<string>, name: string)
    ensures SubSeq(Removed(lines, name), lines)
    decreases |lines|
  {
    if lines != [] {
      if IsSectionMarker(lines[0], name) {
        var k := 1 + BodyLength(lines[1..]);
        RemovedSubSeq(lines[k..], name);
        SubSeqSkip(Removed(lines, name), lines, k);
      } else {
        RemovedSubSeq(lines[1..], name);
        var r := Removed(lines, name);
        assert r[0] == lines[0] && r[1..] == Removed(lines[1..], name);
      }
    }
  }

  /** Without a line that strips to the marker, the file is written back as read. */
  lemma {:induction false} RemovedUnchanged(lines: seq<string>, name: string)
    requires forall i :: 0 <= i < |lines| ==> !IsSectionMarker(lines[i], name)
    ensures Removed(lines, name) == lines
    decreases |lines|
  {
    if lines != [] {
      RemovedUnchanged(lines[1..], name);
      assert [lines[0]] + lines[1..] == lines;
    }
  }

  /** No line that strips to the marker survives the deletion. */
  lemma {:induction false} NoMarkerLeft(lines: seq<string>, name: string)
    ensures forall i :: 0 <= i < |Removed(lines, name)| ==> !IsSectionMarker(Removed(lines, name)[i], name)
    decreases |lines|
  {
    if lines != [] {
      if IsSectionMarker(lines[0], name) {
        NoMarkerLeft(lines[1 + BodyLength(lines[1..])..], name);
      } else {
        NoMarkerLeft(lines[1..], name);
      }
    }
  }

  /** Deleting a second time changes nothing. */
  lemma RemovedTwice(lines: seq<string>, name: string)
    ensures Removed(Removed(lines, name), name) == Removed(lines, name)
  {
    NoMarkerLeft(lines, name);
    RemovedUnchanged(Removed(lines, name), name);
  }

  /** The comment lines of `ls` other than the marker, in order. */
  function OtherComments(ls: seq<string>, name: string): seq<string>
  {
    if ls == [] then []
    else if IsComment(ls[0]) && !IsSectionMarker(ls[0], name) then [ls[0]] + OtherComments(ls[1..], name)
    else OtherComments(ls[1..], name)
  }

  /** The body of a section holds no comment line. */
  lemma {:induction false} BodyHasNoComments(ls: seq<string>, name: string)
    ensures OtherComments(ls, name) == OtherComments(ls[BodyLength(ls)..], name)
    decreases |ls|
  {
    if ls != [] && !IsComment(ls[0]) {
      BodyHasNoComments(ls[1..], name);
      assert ls[1..][BodyLength(ls[1..])..] == ls[BodyLength(ls)..];
    }
  }

  /** Every comment line other than the marker is kept, in order. */
  lemma {:induction false} CommentsKept(lines: seq<string>, name: string)
    ensures OtherComments(Removed(lines, name), name) == OtherComments(lines, name)
    decreases |lines|
  {
    if lines != [] {
      if IsSectionMarker(lines[0], name) {
        var k := 1 + BodyLength(lines[1..]);
        CommentsKept(lines[k..], name);
        BodyHasNoComments(lines[1..], name);
        assert lines[1..][BodyLength(lines[1..])..] == lines[k..];
      } else {
        CommentsKept(lines[1..], name);
        var r := Removed(lines, name);
        assert r[0] == lines[0] && r[1..] == Removed(lines[1..], name);
      }
    }
  }

  /** `b` cannot continue a section: it is empty or opens with a comment line. */
  predicate Closed(b: seq<string>)
  {
    b == [] || IsComment(b[0])
  }

  /** A section cannot run past a comment line, so it ends where `a` ends. */
  lemma {:induction false} BodyAppend(x: seq<string>, b: seq<string>)
    requires Closed(b)
    ensures BodyLength(x + b) == BodyLength(x)
    decreases |x|
  {
    if x == [] {
      assert x + b == b;
    } else if !IsComment(x[0]) {
      assert (x + b)[1..] == x[1..] + b;
      BodyAppend(x[1..], b);
    }
  }

  /** Lines appended after `a` starting with a comment line are deleted on
      their own. */
  lemma {:induction false} RemovedAppend(a: seq<string>, b: seq<string>, name: string)
    requires Closed(b)
    ensures Removed(a + b, name) == Removed(a, name) + Removed(b, name)
    decreases |a|
  {
    if a == [] {
      assert a + b == b;
    } else if IsSectionMarker(a[0], name) {
      RemovedAppend(a[1 + BodyLength(a[1..])..], b, name);
      AppendAfterMarker(a, b, name);
    } else {
      RemovedAppend(a[1..], b, name);
      AppendAfterKept(a, b, name);
    }
  }

  lemma AppendAfterMarker(a: seq<string>, b: seq<string>, name: string)
    requires Closed(b)
    requires a != [] && IsSectionMarker(a[0], name)
    requires Removed(a[1 + BodyLength(a[1..])..] + b, name)
      == Removed(a[1 + BodyLength(a[1..])..], name) + Removed(b, name)
    ensures Removed(a + b, name) == Removed(a, name) + Removed(b, name)
  {
    SkipAppended(a, b, name);
    RemovedAtMarker(a, name);
  }

  lemma AppendAfterKept(a: seq<string>, b: seq<string>, name: string)
    requires a != [] && !IsSectionMarker(a[0], name)
    requires Removed(a[1..] + b, name) == Removed(a[1..], name) + Removed(b, name)
    ensures Removed(a + b, name) == Removed(a, name) + Removed(b, name)
  {
    var y, z := Removed(a[1..], name), Removed(b, name);
    calc {
      Removed(a + b, name);
    == { KeepAppended(a, b, name); }
      [a[0]] + (y + z);
    == // concatenation is associative
      ([a[0]] + y) + z;
    == { RemovedAtKept(a, name); }
      Removed(a, name) + z;
    }
  }

  lemma SkipAppended(a: seq<string>, b: seq<string>, name: string)
    requires Closed(b)
    requires a != [] && IsSectionMarker(a[0], name)
    ensures Removed(a + b, name) == Removed(a[1 + BodyLength(a[1..])..] + b, name)
  {
    var k := BodyLength(a[1..]);
    assert (a + b)[1..] == a[1..] + b;
    BodyAppend(a[1..], b);
    assert (a + b)[1 + k..] == a[1 + k..] + b;
    RemovedAtMarker(a + b, name);
  }

  lemma RemovedAtKept(l: seq<string>, name: string)
    requires l != [] && !IsSectionMarker(l[0], name)
    ensures Removed(l, name) == [l[0]] + Removed(l[1..], name)
  {
  }

  lemma RemovedAtMarker(l: seq<string>, name: string)
    requires l != [] && IsSectionMarker(l[0], name)
    ensures Removed(l, name) == Removed(l[1 + BodyLength(l[1..])..], name)
  {
  }

  lemma KeepAppended(a: seq<string>, b: seq<string>, name: string)
    requires a != [] && !IsSectionMarker(a[0], name)
    ensures Removed(a + b, name) == [a[0]] + Removed(a[1..] + b, name)
  {
    var l := a + b;
    assert l[0] == a[0] && l[1..] == a[1..] + b;
  }

  /** A line whose first character is visible and not '#' is no comment. */
  lemma NotComment(s: string)
    requires s != [] && '!' <= s[0] <= '~' && s[0] != '#'
    ensures !IsComment(s)
  {
    VisibleNotSpace(s[0]);
    StripFirst(s);
  }

  /** The rendered peer block is exactly one section of its client. */
  lemma BlockRemoved(name: string, pub: string, psk: string, ip: string)
    requires Renderable(name, pub, psk, ip)
    ensures Removed(BlockLines(name, pub, psk, ip), name) == []
  {
    var b := BlockLines(name, pub, psk, ip);
    assert IsSectionMarker(b[0], name) by {
      BlankChars();
      assert b[0] == MarkerPrefix + " " + name + "\n";
      StripPaddedMarker(" ", name);
    }
    NotComment(b[1]);
    NotComment(b[2]);
    NotComment(b[3]);
    NotComment(b[4]);
    assert BodyLength(b[1..]) == 4 by { BodyOfBlock(b); }
    assert b[5..] == [];
  }

  lemma BodyOfBlock(b: seq<string>)
    requires |b| == 5 && !IsComment(b[1]) && !IsComment(b[2]) && !IsComment(b[3]) && !IsComment(b[4])
    ensures BodyLength(b[1..]) == 4
  {
    assert b[4..][1..] == [];
    assert BodyLength(b[4..]) == 1;
    assert b[3..][1..] == b[4..];
    assert BodyLength(b[3..]) == 2;
    assert b[2..][1..] == b[3..];
    assert BodyLength(b[2..]) == 3;
    assert b[1..][1..] == b[2..];
  }

  /** Deleting a client right after adding it deletes exactly what deleting
      it from the file before the add would have, with the line break that
      opens the appended block kept: the new section itself is gone
      without a trace. Sections of the same name already in the file go
      too, since add_client does not refuse a name in use. */
  lemma AddThenDelete(t: string, name: string, pub: string, psk: string, ip: string)
    requires Renderable(name, pub, psk, ip)
    ensures Removed(Lines(t + PeerBlock(name, pub, psk, ip)), name) == Removed(Lines(t + "\n"), name)
  {
    var b := BlockLines(name, pub, psk, ip);
    LinesAfterAppend(t, name, pub, psk, ip);
    assert IsComment(b[0]) by { BlockRemoved(name, pub, psk, ip); }
    RemovedAppend(Lines(t + "\n"), b, name);
    BlockRemoved(name, pub, psk, ip);
  }

  /** An earlier section of the same name goes as well, and a blank line
      after it counts as part of its body: deleting bob from a file that
      holds only bob's earlier section leaves nothing. */
  lemma EarlierSectionDeleted()
    ensures Removed(["# Client: bob\n", "AllowedIPs = 10.8.0.2/32\n", "\n"], "bob") == []
  {
    var ls := ["# Client: bob\n", "AllowedIPs = 10.8.0.2/32\n", "\n"];
    assert IsSectionMarker(ls[0], "bob") by {
      BlankChars();
      assert ls[0] == MarkerPrefix + " " + "bob" + "\n";
      StripPaddedMarker(" ", "bob");
    }
    NotComment(ls[1]);
    assert !IsComment(ls[2]) by {
      BlankChars();
      assert ls[2] == "\n" + [] + [];
      StripSurrounded("\n", [], []);
    }
    assert ls[1..][1..] == ls[2..] && ls[2..][1..] == ls[3..] == [];
    assert BodyLength(ls[1..]) == 2;
  }

  /** The listing and the deleter read a marker differently: one with any
      blank run after "# Client:" lists the client, but the deleter finds
      it only when that run is one space. */
  lemma MarkerGap(gap: string, name: string)
    requires AllSpace(gap) && PlainName(name)
    ensures IsMarker(MarkerPrefix + gap + name + "\n")
    ensures MarkerName(MarkerPrefix + gap + name + "\n") == name
    ensures IsSectionMarker(MarkerPrefix + gap + name + "\n", name) <==> gap == " "
  {
    PaddedMarkerName(gap, name);
    StripPaddedMarker(gap, name);
    if MarkerPrefix + gap + name == SectionMarker(name) {
      assert |gap| == 1;
      assert gap[0] == (MarkerPrefix + gap + name)[|MarkerPrefix|];
    }
  }

  /** A client listed from a marker whose blank run after "# Client:" is
      anything but one space survives its own deletion: the file is written
      back unchanged. */
  lemma WideMarkerSurvives(gap: string, name: string, ip: string)
    requires AllSpace(gap) && gap != " " && PlainName(name) && AddressText(ip)
    ensures Clients([MarkerPrefix + gap + name + "\n", "AllowedIPs = " + ip + "/32\n"]) == [Client(name, ip)]
    ensures Removed([MarkerPrefix + gap + name + "\n", "AllowedIPs = " + ip + "/32\n"], name)
      == [MarkerPrefix + gap + name + "\n", "AllowedIPs = " + ip + "/32\n"]
  {
    var m := MarkerPrefix + gap + name + "\n";
    var l := "AllowedIPs = " + ip + "/32\n";
    assert IsMarker(m) && MarkerName(m) == name && !IsSectionMarker(m, name) by { MarkerGap(gap, name); }
    assert LineAddress(l) == Some(ip) by { AddressLine(ip); }
    assert !IsMarker(l) && !IsComment(l) by { NotMarker(l); NotComment(l); }
    assert !IsSectionMarker(l, name) by { MarkerIsComment(l, name); }
    MarkerThenAddress(m, l, Client(name, ip));
    RemovedPair(m, l, name);
  }

  lemma MarkerIsComment(line: string, name: string)
    ensures IsSectionMarker(line, name) ==> IsComment(line)
  {
    var t := SectionMarker(name);
    assert t[0] == '#';
    assert t[..1] == "#";
  }

  lemma RemovedPair(m: string, l: string, name: string)
    requires !IsSectionMarker(m, name) && !IsSectionMarker(l, name)
    ensures Removed([m, l], name) == [m, l]
  {
    assert Removed([l], name) == [l] by {
      assert [l][1..] == [];
      RemovedAtKept([l], name);
    }
    assert [m, l][1..] == [l];
    RemovedAtKept([m, l], name);
  }

  /** The two-space marker of the example: "# Client:  bob" lists bob, and
      deleting bob leaves the file as it is. */
  lemma TwoSpaceMarker(ip: string)
    requires AddressText(ip)
    ensures Clients(["# Client:  bob\n", "AllowedIPs = " + ip + "/32\n"]) == [Client("bob", ip)]
    ensures Removed(["# Client:  bob\n", "AllowedIPs = " + ip + "/32\n"], "bob")
      == ["# Client:  bob\n", "AllowedIPs = " + ip + "/32\n"]
  {
    BlankChars();
    VisibleNotSpace('b');
    assert "# Client:  bob\n" == MarkerPrefix + "  " + "bob" + "\n";
    assert !Contains("bob", MarkerPrefix) by { ShortNotContains("bob", MarkerPrefix); }
    WideMarkerSurvives("  ", "bob", ip);
  }

  // ----- the listing after a deletion -----

  /** Deleting a client added between `a` and `b` gives back `a` and `b`,
      less the lines after the block up to the next comment line, which
      the deleter takes as part of the section; the listing loses exactly
      the new client, and the address it held is free again unless another
      line holds it. This needs that neither part holds a section of the
      same name and that `b`, both as it is and after those lines, starts
      with four lines that offer no address (as a rendered block's marker,
      [Peer], PublicKey and PresharedKey lines do). */
  lemma DeleteAddedClient(a: seq<string>, b: seq<string>, name: string, pub: string, psk: string, ip: string)
    requires Renderable(name, pub, psk, ip)
    requires forall k :: 0 <= k < |a| ==> !IsSectionMarker(a[k], name)
    requires forall k :: 0 <= k < |b| ==> !IsSectionMarker(b[k], name)
    requires QuietStart(b) && QuietStart(b[BodyLength(b)..])
    ensures Removed(a + BlockLines(name, pub, psk, ip) + b, name) == a + b[BodyLength(b)..]
    ensures Clients(a + BlockLines(name, pub, psk, ip) + b) == Clients(a) + [Client(name, ip)] + Clients(b)
    ensures Clients(Removed(a + BlockLines(name, pub, psk, ip) + b, name)) == Clients(a) + Clients(b)
    ensures forall i :: (Occupied(Removed(a + BlockLines(name, pub, psk, ip) + b, name), i)
                         <==> Occupied(a, i) || Occupied(b[BodyLength(b)..], i))
  {
    var blk := BlockLines(name, pub, psk, ip);
    var n := BodyLength(b);
    var rest := b[n..];
    RemovedAddedBlock(a, b, name, pub, psk, ip);
    // the listing before
    AppendBlockLines(a, name, pub, psk, ip);
    ClientsAppendQuiet(a + blk, b);
    // the listing after
    ClientsAppendQuiet(a, rest);
    BodyNotComment(b);
    forall k | 0 <= k < n ensures !IsMarker(b[..n][k]) {
      MarkerIsListedComment(b[k]);
    }
    assert b == b[..n] + rest;
    ClientsAfterUnmarked(b[..n], rest);
    forall i: nat {
      OccupiedAppend(a, rest, i);
    }
  }

  lemma RemovedAddedBlock(a: seq<string>, b: seq<string>, name: string, pub: string, psk: string, ip: string)
    requires Renderable(name, pub, psk, ip)
    requires forall k :: 0 <= k < |a| ==> !IsSectionMarker(a[k], name)
    requires forall k :: 0 <= k < |b| ==> !IsSectionMarker(b[k], name)
    ensures Removed(a + BlockLines(name, pub, psk, ip) + b, name) == a + b[BodyLength(b)..]
  {
    BlockOpensSection(name, pub, psk, ip);
    RemovedSectionBetween(a, BlockLines(name, pub, psk, ip), b, name);
  }

  /** A section between two parts without its marker goes, and with it
      the lines after it up to the next comment line. */
  lemma RemovedSectionBetween(a: seq<string>, s: seq<string>, b: seq<string>, name: string)
    requires s != [] && IsSectionMarker(s[0], name)
    requires forall k :: 0 <= k < |s| - 1 ==> !IsComment(s[1..][k])
    requires forall k :: 0 <= k < |a| ==> !IsSectionMarker(a[k], name)
    requires forall k :: 0 <= k < |b| ==> !IsSectionMarker(b[k], name)
    ensures Removed(a + s + b, name) == a + b[BodyLength(b)..]
  {
    MarkerIsComment(s[0], name);
    assert a + s + b == a + (s + b);
    assert (s + b)[0] == s[0];
    RemovedAppend(a, s + b, name);
    RemovedUnchanged(a, name);
    SectionThenRest(s, b, name);
    RemovedUnchanged(b[BodyLength(b)..], name);
  }

  lemma SectionThenRest(s: seq<string>, b: seq<string>, name: string)
    requires s != [] && IsSectionMarker(s[0], name)
    requires forall k :: 0 <= k < |s| - 1 ==> !IsComment(s[1..][k])
    ensures Removed(s + b, name) == Removed(b[BodyLength(b)..], name)
  {
    var n := BodyLength(b);
    var l := s + b;
    assert l[1..] == s[1..] + b;
    BodyThrough(s[1..], b);
    assert BodyLength(l[1..]) == |s| - 1 + n;
    assert l[0] == s[0];
    RemovedAtMarker(l, name);
    assert l[1 + BodyLength(l[1..])..] == b[n..];
  }

  /** The block opens with its client's section marker, followed by four
      lines that are no comment lines. */
  lemma BlockOpensSection(name: string, pub: string, psk: string, ip: string)
    requires Renderable(name, pub, psk, ip)
    ensures IsSectionMarker(BlockLines(name, pub, psk, ip)[0], name)
    ensures forall k :: 0 <= k < 4 ==> !IsComment(BlockLines(name, pub, psk, ip)[1..][k])
  {
    var blk := BlockLines(name, pub, psk, ip);
    BlockRemoved(name, pub, psk, ip);
    NotComment(blk[1]);
    NotComment(blk[2]);
    NotComment(blk[3]);
    NotComment(blk[4]);
  }

  /** The lines a section's body takes are no comment lines, and what
      follows them is closed. */
  lemma {:induction false} BodyNotComment(ls: seq<string>)
    ensures forall k :: 0 <= k < BodyLength(ls) ==> !IsComment(ls[k])
    ensures Closed(ls[BodyLength(ls)..])
    decreases |ls|
  {
    if ls != [] && !IsComment(ls[0]) {
      BodyNotComment(ls[1..]);
    }
  }

  /** A body runs on through lines that are no comment lines. */
  lemma {:induction false} BodyThrough(x: seq<string>, y: seq<string>)
    requires forall k :: 0 <= k < |x| ==> !IsComment(x[k])
    ensures BodyLength(x + y) == |x| + BodyLength(y)
    decreases |x|
  {
    if x == [] {
      assert x + y == y;
    } else {
      assert (x + y)[0] == x[0];
      assert (x + y)[1..] == x[1..] + y;
      BodyThrough(x[1..], y);
    }
  }

  /** A line the listing takes as a marker is a comment line to the
      deleter. */
  lemma MarkerIsListedComment(line: string)
    ensures IsMarker(line) ==> IsComment(line)
  {
    var s := Strip(line);
    if IsMarker(line) {
      assert s[..1] == s[..|MarkerPrefix|][..1];
    }
  }

  /** Two markers sharing one window: both are listed with its address,
      and deleting the second takes the window's lines with it, so the
      first is listed no more. */
  lemma SharedWindowLost(x: string, y: string, ip: string)
    requires Letter(x) && Letter(y) && x != y && AddressText(ip)
    ensures Clients(SharedWindow(x, y, ip)) == [Client(x, ip), Client(y, ip)]
    ensures Removed(SharedWindow(x, y, ip), y) == ["# Client: " + x + "\n"]
    ensures Clients(["# Client: " + x + "\n"]) == []
  {
    SharedWindowListing(x, y, ip);
    SharedWindowRemoval(x, y, ip);
    var one := ["# Client: " + x + "\n"];
    assert ClientAt(one, 0).None?;
    assert Entries(one) == [None];
    PresentOfNone([None]);
  }

  /** A one-letter capital name. */
  predicate Letter(name: string)
  {
    |name| == 1 && 'A' <= name[0] <= 'Z'
  }

  /** The marker of x, the marker of y, then y's [Peer] line and address:
      x's window reaches y's address too. */
  function SharedWindow(x: string, y: string, ip: string): seq<string>
  {
    ["# Client: " + x + "\n", "# Client: " + y + "\n", "[Peer]\n", "AllowedIPs = " + ip + "/32\n"]
  }

  lemma SharedWindowLines(x: string, y: string, ip: string)
    requires Letter(x) && Letter(y) && AddressText(ip)
    ensures IsMarker(SharedWindow(x, y, ip)[0]) && MarkerName(SharedWindow(x, y, ip)[0]) == x
    ensures IsMarker(SharedWindow(x, y, ip)[1]) && MarkerName(SharedWindow(x, y, ip)[1]) == y
    ensures !IsMarker(SharedWindow(x, y, ip)[2]) && !IsMarker(SharedWindow(x, y, ip)[3])
    ensures LineAddress(SharedWindow(x, y, ip)[1]).None? && LineAddress(SharedWindow(x, y, ip)[2]).None?
    ensures LineAddress(SharedWindow(x, y, ip)[3]) == Some(ip)
  {
    LetterMarker(x);
    LetterMarker(y);
    PeerLine();
    AddressLine(ip);
    NotMarker("AllowedIPs = " + ip + "/32\n");
  }

  lemma PeerLine()
    ensures LineAddress("[Peer]\n").None? && !IsMarker("[Peer]\n") && !IsComment("[Peer]\n")
  {
    ShortNotContains("[Peer]\n", AllowedIpsKey);
    NotMarker("[Peer]\n");
    NotComment("[Peer]\n");
  }

  /** The marker of a one-letter name lists that name and offers no
      address. */
  lemma LetterMarker(name: string)
    requires Letter(name)
    ensures IsMarker("# Client: " + name + "\n") && MarkerName("# Client: " + name + "\n") == name
    ensures LineAddress("# Client: " + name + "\n").None?
  {
    VisibleNotSpace(name[0]);
    ShortNotContains(name, MarkerPrefix);
    ShortNotContains(name, AllowedIpsKey);
    RenderedMarkerName(name);
    QuietLine("# Client: ", name);
  }

  lemma SharedWindowListing(x: string, y: string, ip: string)
    requires Letter(x) && Letter(y) && AddressText(ip)
    ensures Clients(SharedWindow(x, y, ip)) == [Client(x, ip), Client(y, ip)]
  {
    var a := Some(Client(x, ip));
    var b := Some(Client(y, ip));
    SharedWindowEntries(x, y, ip);
    PresentSnoc([], a);
    assert [] + [a] == [a];
    PresentSnoc([a], b);
    PresentOfNone([None, None]);
    PresentAppend([a, b], [None, None]);
    assert [a, b] + [None, None] == [a, b, None, None];
  }

  lemma SharedWindowEntries(x: string, y: string, ip: string)
    requires Letter(x) && Letter(y) && AddressText(ip)
    ensures Entries(SharedWindow(x, y, ip)) == [Some(Client(x, ip)), Some(Client(y, ip)), None, None]
  {
    SharedWindowLines(x, y, ip);
    TwoMarkersOneAddress(SharedWindow(x, y, ip), Client(x, ip), Client(y, ip));
  }

  /** Two markers, a quiet line and an address line: both markers take
      that address. */
  lemma TwoMarkersOneAddress(ls: seq<string>, c: Client, d: Client)
    requires |ls| == 4 && c.ip == d.ip
    requires IsMarker(ls[0]) && MarkerName(ls[0]) == c.name
    requires IsMarker(ls[1]) && MarkerName(ls[1]) == d.name
    requires !IsMarker(ls[2]) && !IsMarker(ls[3])
    requires LineAddress(ls[1]).None? && LineAddress(ls[2]).None? && LineAddress(ls[3]) == Some(c.ip)
    ensures Entries(ls) == [Some(c), Some(d), None, None]
  {
    MarkerBeforeAddress(ls, 0, c);
    MarkerBeforeAddress(ls, 1, d);
    FourEntries(ls);
  }

  lemma MarkerBeforeAddress(ls: seq<string>, i: nat, c: Client)
    requires |ls| == 4 && i < 2 && IsMarker(ls[i]) && MarkerName(ls[i]) == c.name
    requires forall k :: i < k < 3 ==> LineAddress(ls[k]).None?
    requires LineAddress(ls[3]) == Some(c.ip)
    ensures ClientAt(ls, i) == Some(c)
  {
    assert WindowEnd(ls, i) == 4;
    FirstAddressInAt(ls, i + 1, 4, 3);
  }

  lemma FourEntries(ls: seq<string>)
    requires |ls| == 4
    ensures Entries(ls) == [ClientAt(ls, 0), ClientAt(ls, 1), ClientAt(ls, 2), ClientAt(ls, 3)]
  {
  }

  lemma SharedWindowRemoval(x: string, y: string, ip: string)
    requires Letter(x) && Letter(y) && x != y && AddressText(ip)
    ensures Removed(SharedWindow(x, y, ip), y) == ["# Client: " + x + "\n"]
  {
    var ls := SharedWindow(x, y, ip);
    BlankChars();
    VisibleNotSpace(x[0]);
    VisibleNotSpace(y[0]);
    assert !IsSectionMarker(ls[0], y) by {
      assert ls[0] == MarkerPrefix + " " + x + "\n";
      StripPaddedMarker(" ", x);
      assert SectionMarker(y)[10] != (MarkerPrefix + " " + x)[10];
    }
    assert IsSectionMarker(ls[1], y) by {
      assert ls[1] == MarkerPrefix + " " + y + "\n";
      StripPaddedMarker(" ", y);
    }
    PeerLine();
    NotComment(ls[3]);
    RemovedAtKept(ls, y);
    var tail := ls[1..];
    assert tail[1..] == ls[2..] && ls[2..] + [] == ls[2..];
    BodyThrough(ls[2..], []);
    RemovedAtMarker(tail, y);
    assert tail[1 + 2..] == [];
  }
}

=== FILE: diagnose.dfy ===
/** The checks diagnose_connection runs over the server configuration's
    text: the [Interface] header, a private key, the listening port against
    the endpoint's port, and one segment per [Peer] header, each checked for
    a public key and allowed addresses. */
module Diagnose {
  import opened Options
  import opened Strings
  import opened Patterns
  import Numbers
  import Registry
  import ClientConf

  const InterfaceHeader := "[Interface]"
  const PeerHeader := "[Peer]"
  /** PrivateKey\s*=\s*\S+ */
  const PrivateKeyCheck := ClientConf.PrivateKeyField
  /** ListenPort\s*=\s*(\d+) */
  const ListenPortField: SettledPattern := FieldPattern("ListenPort", Digits, "")
  /** PublicKey\s*=\s*(\S+) */
  const PublicKeyCheck := ClientConf.PublicKeyField
  /** AllowedIPs\s*=\s*([0-9./,\s]+) */
  const AllowedIpsCheck: SettledPattern := FieldPattern(Registry.AllowedIpsKey, AddressList, "")

  /** ENDPOINT.split(':')[-1] */
  function EndpointPort(endpoint: string): string
  {
    AfterLast(endpoint, ':')
  }

  /** The endpoint the client configurations name has port 51820. */
  lemma ServerEndpointPort()
    ensures EndpointPort(ClientConf.Endpoint) == "51820"
  {
    assert ClientConf.Endpoint == "92.113.151.201" + [':'] + "51820";
    AfterLastOfJoin("92.113.151.201", ':', "51820");
  }

  // ----- the [Peer] segments -----

  /** A "[Peer]" starts at position k of s. */
  predicate HeaderAt(s: string, k: nat)
  {
    k + 6 <= |s| && s[k] == '[' && s[k + 1] == 'P' && s[k + 2] == 'e' && s[k + 3] == 'e'
    && s[k + 4] == 'r' && s[k + 5] == ']'
  }

  lemma HeaderAtIsPrefix(s: string, k: nat)
    requires k <= |s|
    ensures HeaderAt(s, k) <==> StartsWith(s[k..], PeerHeader)
  {
    if HeaderAt(s, k) {
      assert s[k..][..6] == PeerHeader;
    }
    if StartsWith(s[k..], PeerHeader) {
      assert s[k..][..6] == PeerHeader;
      assert forall j :: 0 <= j < 6 ==> s[k + j] == s[k..][..6][j];
    }
  }

  /** Where the first "[Peer]" at or after k starts, or |s| when there is
      none. */
  function NextPeer(s: string, k: nat): (n: nat)
    requires k <= |s|
    ensures k <= n <= |s|
    ensures n < |s| ==> HeaderAt(s, n)
    decreases |s| - k
  {
    if k == |s| || HeaderAt(s, k) then k else NextPeer(s, k + 1)
  }

  /** No "[Peer]" starts between k and NextPeer. */
  lemma {:induction false} NoPeerBefore(s: string, k: nat, j: nat)
    requires k <= |s| && k <= j < NextPeer(s, k)
    ensures !HeaderAt(s, j)
    decreases j - k
  {
    if j > k {
      NoPeerBefore(s, k + 1, j);
    }
  }

  /** Positions without a "[Peer]" are passed over. */
  lemma {:induction false} NextPeerSkip(s: string, k: nat, n: nat)
    requires k <= n <= |s|
    requires forall j :: k <= j < n ==> !HeaderAt(s, j)
    ensures NextPeer(s, k) == NextPeer(s, n)
    decreases n - k
  {
    if k < n {
      NextPeerSkip(s, k + 1, n);
    }
  }

  /** Where the segment starting at the header at i ends: at the next
      "[Peer]" after the header, or at the end of the text. */
  function SegmentEnd(s: string, i: nat): (e: nat)
    requires HeaderAt(s, i)
    ensures i + 6 <= e <= |s|
  {
    NextPeer(s, i + 6)
  }

  /** The lazy match of \[Peer\].*?(?=\[Peer\]|\Z) with DOTALL, repeated
      from k on: each match starts at a "[Peer]" and runs up to the next one
      or the end, and the next search resumes where the match ended. */
  function SegmentsFrom(s: string, k: nat): seq<string>
    requires k <= |s|
    decreases |s| - k
  {
    if NextPeer(s, k) == |s| then []
    else [s[NextPeer(s, k)..SegmentEnd(s, NextPeer(s, k))]] + SegmentsFrom(s, SegmentEnd(s, NextPeer(s, k)))
  }

  function PeerSegments(s: string): seq<string>
  {
    SegmentsFrom(s, 0)
  }

  /** A segment: a "[Peer]" header with no other "[Peer]" after it. */
  predicate IsSegment(seg: string)
  {
    HeaderAt(seg, 0) && NextPeer(seg, 1) == |seg|
  }

  /** One step of SegmentsFrom. */
  lemma SegmentsStep(s: string, k: nat)
    requires k <= |s| && NextPeer(s, k) < |s|
    ensures SegmentsFrom(s, k)
      == [s[NextPeer(s, k)..SegmentEnd(s, NextPeer(s, k))]] + SegmentsFrom(s, SegmentEnd(s, NextPeer(s, k)))
  {
  }

  /** No header starts inside another one. */
  lemma InsideHeader(s: string, i: nat, j: nat)
    requires HeaderAt(s, i) && i < j < i + 6
    ensures !HeaderAt(s, j)
  {
    assert s[j] != '[';
  }

  /** The text cut out for a header is a segment. */
  lemma FirstSegment(s: string, i: nat)
    requires HeaderAt(s, i)
    ensures IsSegment(s[i..SegmentEnd(s, i)])
  {
    var e := SegmentEnd(s, i);
    var seg := s[i..e];
    forall j | 1 <= j < |seg| ensures !HeaderAt(seg, j) {
      if j < 6 {
        InsideHeader(s, i, i + j);
      } else if HeaderAt(seg, j) {
        assert HeaderAt(s, i + j);
        NoPeerBefore(s, i + 6, i + j);
      }
    }
    NextPeerSkip(seg, 1, |seg|);
  }

  /** The segments PeerSegments cuts are segments. */
  lemma {:induction false} SegmentsShape(s: string, k: nat)
    requires k <= |s|
    ensures forall m :: 0 <= m < |SegmentsFrom(s, k)| ==> IsSegment(SegmentsFrom(s, k)[m])
    decreases |s| - k
  {
    var i := NextPeer(s, k);
    if i < |s| {
      var e := SegmentEnd(s, i);
      var rest := SegmentsFrom(s, e);
      SegmentsStep(s, k);
      FirstSegment(s, i);
      SegmentsShape(s, e);
      forall m | 0 <= m < |SegmentsFrom(s, k)| ensures IsSegment(SegmentsFrom(s, k)[m]) {
        if m > 0 {
          assert SegmentsFrom(s, k)[m] == rest[m - 1];
        }
      }
    }
  }

  /** The segments, laid end to end, are the text from its first "[Peer]"
      on: nothing after that point is dropped or repeated. */
  lemma {:induction false} SegmentsCover(s: string, k: nat)
    requires k <= |s|
    ensures Join(SegmentsFrom(s, k)) == s[NextPeer(s, k)..]
    decreases |s| - k
  {
    var i := NextPeer(s, k);
    if i < |s| {
      var e := SegmentEnd(s, i);
      SegmentsStep(s, k);
      assert NextPeer(s, e) == e;
      SegmentsCover(s, e);
      JoinCons(s[i..e], SegmentsFrom(s, e));
      assert s[i..] == s[i..e] + s[e..];
    } else {
      assert s[|s|..] == [];
    }
  }

  lemma JoinCons(x: string, rest: seq<string>)
    ensures Join([x] + rest) == x + Join(rest)
  {
    assert ([x] + rest)[0] == x && ([x] + rest)[1..] == rest;
  }

  /** The number of "[Peer]" headers at or after k. */
  function PeerCountFrom(s: string, k: nat): nat
    requires k <= |s|
    decreases |s| - k
  {
    if k == |s| then 0 else (if HeaderAt(s, k) then 1 else 0) + PeerCountFrom(s, k + 1)
  }

  function PeerCount(s: string): nat
  {
    PeerCountFrom(s, 0)
  }

  lemma {:induction false} PeerCountSkip(s: string, k: nat, n: nat)
    requires k <= n <= |s|
    requires forall j :: k <= j < n ==> !HeaderAt(s, j)
    ensures PeerCountFrom(s, k) == PeerCountFrom(s, n)
    decreases n - k
  {
    if k < n {
      PeerCountSkip(s, k + 1, n);
    }
  }

  /** There is one segment per "[Peer]" header. */
  lemma {:induction false} SegmentsCount(s: string, k: nat)
    requires k <= |s|
    ensures |SegmentsFrom(s, k)| == PeerCountFrom(s, k)
    decreases |s| - k
  {
    var i := NextPeer(s, k);
    forall j | k <= j < i ensures !HeaderAt(s, j) {
      NoPeerBefore(s, k, j);
    }
    PeerCountSkip(s, k, i);
    if i < |s| {
      var e := SegmentEnd(s, i);
      forall j | i + 1 <= j < e ensures !HeaderAt(s, j) {
        if j < i + 6 {
          InsideHeader(s, i, j);
        } else {
          NoPeerBefore(s, i + 6, j);
        }
      }
      PeerCountSkip(s, i + 1, e);
      SegmentsStep(s, k);
      SegmentsCount(s, e);
    }
  }

  // ----- the checks -----

  /** What diagnose_connection finds in one [Peer] segment. */
  datatype PeerCheck = PeerCheck(hasPublicKey: bool, hasAllowedIps: bool)

  /** What diagnose_connection reports about the configuration: whether the
      [Interface] header and a private key are there, the listening port if
      one is set, whether it differs from the endpoint's port, and one check
      per [Peer] segment (none: no peers are configured). */
  datatype Report = Report(hasInterface: bool, hasPrivateKey: bool, listenPort: Option<string>,
                           portMismatch: bool, peers: seq<PeerCheck>)

  function CheckPeer(seg: string): PeerCheck
  {
    PeerCheck(Search(seg, PublicKeyCheck).Some?, Search(seg, AllowedIpsCheck).Some?)
  }

  function CheckPeers(segs: seq<string>): (r: seq<PeerCheck>)
    ensures |r| == |segs| && forall k :: 0 <= k < |segs| ==> r[k] == CheckPeer(segs[k])
  {
    if segs == [] then [] else [CheckPeer(segs[0])] + CheckPeers(segs[1..])
  }

  /** The report on a configuration text. The port is a run of digits, the
      mismatch is raised exactly when a port is set and is not 51820, and
      there is one peer check per "[Peer]" header, in order. */
  function Diagnose(text: string): (r: Report)
    ensures r.listenPort.Some? ==> r.listenPort.value != [] && Numbers.AllDigits(r.listenPort.value)
    ensures r.portMismatch <==> r.listenPort.Some? && r.listenPort.value != "51820"
    ensures |r.peers| == |PeerSegments(text)| == PeerCount(text)
    ensures forall k :: 0 <= k < |r.peers| ==> r.peers[k] == CheckPeer(PeerSegments(text)[k])
  {
    ServerEndpointPort();
    SearchInClass(text, ListenPortField);
    SegmentsCount(text, 0);
    var port := Search(text, ListenPortField);
    Report(Contains(text, InterfaceHeader),
           Search(text, PrivateKeyCheck).Some?,
           port,
           port.Some? && EndpointPort(ClientConf.Endpoint) != port.value,
           CheckPeers(PeerSegments(text)))
  }

  /** A match anywhere is found by the search. */
  lemma MatchFound(s: string, k: nat, p: FieldPattern)
    requires k <= |s| && MatchHere(s[k..], p).Some?
    ensures Search(s, p).Some?
  {
    SearchAtIndex(s, p);
    if MatchIndex(s, p) > |s| {
      NothingBeforeIndex(s, p, k);
    }
  }

  /** "KEY = v..." matches KEY\s*=\s*(CLASS+) when v starts with a
      non-blank of the class. */
  lemma AssignmentMatches(v: string, p: FieldPattern)
    requires p.suffix == [] && v != [] && !IsSpace(v[0]) && InClass(v[0], p.value)
    ensures MatchHere(p.key + " = " + v, p).Some?
  {
    var s := p.key + " = " + v;
    assert s[..|p.key|] == p.key;
    assert s[|p.key|..] == " " + "=" + (" " + v);
    BlankChars();
    AfterKeyOfEquals(" ", " " + v, p);
    LeadingBlank(v);
    assert (" " + v)[1..] == v;
  }

  /** The segment add_client writes for a new peer. */
  function PeerSection(pub: string, psk: string, ip: string): string
  {
    "[Peer]\n" + ("PublicKey = " + pub + "\n") + ("PresharedKey = " + psk + "\n") + ("AllowedIPs = " + ip + "/32\n")
  }

  /** ... is a segment, for keys without '['. */
  lemma SectionIsSegment(pub: string, psk: string, ip: string)
    requires '[' !in pub && '[' !in psk && Registry.AddressText(ip)
    ensures IsSegment(PeerSection(pub, psk, ip))
  {
    var s := PeerSection(pub, psk, ip);
    var rest := ("PublicKey = " + pub + "\n") + ("PresharedKey = " + psk + "\n") + ("AllowedIPs = " + ip + "/32\n");
    SectionBody(pub, psk, ip);
    assert s == "[Peer]\n" + rest;
    forall j | 1 <= j < |s| ensures !HeaderAt(s, j) {
      if j >= 7 {
        assert s[j] == rest[j - 7];
        assert rest[j - 7] in rest;
      }
    }
    NextPeerSkip(s, 1, |s|);
  }

  /** The section's lines after its header hold no '['. */
  lemma SectionBody(pub: string, psk: string, ip: string)
    requires '[' !in pub && '[' !in psk && Registry.AddressText(ip)
    ensures '[' !in ("PublicKey = " + pub + "\n") + ("PresharedKey = " + psk + "\n") + ("AllowedIPs = " + ip + "/32\n")
  {
    assert '[' !in "PublicKey = " + pub + "\n";
    assert '[' !in "PresharedKey = " + psk + "\n";
    assert '[' !in ip;
    assert '[' !in "AllowedIPs = " + ip + "/32\n";
  }

  /** ... and passes both peer checks. */
  lemma SectionPasses(pub: string, psk: string, ip: string)
    requires pub != [] && NoSpace(pub) && Registry.AddressText(ip)
    ensures CheckPeer(PeerSection(pub, psk, ip)) == PeerCheck(true, true)
  {
    var l2 := "PresharedKey = " + psk + "\n";
    var l3 := "AllowedIPs = " + ip + "/32\n";
    var pre := "[Peer]\n" + ("PublicKey = " + pub + "\n") + l2;
    assert PeerSection(pub, psk, ip) == "[Peer]\n" + ("PublicKey = " + pub + "\n") + (l2 + l3);
    assert PeerSection(pub, psk, ip) == pre + l3;
    PublicKeyFound(pub, l2 + l3);
    AllowedIpsFound(pre, ip);
  }

  lemma PublicKeyFound(pub: string, rest: string)
    requires pub != [] && NoSpace(pub)
    ensures Search("[Peer]\n" + ("PublicKey = " + pub + "\n") + rest, PublicKeyCheck).Some?
  {
    var s := "[Peer]\n" + ("PublicKey = " + pub + "\n") + rest;
    var v := pub + "\n" + rest;
    PublicKeyLiteral();
    assert s == "[Peer]\n" + (ClientConf.PublicKeyWord + " = " + v);
    assert s[7..] == ClientConf.PublicKeyWord + " = " + v;
    assert v[0] == pub[0];
    AssignmentMatches(v, PublicKeyCheck);
    MatchFound(s, 7, PublicKeyCheck);
  }

  lemma PublicKeyLiteral()
    ensures "PublicKey = " == ClientConf.PublicKeyWord + " = "
  {
  }

  lemma AllowedIpsFound(pre: string, ip: string)
    requires Registry.AddressText(ip)
    ensures Search(pre + ("AllowedIPs = " + ip + "/32\n"), AllowedIpsCheck).Some?
  {
    var v := ip + "/32\n";
    var s := pre + ("AllowedIPs = " + ip + "/32\n");
    AllowedIpsLiteral();
    assert s == pre + (Registry.AllowedIpsKey + " = " + v);
    assert s[|pre|..] == Registry.AllowedIpsKey + " = " + v;
    assert v[0] == ip[0];
    assert InClass(ip[0], Address);
    AssignmentMatches(v, AllowedIpsCheck);
    MatchFound(s, |pre|, AllowedIpsCheck);
  }

  lemma AllowedIpsLiteral()
    ensures "AllowedIPs = " == Registry.AllowedIpsKey + " = "
  {
  }

  // ----- a segment at the end of the text -----

  /** A "[Peer]" starting in a text cannot run into a following part that
      starts with '['. */
  lemma HeaderLeft(a: string, b: string, j: nat)
    requires b != [] && b[0] == '[' && j < |a|
    ensures HeaderAt(a + b, j) == HeaderAt(a, j)
  {
    if j + 6 > |a| {
      assert (a + b)[|a|] == '[';
    }
  }

  lemma HeaderRight(a: string, b: string, j: nat)
    ensures HeaderAt(a + b, |a| + j) == HeaderAt(b, j)
  {
  }

  /** NextPeer over the first part of a text whose second part starts
      with '['. */
  lemma {:induction false} NextPeerLeft(a: string, b: string, k: nat)
    requires b != [] && b[0] == '[' && k <= |a|
    ensures NextPeer(a + b, k) == if NextPeer(a, k) < |a| then NextPeer(a, k) else NextPeer(a + b, |a|)
    decreases |a| - k
  {
    if k < |a| {
      HeaderLeft(a, b, k);
      if !HeaderAt(a, k) {
        NextPeerLeft(a, b, k + 1);
      }
    }
  }

  /** NextPeer over the second part. */
  lemma {:induction false} NextPeerRight(a: string, b: string, j: nat)
    requires j <= |b|
    ensures NextPeer(a + b, |a| + j) == |a| + NextPeer(b, j)
    decreases |b| - j
  {
    if j < |b| {
      HeaderRight(a, b, j);
      if !HeaderAt(b, j) {
        NextPeerRight(a, b, j + 1);
      }
    }
  }

  /** A segment at the end of the text is the last segment cut. */
  lemma {:induction false} LastSegment(a: string, b: string, k: nat)
    requires IsSegment(b) && k <= |a|
    ensures SegmentsFrom(a + b, k) != [] && SegmentsFrom(a + b, k)[|SegmentsFrom(a + b, k)| - 1] == b
    decreases |a| - k
  {
    var s := a + b;
    NextPeerLeft(a, b, k);
    var i := NextPeer(a, k);
    if i == |a| {
      SegmentAlone(a, b);
      SegmentsStep(s, k);
    } else {
      NextPeerLeft(a, b, i + 6);
      SegmentsStep(s, k);
      LastSegment(a, b, SegmentEnd(s, i));
    }
  }

  /** Behind the first part, the segment is cut whole and nothing follows. */
  lemma SegmentAlone(a: string, b: string)
    requires IsSegment(b)
    ensures NextPeer(a + b, |a|) == |a| && SegmentEnd(a + b, |a|) == |a + b|
    ensures (a + b)[|a|..|a + b|] == b && SegmentsFrom(a + b, |a + b|) == []
  {
    NextPeerRight(a, b, 0);
    NextPeerRight(a, b, 6);
    forall j | 1 <= j < 6 ensures !HeaderAt(b, j) {
      InsideHeader(b, 0, j);
    }
    NextPeerSkip(b, 1, 6);
  }

  /** After add_client appends a peer, the configuration's last segment is
      the new peer's section, and it passes both peer checks. */
  lemma AppendedPeerPasses(t: string, name: string, pub: string, psk: string, ip: string)
    requires pub != [] && NoSpace(pub) && '[' !in pub && '[' !in psk && Registry.AddressText(ip)
    ensures var segs := PeerSegments(t + Registry.PeerBlock(name, pub, psk, ip));
      segs != [] && segs[|segs| - 1] == PeerSection(pub, psk, ip)
      && CheckPeer(segs[|segs| - 1]) == PeerCheck(true, true)
  {
    var head := t + "\n" + ("# Client: " + name + "\n");
    assert t + Registry.PeerBlock(name, pub, psk, ip) == head + PeerSection(pub, psk, ip);
    SectionIsSegment(pub, psk, ip);
    LastSegment(head, PeerSection(pub, psk, ip), 0);
    SectionPasses(pub, psk, ip);
  }
}

=== FILE: manager.dfy ===
/** add_client and delete_client as updates of the server configuration
    file: the file is an object whose text the operations append to or
    rewrite; what the user types and what the `wg` tool prints come in as
    parameters. */
module Manager {
  import opened Options
  import opened Strings
  import opened Patterns
  import opened Registry
  import Deletion
  import Menu
  import ClientConf

  /** The server configuration file, ./wg0.conf. */
  class ConfigFile {
    var present: bool
    var text: string

    /** A file that does not exist holds no text. */
    predicate Valid()
      reads this
    {
      present || text == []
    }

    constructor (present: bool, text: string)
      ensures this.present == present && this.text == (if present then text else [])
      ensures Valid()
    {
      this.present := present;
      this.text := if present then text else [];
    }

    /** What open(CONF).read() gives: None when the file does not exist. */
    function Content(): (c: Option<string>)
      reads this
      ensures c.Some? <==> present
      ensures c.Some? ==> c.value == text
    {
      if present then Some(text) else None
    }

    /** What get_all_clients lists for the file as it is now. */
    function Listing(): (cs: seq<Client>)
      reads this
      ensures !present ==> cs == []
    {
      if present then Clients(Lines(text)) else []
    }

    /** open(CONF, 'a').write(block): the block goes after the text; a
        missing file is created. */
    method Append(block: string)
      modifies this
      ensures present && text == old(text) + block
      ensures Valid()
    {
      present := true;
      text := text + block;
    }

    /** open(CONF, 'w').writelines(lines): the text is replaced. */
    method Rewrite(lines: seq<string>)
      modifies this
      ensures present && text == Join(lines)
      ensures Valid()
    {
      present := true;
      text := Join(lines);
    }
  }

  // ----- add_client -----

  /** What `wg` printed for each step of add_client, None when the command
      failed: the server's public key, the client's private key, the
      client's public key, the preshared key. */
  datatype ToolOutputs = ToolOutputs(
    serverPub: Option<string>,
    clientPriv: Option<string>,
    clientPub: Option<string>,
    psk: Option<string>)

  datatype Keys = Keys(clientPriv: string, clientPub: string, psk: string, serverPub: string)

  datatype AddOutcome =
    | NoFreeAddress    // "Свободных IP не найдено"
    | ConfigMissing    // open(CONF, 'r') raised; the handler reports the error
    | NoServerKey      // no PrivateKey in the server configuration
    | ToolFailed       // a `wg` command failed or printed nothing
    | Added(name: string, ip: string, keys: Keys, clientConfig: string)

  /** The name typed, or client-TIMESTAMP when nothing was typed. */
  function ClientName(typed: string, timestamp: string): (name: string)
    ensures name != []
    ensures typed != [] ==> name == typed
    ensures typed == [] ==> StartsWith(name, "client-")
  {
    if typed == [] then "client-" + timestamp else typed
  }

  /** run_command and the test after it: the stripped output, or None
      when the command failed or printed only blanks. */
  function CommandOutput(out: Option<string>): (r: Option<string>)
    ensures r.Some? ==> r.value != [] && out.Some?
    ensures r.None? <==> out.None? || Strip(out.value) == []
  {
    match out
    case None => None
    case Some(o) => if Strip(o) == [] then None else Some(Strip(o))
  }

  predicate ToolsSucceed(tools: ToolOutputs)
  {
    tools.serverPub.Some? && CommandOutput(tools.clientPriv).Some?
    && CommandOutput(tools.clientPub).Some? && CommandOutput(tools.psk).Some?
  }

  /** Every host from 2 to 254 is taken. */
  predicate AllTaken(lines: seq<string>)
  {
    forall i :: 2 <= i <= 254 ==> Occupied(lines, i)
  }

  /** The address add_client hands out is the lowest free host. */
  predicate FirstFree(lines: seq<string>, ip: string)
  {
    exists i :: 2 <= i <= 254 && ip == HostAddress(i)
      && !Occupied(lines, i) && forall j :: 2 <= j < i ==> Occupied(lines, j)
  }

  /** add_client: pick the lowest free address, read the server's private
      key, run the key tools, append the peer block to the configuration
      and render the client's configuration. The file changes only when a
      client is added, and then only by the block at its end. When the
      client's name and keys read back (Renderable), every client listed
      before stays listed in order, the new client follows them, and its
      address is taken. */
  method AddClient(conf: ConfigFile, typedName: string, timestamp: string, tools: ToolOutputs)
    returns (outcome: AddOutcome)
    requires conf.Valid()
    modifies conf
    ensures conf.Valid()
    ensures !outcome.Added? ==> unchanged(conf)
    ensures outcome.NoFreeAddress? <==> AllTaken(Lines(old(conf.text)))
    ensures outcome.ConfigMissing? <==> !old(conf.present)
    ensures outcome.NoServerKey? <==>
      old(conf.present) && !outcome.NoFreeAddress? && Search(old(conf.text), ClientConf.PrivateKeyField).None?
    ensures outcome.Added? <==>
      old(conf.present) && !outcome.NoFreeAddress? && Search(old(conf.text), ClientConf.PrivateKeyField).Some?
      && ToolsSucceed(tools)
    ensures outcome.Added? ==>
      outcome.name == ClientName(typedName, timestamp)
      && FirstFree(Lines(old(conf.text)), outcome.ip)
      && outcome.keys == Keys(CommandOutput(tools.clientPriv).value, CommandOutput(tools.clientPub).value,
                              CommandOutput(tools.psk).value, Strip(tools.serverPub.value))
      && conf.text == old(conf.text) + PeerBlock(outcome.name, outcome.keys.clientPub, outcome.keys.psk, outcome.ip)
      && outcome.clientConfig
         == ClientConf.ClientConfig(outcome.keys.clientPriv, outcome.ip, outcome.keys.serverPub, outcome.keys.psk)
    ensures outcome.Added? && Renderable(outcome.name, outcome.keys.clientPub, outcome.keys.psk, outcome.ip) ==>
      conf.Listing() == old(conf.Listing()) + [Client(outcome.name, outcome.ip)]
      && conf.Listing() == Clients(Lines(old(conf.text) + "\n")) + [Client(outcome.name, outcome.ip)]
      && exists i :: 2 <= i <= 254 && outcome.ip == HostAddress(i) && Occupied(Lines(conf.text), i)
  {
    var name := ClientName(typedName, timestamp);
    // grep over a missing file fails, as over a file with no lines
    var ip := FindFreeIp(Lines(conf.text));
    assert ip.None? <==> AllTaken(Lines(conf.text));
    assert !conf.present ==> !Occupied(Lines(conf.text), 2);
    if ip.None? {
      return NoFreeAddress;
    }
    if !conf.present {
      return ConfigMissing;
    }
    var serverPriv := Search(conf.text, ClientConf.PrivateKeyField);
    if serverPriv.None? {
      return NoServerKey;
    }
    if tools.serverPub.None? {
      return ToolFailed;
    }
    var serverPub := Strip(tools.serverPub.value);
    var clientPriv := CommandOutput(tools.clientPriv);
    if clientPriv.None? {
      return ToolFailed;
    }
    var clientPub := CommandOutput(tools.clientPub);
    if clientPub.None? {
      return ToolFailed;
    }
    var psk := CommandOutput(tools.psk);
    if psk.None? {
      return ToolFailed;
    }
    ghost var before := conf.text;
    conf.Append(PeerBlock(name, clientPub.value, psk.value, ip.value));
    outcome := Added(name, ip.value, Keys(clientPriv.value, clientPub.value, psk.value, serverPub),
                     ClientConf.ClientConfig(clientPriv.value, ip.value, serverPub, psk.value));
    if Renderable(name, clientPub.value, psk.value, ip.value) {
      AppendedClientIsLast(before, name, clientPub.value, psk.value, ip.value);
      AppendKeepsEntries(before, name, clientPub.value, psk.value, ip.value);
      ghost var i :| 2 <= i <= 254 && ip.value == HostAddress(i);
      AppendOccupies(before, name, clientPub.value, psk.value, i);
    }
  }

  // ----- delete_client -----

  datatype DeleteOutcome =
    | NoClients           // "Клиенты не найдены"
    | Cancelled           // empty input or "0"
    | NotANumber          // int() raised; the handler reports the error
    | OutOfRange          // "Некорректный номер клиента"
    | Declined(client: Client)   // "Отменено пользователем"
    | Deleted(client: Client)

  /** The guard of delete_client over the listed clients: the number typed,
      then the confirmation. */
  function Decide(clients: seq<Client>, choice: string, answer: string): (r: DeleteOutcome)
    ensures r.NoClients? <==> clients == []
    ensures r.Deleted? <==>
      clients != [] && Menu.SelectIndex(choice, |clients|).Selected? && Menu.IsYes(answer)
    ensures r.Deleted? || r.Declined? ==>
      Menu.SelectIndex(choice, |clients|).Selected?
      && r.client == clients[Menu.SelectIndex(choice, |clients|).index]
    ensures clients != [] ==> (r.Cancelled? <==> choice == [] || choice == "0")
  {
    if clients == [] then NoClients
    else match Menu.SelectIndex(choice, |clients|)
      case Cancelled => Cancelled
      case NotANumber => NotANumber
      case OutOfRange => OutOfRange
      case Selected(k) => if Menu.IsYes(answer) then Deleted(clients[k]) else Declined(clients[k])
  }

  /** delete_client: list the clients, take the guard's decision, and on a
      confirmed choice write back the configuration without the chosen
      client's section. Nothing is written otherwise. */
  method DeleteClient(conf: ConfigFile, choice: string, answer: string) returns (outcome: DeleteOutcome)
    requires conf.Valid()
    modifies conf
    ensures conf.Valid()
    ensures outcome == Decide(old(conf.Listing()), choice, answer)
    ensures !outcome.Deleted? ==> unchanged(conf)
    ensures outcome.Deleted? ==>
      old(conf.present) && conf.text == Join(Deletion.Removed(Lines(old(conf.text)), outcome.client.name))
  {
    var clients := GetAllClients(conf.Content());
    outcome := Decide(clients, choice, answer);
    if outcome.Deleted? {
      var lines := Lines(conf.text);
      var newLines := Deletion.RemoveSection(lines, outcome.client.name);
      conf.Rewrite(newLines);
    }
  }

  /** Adding a client with a name and keys that read back lists it last;
      deleting it then removes what deleting it before the add would have,
      and its own section entirely. When the file held no section of that
      name, the file written back is the text before the add followed by
      the line break the block opens with. */
  lemma AddThenDeleteFile(before: string, after: string, name: string, pub: string, psk: string, ip: string)
    requires Renderable(name, pub, psk, ip)
    requires after == before + PeerBlock(name, pub, psk, ip)
    ensures Deletion.Removed(Lines(after), name) == Deletion.Removed(Lines(before + "\n"), name)
    ensures Clients(Lines(after)) == Clients(Lines(before + "\n")) + [Client(name, ip)]
    ensures Clients(Lines(after)) == Clients(Lines(before)) + [Client(name, ip)]
    ensures (forall i :: 0 <= i < |Lines(before + "\n")| ==> !Deletion.IsSectionMarker(Lines(before + "\n")[i], name))
      ==> Join(Deletion.Removed(Lines(after), name)) == before + "\n"
  {
    Deletion.AddThenDelete(before, name, pub, psk, ip);
    AppendedClientIsLast(before, name, pub, psk, ip);
    AppendKeepsEntries(before, name, pub, psk, ip);
    if forall i :: 0 <= i < |Lines(before + "\n")| ==> !Deletion.IsSectionMarker(Lines(before + "\n")[i], name) {
      Deletion.RemovedUnchanged(Lines(before + "\n"), name);
      LinesJoin(before + "\n");
    }
  }
}

=== FILE: menu.dfy ===
/** The menu answers that guard deleting a client and showing a client's
    keys: the number typed for the client and the yes/no confirmation. */
module Menu {
  import opened Options
  import opened Strings
  import opened Numbers

  /** What the typed number leads to. */
  datatype Selection =
    | Cancelled        // empty input or exactly "0": back to the menu
    | NotANumber       // int() raised; the handler reports the error
    | OutOfRange       // a number outside 1..count: "Некорректный номер клиента"
    | Selected(index: nat)

  /** The guard over a list of `count` entries: the cancel test is on the
      text as typed, the range test on the number int() reads from it. */
  function SelectIndex(choice: string, count: nat): (r: Selection)
    ensures r == Cancelled <==> choice == [] || choice == "0"
    ensures r.Selected? ==> r.index < count && ParseInt(choice) == Some(r.index + 1)
    ensures choice != [] && choice != "0" ==> (r == NotANumber <==> ParseInt(choice).None?)
    ensures choice != [] && choice != "0" && ParseInt(choice).Some? ==>
      if 1 <= ParseInt(choice).value <= count then r == Selected(ParseInt(choice).value - 1) else r == OutOfRange
  {
    if choice == [] || choice == "0" then Cancelled
    else match ParseInt(choice)
      case None => NotANumber
      case Some(n) =>
        if n - 1 < 0 || n - 1 >= count then OutOfRange else Selected(n - 1)
  }

  /** Typing the decimal numeral of an entry's 1-based number selects it. */
  lemma SelectNumeral(k: nat, count: nat)
    requires k < count
    ensures SelectIndex(NatToString(k + 1), count) == Selected(k)
  {
    ParseIntOfNatToString(k + 1);
  }

  /** A zero written other than "0" is refused as out of range rather than
      cancelled, and so is the number one past the end. */
  lemma OtherZeroIsOutOfRange(count: nat)
    ensures SelectIndex("00", count) == OutOfRange
    ensures SelectIndex(" 0", count) == OutOfRange
  {
    assert ParseInt("00") == Some(0) by { DoubleZero(); }
    assert ParseInt(" 0") == Some(0) by { BlankZero(); }
  }

  lemma DoubleZero()
    ensures ParseInt("00") == Some(0)
  {
    ParseIntOfDigits("00");
    assert "00"[..1] == "0";
    assert "0"[..0] == [];
  }

  lemma BlankZero()
    ensures ParseInt(" 0") == Some(0)
  {
    BlankChars();
    VisibleNotSpace('0');
    assert IntTrimStart(" 0") == "0" by { assert " 0"[1..] == "0"; }
    ParseIntOfDigits("0");
  }

  lemma PastEndIsOutOfRange(count: nat)
    ensures SelectIndex(NatToString(count + 1), count) == OutOfRange
  {
    ParseIntOfNatToString(count + 1);
    NatToStringValue(count + 1);
  }

  /** The confirmation: the answer lowered is one of д, y, да, yes. */
  predicate IsYes(answer: string)
  {
    Lower(answer) in {"д", "y", "да", "yes"}
  }

  /** Any capitalisation of a yes is a yes, and nothing longer than three
      characters is. */
  lemma YesIgnoresCase(answer: string)
    ensures IsYes(answer) <==> IsYes(Lower(answer))
    ensures IsYes(answer) ==> 1 <= |answer| <= 3
  {
    LowerTwice(answer);
  }

  lemma LowerTwice(s: string)
    ensures Lower(Lower(s)) == Lower(s)
  {
    forall i | 0 <= i < |s| ensures LowerChar(LowerChar(s[i])) == LowerChar(s[i]) {
      LowerCharTwice(s[i]);
    }
  }

  lemma LowerCharTwice(c: char)
    ensures LowerChar(LowerChar(c)) == LowerChar(c)
  {
  }

  lemma CapitalYes()
    ensures IsYes("YES") && IsYes("Да") && IsYes("Y") && IsYes("Д")
    ensures !IsYes("н") && !IsYes("no") && !IsYes("")
  {
    assert Lower("YES") == "yes";
    assert Lower("Да") == "да";
    assert Lower("Y") == "y";
    assert Lower("Д") == "д";
    assert Lower("н") == "н";
    assert Lower("no") == "no";
  }
}

=== FILE: numbers.dfy ===
/** Decimal text: Python's str() of a non-negative integer and int() of a
    string, as the menus and the address pool use them. */
module Numbers {
  import opened Options
  import opened Strings

  predicate IsDigit(c: char)
  {
    '0' <= c <= '9'
  }

  predicate AllDigits(s: string)
  {
    forall i :: 0 <= i < |s| ==> IsDigit(s[i])
  }

  function DigitChar(d: nat): (c: char)
    requires d < 10
    ensures IsDigit(c) && c as int - '0' as int == d
  {
    ('0' as int + d) as char
  }

  /** str(n) */
  function NatToString(n: nat): (s: string)
    ensures s != [] && AllDigits(s)
  {
    if n < 10 then [DigitChar(n)] else NatToString(n / 10) + [DigitChar(n % 10)]
  }

  /** The value of a string of decimal digits. */
  function DigitsValue(s: string): nat
    requires AllDigits(s)
  {
    if s == [] then 0 else DigitsValue(s[..|s| - 1]) * 10 + (s[|s| - 1] as int - '0' as int)
  }

  /** Digits with single underscores between them, as int() accepts. */
  predicate IsDigitGroups(s: string)
  {
    s != [] && IsDigit(s[0]) && IsDigit(s[|s| - 1])
    && (forall i :: 0 <= i < |s| ==> IsDigit(s[i]) || s[i] == '_')
    && (forall i :: 0 <= i < |s| - 1 ==> s[i] == '_' ==> s[i + 1] != '_')
  }

  function WithoutUnderscores(s: string): (r: string)
    requires forall i :: 0 <= i < |s| ==> IsDigit(s[i]) || s[i] == '_'
    ensures AllDigits(r) && |r| <= |s|
    ensures AllDigits(s) ==> r == s
  {
    if s == [] then []
    else (if s[0] == '_' then [] else [s[0]]) + WithoutUnderscores(s[1..])
  }

  function GroupsValue(s: string): nat
    requires IsDigitGroups(s)
  {
    DigitsValue(WithoutUnderscores(s))
  }

  /** The characters int() skips around the number. It first turns every
      non-ASCII whitespace character into ' ', then skips only the ASCII
      blanks tab, LF, VT, FF, CR and space; the separators U+001C..U+001F,
      whitespace to str.strip(), are refused. */
  predicate IntSpace(c: char)
  {
    IsSpace(c) && !(28 <= c as int <= 31)
  }

  function IntTrimStart(s: string): (r: string)
    ensures |r| <= |s|
    decreases |s|
  {
    if s != [] && IntSpace(s[0]) then IntTrimStart(s[1..]) else s
  }

  function IntTrimEnd(s: string): (r: string)
    ensures |r| <= |s|
    decreases |s|
  {
    if s != [] && IntSpace(s[|s| - 1]) then IntTrimEnd(s[..|s| - 1]) else s
  }

  /** The text int() reads a number from: the IntSpace blanks removed from
      both ends. */
  function IntStrip(s: string): string
  {
    IntTrimEnd(IntTrimStart(s))
  }

  /** IntStrip removes only blanks, from the ends, and leaves none there. */
  lemma {:induction false} IntTrimStartSpec(s: string)
    ensures IntTrimStart(s) == s[|s| - |IntTrimStart(s)|..]
    ensures forall i :: 0 <= i < |s| - |IntTrimStart(s)| ==> IntSpace(s[i])
    ensures IntTrimStart(s) != [] ==> !IntSpace(IntTrimStart(s)[0])
    decreases |s|
  {
    if s != [] && IntSpace(s[0]) {
      IntTrimStartSpec(s[1..]);
    }
  }

  lemma {:induction false} IntTrimEndSpec(s: string)
    ensures IntTrimEnd(s) == s[..|IntTrimEnd(s)|]
    ensures forall i :: |IntTrimEnd(s)| <= i < |s| ==> IntSpace(s[i])
    ensures IntTrimEnd(s) != [] ==> !IntSpace(IntTrimEnd(s)[|IntTrimEnd(s)| - 1])
    decreases |s|
  {
    if s != [] && IntSpace(s[|s| - 1]) {
      IntTrimEndSpec(s[..|s| - 1]);
    }
  }

  /** int(s) for base 10: surrounding blanks, an optional sign, digit
      groups; None where int() raises ValueError. */
  function ParseInt(s: string): Option<int>
  {
    var t := IntStrip(s);
    if t != [] && (t[0] == '+' || t[0] == '-') then
      var body := t[1..];
      if IsDigitGroups(body) then
        var v: int := GroupsValue(body);
        Some(if t[0] == '-' then -v else v)
      else None
    else if IsDigitGroups(t) then Some(GroupsValue(t))
    else None
  }

  lemma {:induction false} NatToStringValue(n: nat)
    ensures DigitsValue(NatToString(n)) == n
  {
    var s := NatToString(n);
    if n >= 10 {
      NatToStringValue(n / 10);
      assert s[..|s| - 1] == NatToString(n / 10);
    }
  }

  lemma DigitsAreGroups(s: string)
    requires s != [] && AllDigits(s)
    ensures IsDigitGroups(s) && GroupsValue(s) == DigitsValue(s)
  {
  }

  lemma StripDigits(s: string)
    requires s != [] && AllDigits(s)
    ensures IntStrip(s) == s
  {
    DigitEnds(s);
  }

  lemma DigitEnds(s: string)
    requires s != [] && AllDigits(s)
    ensures !IsSpace(s[0]) && !IsSpace(s[|s| - 1])
  {
    VisibleNotSpace(s[0]);
    VisibleNotSpace(s[|s| - 1]);
  }

  lemma ParseIntOfDigits(s: string)
    requires s != [] && AllDigits(s)
    ensures ParseInt(s) == Some(DigitsValue(s))
  {
    StripDigits(s);
    assert s[0] != '+' && s[0] != '-';
    DigitsAreGroups(s);
  }

  /** An information separator before the digits is whitespace to strip(),
      but int() refuses it. */
  lemma SeparatorRefused()
    ensures Strip("\U{1c}1") == "1"
    ensures ParseInt("\U{1c}1") == None
  {
    var s := "\U{1c}1";
    assert IsSpace(s[0]) && !IsSpace(s[1]);
    assert TrimStart(s) == "1" by { assert s[1..] == "1"; }
    assert !IntSpace(s[0]) && !IntSpace(s[1]);
    assert IntStrip(s) == s;
    assert !IsDigitGroups(s);
  }

  /** int() reads back what str() wrote. */
  lemma ParseIntOfNatToString(n: nat)
    ensures ParseInt(NatToString(n)) == Some(n)
  {
    ParseIntOfDigits(NatToString(n));
    NatToStringValue(n);
  }
}

=== FILE: options.dfy ===
/** Python's `None` or a value. */
module Options {

  datatype Option<T> = None | Some(value: T)
}

=== FILE: paths.dfy ===
/** Names derived from file paths: the WireGuard interface named by the
    server configuration's file, and the client names listed from the keys
    directory. */
module Paths {
  import opened Strings

  /** The server configuration file. */
  const ConfPath := "./wg0.conf"
  const ConfSuffix := ".conf"

  predicate EndsWith(s: string, suffix: string)
  {
    |suffix| <= |s| && s[|s| - |suffix|..] == suffix
  }

  /** os.path.basename: what follows the last '/'. */
  function Basename(path: string): string
  {
    AfterLast(path, '/')
  }

  /** os.path.basename(CONF).replace('.conf', '') */
  function InterfaceName(path: string): string
  {
    RemoveAll(Basename(path), ConfSuffix)
  }

  /** A name without a dot loses exactly the ".conf" appended to it. */
  lemma {:induction false} DropConfSuffix(name: string)
    requires '.' !in name
    ensures RemoveAll(name + ConfSuffix, ConfSuffix) == name
    decreases |name|
  {
    var s := name + ConfSuffix;
    if name == [] {
      assert s == ConfSuffix;
      assert s[|ConfSuffix|..] == [];
    } else {
      assert s[0] == name[0] && ConfSuffix[0] == '.';
      assert !StartsWith(s, ConfSuffix);
      assert s[1..] == name[1..] + ConfSuffix;
      DropConfSuffix(name[1..]);
      assert [name[0]] + name[1..] == name;
    }
  }

  /** The interface of a configuration file named NAME.conf is NAME. */
  lemma InterfaceOf(dir: string, name: string)
    requires '/' !in name && '.' !in name
    ensures InterfaceName(dir + "/" + name + ConfSuffix) == name
  {
    assert dir + "/" + name + ConfSuffix == dir + ['/'] + (name + ConfSuffix);
    AfterLastOfJoin(dir, '/', name + ConfSuffix);
    DropConfSuffix(name);
  }

  /** The server's interface is wg0. */
  lemma ServerInterface()
    ensures InterfaceName(ConfPath) == "wg0"
  {
    assert ConfPath == "." + "/" + "wg0" + ConfSuffix;
    InterfaceOf(".", "wg0");
  }

  /** [f for f in os.listdir(KEYS_DIR) if f.endswith('.conf')] */
  function ConfigFiles(entries: seq<string>): (r: seq<string>)
    ensures |r| <= |entries|
    decreases |entries|
  {
    if entries == [] then []
    else if EndsWith(entries[0], ConfSuffix) then [entries[0]] + ConfigFiles(entries[1..])
    else ConfigFiles(entries[1..])
  }

  /** The listing keeps exactly the entries ending in ".conf". */
  lemma {:induction false} ConfigFilesMembers(entries: seq<string>)
    ensures forall f :: f in ConfigFiles(entries) <==> f in entries && EndsWith(f, ConfSuffix)
    decreases |entries|
  {
    if entries != [] {
      ConfigFilesMembers(entries[1..]);
      assert entries == [entries[0]] + entries[1..];
    }
  }

  /** ... in directory order: filtering a concatenation filters each part. */
  lemma {:induction false} ConfigFilesAppend(a: seq<string>, b: seq<string>)
    ensures ConfigFiles(a + b) == ConfigFiles(a) + ConfigFiles(b)
    decreases |a|
  {
    if a == [] {
      assert a + b == b;
    } else {
      assert (a + b)[0] == a[0] && (a + b)[1..] == a[1..] + b;
      ConfigFilesAppend(a[1..], b);
    }
  }

  /** conf.replace('.conf', ''): the client name shown for a listed file. */
  function ListedName(file: string): string
  {
    RemoveAll(file, ConfSuffix)
  }

  /** The file add_client writes for a client whose name has no dot lists
      under that name. */
  lemma ListedNameOfClient(name: string)
    requires '.' !in name
    ensures ListedName(name + ConfSuffix) == name
  {
    DropConfSuffix(name);
  }

  /** A dotted name is not listed back: "a.conf" is saved as "a.conf.conf",
      and every ".conf" in it is removed. */
  lemma DottedNameListedShort()
    ensures ListedName("a.conf" + ConfSuffix) == "a"
  {
    var s := "a.conf" + ConfSuffix;
    assert s == "a" + ConfSuffix + ConfSuffix;
    assert s[..|ConfSuffix|][0] == 'a';
    assert !StartsWith(s, ConfSuffix);
    assert s[1..] == ConfSuffix + ConfSuffix;
    assert StartsWith(s[1..], ConfSuffix);
    assert s[1..][|ConfSuffix|..] == ConfSuffix;
    DropConfSuffix([]);
    assert [] + ConfSuffix == ConfSuffix;
    assert RemoveAll(s[1..], ConfSuffix) == [];
    assert [s[0]] == "a";
  }
}

=== FILE: patterns.dfy ===
/** The regular expressions the manager applies to configuration text, all
    of the shape  KEY\s*=\s*(CLASS+)SUFFIX , searched with re.search: the
    leftmost position where the pattern matches wins.

    At a fixed position such a pattern has at most one way to match. The
    first \s* must eat every blank before '=', since a blank is not '='.
    The second \s* eats every blank after it, and the class run is then as
    long as it can be, because giving a character back leaves a character
    of the class where the suffix (empty, or starting outside the class)
    would have to start. The one exception is a class that itself contains
    the blanks ([0-9./,\s]): there, when no class character follows the
    blanks, the engine gives the last blank back to the class. MatchHere
    encodes exactly this, for the four classes below. */
module Patterns {
  import opened Options
  import opened Strings
  import Numbers

  datatype ValueClass =
    | NonSpace     // \S
    | Digits       // \d
    | Address      // [0-9.]
    | AddressList  // [0-9./,\s]

  predicate InClass(c: char, cls: ValueClass)
  {
    match cls
    case NonSpace => !IsSpace(c)
    case Digits => Numbers.IsDigit(c)
    case Address => Numbers.IsDigit(c) || c == '.'
    case AddressList => Numbers.IsDigit(c) || c == '.' || c == '/' || c == ',' || IsSpace(c)
  }

  /** KEY\s*=\s*(CLASS+)SUFFIX */
  datatype FieldPattern = FieldPattern(key: string, value: ValueClass, suffix: string)

  /** The suffix is empty or starts outside the class, so the class run
      never has to give a character back to it; MatchHere reads exactly
      such patterns. */
  predicate Settled(p: FieldPattern)
  {
    p.suffix == [] || !InClass(p.suffix[0], p.value)
  }

  /** The patterns the manager uses. */
  type SettledPattern = p: FieldPattern | Settled(p) witness FieldPattern("=", NonSpace, "")

  /** Length of the run of blanks that starts `s`. */
  function SpaceRun(s: string): (n: nat)
    ensures n <= |s|
  {
    if s != [] && IsSpace(s[0]) then 1 + SpaceRun(s[1..]) else 0
  }

  /** The run is all blanks, and whatever follows it is not a blank. */
  lemma {:induction false} SpaceRunSpec(s: string)
    ensures forall i :: 0 <= i < SpaceRun(s) ==> IsSpace(s[i])
    ensures SpaceRun(s) < |s| ==> !IsSpace(s[SpaceRun(s)])
    decreases |s|
  {
    if s != [] && IsSpace(s[0]) {
      SpaceRunSpec(s[1..]);
    }
  }

  /** Length of the run of class characters that starts `s`. */
  function ClassRun(s: string, cls: ValueClass): (n: nat)
    ensures n <= |s|
  {
    if s != [] && InClass(s[0], cls) then 1 + ClassRun(s[1..], cls) else 0
  }

  /** The run is all class characters, and whatever follows it is not one. */
  lemma {:induction false} ClassRunSpec(s: string, cls: ValueClass)
    ensures forall i :: 0 <= i < ClassRun(s, cls) ==> InClass(s[i], cls)
    ensures ClassRun(s, cls) < |s| ==> !InClass(s[ClassRun(s, cls)], cls)
    decreases |s|
  {
    if s != [] && InClass(s[0], cls) {
      ClassRunSpec(s[1..], cls);
    }
  }

  /** The captured group when the pattern matches at the start of `s`, for
      a Settled pattern (every pattern the manager declares is one). */
  function MatchHere(s: string, p: FieldPattern): (r: Option<string>)
    ensures r.Some? ==> StartsWith(s, p.key) && r.value != []
  {
    if StartsWith(s, p.key) then AfterKey(s[|p.key|..], p) else None
  }

  /** \s*=\s*(CLASS+)SUFFIX at the start of `a`. */
  function AfterKey(a: string, p: FieldPattern): (r: Option<string>)
    ensures r.Some? ==> r.value != []
  {
    var w := SpaceRun(a);
    if w < |a| && a[w] == '=' then AfterEquals(a[w + 1..], p) else None
  }

  /** \s*(CLASS+)SUFFIX at the start of `b`. */
  function AfterEquals(b: string, p: FieldPattern): (r: Option<string>)
    ensures r.Some? ==> r.value != []
  {
    var v := SpaceRun(b);
    var c := b[v..];
    var n := ClassRun(c, p.value);
    if n > 0 then
      if StartsWith(c[n..], p.suffix) then Some(c[..n]) else None
    else if v > 0 && InClass(b[v - 1], p.value) && StartsWith(c, p.suffix) then
      Some([b[v - 1]])
    else None
  }

  /** A pattern that reads within one line: no line break in its key or
      suffix, and a class without blanks. For such a pattern a final line
      break changes no match. */
  predicate WithinLine(p: FieldPattern)
  {
    '\n' !in p.key && '\n' !in p.suffix && p.value != AddressList
  }

  lemma BlankNotInClass(c: char, cls: ValueClass)
    requires IsSpace(c) && cls != AddressList
    ensures !InClass(c, cls)
  {
  }

  lemma {:induction false} SpaceRunAppend(s: string, u: string)
    ensures SpaceRun(s) < |s| ==> SpaceRun(s + u) == SpaceRun(s)
    ensures SpaceRun(s) == |s| ==> SpaceRun(s + u) == |s| + SpaceRun(u)
    decreases |s|
  {
    if s == [] {
      assert s + u == u;
    } else {
      assert (s + u)[0] == s[0];
      assert (s + u)[1..] == s[1..] + u;
      if IsSpace(s[0]) {
        SpaceRunAppend(s[1..], u);
      }
    }
  }

  lemma {:induction false} ClassRunAppend(s: string, u: string, cls: ValueClass)
    ensures ClassRun(s, cls) < |s| ==> ClassRun(s + u, cls) == ClassRun(s, cls)
    ensures ClassRun(s, cls) == |s| ==> ClassRun(s + u, cls) == |s| + ClassRun(u, cls)
    decreases |s|
  {
    if s == [] {
      assert s + u == u;
    } else {
      assert (s + u)[0] == s[0];
      assert (s + u)[1..] == s[1..] + u;
      if InClass(s[0], cls) {
        ClassRunAppend(s[1..], u, cls);
      }
    }
  }

  lemma StartsWithBreak(s: string, t: string)
    requires '\n' !in t
    ensures StartsWith(s + "\n", t) <==> StartsWith(s, t)
  {
    if |t| <= |s| {
      assert (s + "\n")[..|t|] == s[..|t|];
    } else if |t| == |s| + 1 {
      assert (s + "\n")[..|t|][|s|] == '\n';
    }
  }

  lemma AfterEqualsBreak(b: string, p: FieldPattern)
    requires WithinLine(p)
    ensures AfterEquals(b + "\n", p) == AfterEquals(b, p)
  {
    BlankChars();
    BlankNotInClass('\n', p.value);
    var v := SpaceRun(b);
    SpaceRunAppend(b, "\n");
    SpaceRunSpec(b);
    if v < |b| {
      var c := b[v..];
      assert (b + "\n")[v..] == c + "\n";
      ClassRunAppend(c, "\n", p.value);
      var n := ClassRun(c, p.value);
      assert ClassRun("\n", p.value) == 0;
      assert (c + "\n")[n..] == c[n..] + "\n";
      assert (c + "\n")[..n] == c[..n];
      StartsWithBreak(c[n..], p.suffix);
      StartsWithBreak(c, p.suffix);
      assert v > 0 ==> (b + "\n")[v - 1] == b[v - 1];
    } else {
      assert SpaceRun("\n") == 1 by { assert "\n"[1..] == []; }
      assert (b + "\n")[|b|] == '\n';
      assert (b + "\n")[|b| + 1..] == [];
      if v > 0 {
        BlankNotInClass(b[v - 1], p.value);
      }
    }
  }

  lemma AfterKeyBreak(a: string, p: FieldPattern)
    requires WithinLine(p)
    ensures AfterKey(a + "\n", p) == AfterKey(a, p)
  {
    BlankChars();
    SpaceRunAppend(a, "\n");
    var w := SpaceRun(a);
    if w < |a| {
      assert (a + "\n")[w] == a[w];
      assert (a + "\n")[w + 1..] == a[w + 1..] + "\n";
      AfterEqualsBreak(a[w + 1..], p);
    } else {
      assert SpaceRun("\n") == 1 by { assert "\n"[1..] == []; }
    }
  }

  lemma MatchHereBreak(s: string, p: FieldPattern)
    requires WithinLine(p)
    ensures MatchHere(s + "\n", p) == MatchHere(s, p)
  {
    StartsWithBreak(s, p.key);
    if StartsWith(s, p.key) {
      assert (s + "\n")[|p.key|..] == s[|p.key|..] + "\n";
      AfterKeyBreak(s[|p.key|..], p);
    }
  }

  /** A final line break changes no search of a pattern that reads within
      one line. */
  lemma {:induction false} SearchBreak(s: string, p: FieldPattern)
    requires WithinLine(p)
    ensures Search(s + "\n", p) == Search(s, p)
    decreases |s|
  {
    MatchHereBreak(s, p);
    if s == [] {
      assert (s + "\n")[1..] == [];
    } else if MatchHere(s, p).None? {
      assert (s + "\n")[1..] == s[1..] + "\n";
      SearchBreak(s[1..], p);
    }
  }

  /** re.search(pattern, s): the group of the leftmost match. */
  function Search(s: string, p: FieldPattern): (r: Option<string>)
    ensures r.Some? ==> r.value != []
    decreases |s|
  {
    var here := MatchHere(s, p);
    if here.Some? || s == [] then here else Search(s[1..], p)
  }

  /** The captured group is a nonempty run of class characters. */
  lemma {:induction false} SearchInClass(s: string, p: FieldPattern)
    ensures Search(s, p).Some? ==> forall i :: 0 <= i < |Search(s, p).value| ==> InClass(Search(s, p).value[i], p.value)
    decreases |s|
  {
    if MatchHere(s, p).Some? {
      AfterKeyInClass(s[|p.key|..], p);
    } else if s != [] {
      SearchInClass(s[1..], p);
    }
  }

  lemma AfterKeyInClass(a: string, p: FieldPattern)
    ensures AfterKey(a, p).Some? ==> forall i :: 0 <= i < |AfterKey(a, p).value| ==> InClass(AfterKey(a, p).value[i], p.value)
  {
    if AfterKey(a, p).Some? {
      var w := AfterKeyUnfold(a, p);
      AfterEqualsInClass(a[w + 1..], p);
    }
  }

  lemma AfterEqualsInClass(b: string, p: FieldPattern)
    ensures AfterEquals(b, p).Some? ==> forall i :: 0 <= i < |AfterEquals(b, p).value| ==> InClass(AfterEquals(b, p).value[i], p.value)
  {
    ClassRunSpec(b[SpaceRun(b)..], p.value);
  }

  /** Where the leftmost match starts, or |s| + 1 when there is none. */
  function MatchIndex(s: string, p: FieldPattern): (i: nat)
    ensures i <= |s| + 1
    decreases |s|
  {
    if MatchHere(s, p).Some? then 0 else if s == [] then 1 else 1 + MatchIndex(s[1..], p)
  }

  /** Search answers with the match at MatchIndex, and with None exactly
      when there is no match anywhere. */
  lemma {:induction false} SearchAtIndex(s: string, p: FieldPattern)
    ensures Search(s, p).Some? <==> MatchIndex(s, p) <= |s|
    ensures MatchIndex(s, p) <= |s| ==> Search(s, p) == MatchHere(s[MatchIndex(s, p)..], p)
    decreases |s|
  {
    assert s[0..] == s;
    if MatchHere(s, p).None? && s != [] {
      SearchAtIndex(s[1..], p);
      if MatchIndex(s, p) <= |s| {
        DropDrop(s, MatchIndex(s[1..], p));
      }
    }
  }

  /** No match starts before MatchIndex. */
  lemma {:induction false} NothingBeforeIndex(s: string, p: FieldPattern, j: nat)
    requires j <= |s| && j < MatchIndex(s, p)
    ensures MatchHere(s[j..], p).None?
    decreases j
  {
    assert s[0..] == s;
    if j > 0 {
      NothingBeforeIndex(s[1..], p, j - 1);
      DropDrop(s, j - 1);
    }
  }

  lemma {:induction false} DropDrop(s: string, i: nat)
    requires i < |s|
    ensures s[1..][i..] == s[i + 1..]
  {
  }

  /** The captured group is a piece of the searched text. */
  lemma {:induction false} SearchFound(s: string, p: FieldPattern, v: string) returns (k: nat)
    requires Search(s, p) == Some(v)
    ensures k <= |s| && StartsWith(s[k..], v)
  {
    SearchAtIndex(s, p);
    var i := MatchIndex(s, p);
    var j := MatchHereFound(s[i..], p, v);
    k := i + j;
    StartsWithDrop(s, i, j, v);
  }

  lemma {:induction false} MatchHereFound(s: string, p: FieldPattern, v: string) returns (k: nat)
    requires MatchHere(s, p) == Some(v)
    ensures k <= |s| && StartsWith(s[k..], v)
  {
    var j := AfterKeyFound(s[|p.key|..], p, v);
    k := |p.key| + j;
    StartsWithDrop(s, |p.key|, j, v);
  }

  lemma {:induction false} AfterKeyFound(a: string, p: FieldPattern, v: string) returns (k: nat)
    requires AfterKey(a, p) == Some(v)
    ensures k <= |a| && StartsWith(a[k..], v)
  {
    var w := AfterKeyUnfold(a, p);
    var j := AfterEqualsFound(a[w + 1..], p, v);
    k := w + 1 + j;
    StartsWithDrop(a, w + 1, j, v);
  }

  /** The blanks and the '=' that AfterKey steps over. */
  lemma {:induction false} AfterKeyUnfold(a: string, p: FieldPattern) returns (w: nat)
    requires AfterKey(a, p).Some?
    ensures w < |a| && AfterKey(a, p) == AfterEquals(a[w + 1..], p)
  {
    w := SpaceRun(a);
  }

  lemma {:induction false} StartsWithDrop(a: string, i: nat, j: nat, v: string)
    requires i + j <= |a| && StartsWith(a[i..][j..], v)
    ensures StartsWith(a[i + j..], v)
  {
    assert a[i + j..] == a[i..][j..];
  }

  lemma {:induction false} AfterEqualsFound(b: string, p: FieldPattern, r: string) returns (k: nat)
    requires AfterEquals(b, p) == Some(r)
    ensures k <= |b| && StartsWith(b[k..], r)
  {
    var v := SpaceRun(b);
    var c := b[v..];
    var n := ClassRun(c, p.value);
    if n > 0 {
      k := v;
      assert StartsWith(c, c[..n]);
    } else {
      k := v - 1;
      assert b[k..][..1] == [b[v - 1]];
    }
  }

  /** Nothing matches in a text that never mentions the key. */
  lemma {:induction false} SearchWithoutKey(s: string, p: FieldPattern)
    requires !Contains(s, p.key)
    ensures Search(s, p) == None
    decreases |s|
  {
    if s != [] {
      SearchWithoutKey(s[1..], p);
    }
  }

  /** Positions where the pattern cannot match may be skipped. */
  lemma {:induction false} SearchSkip(a: string, b: string, p: FieldPattern)
    requires forall i :: 0 <= i < |a| ==> MatchHere((a + b)[i..], p).None?
    ensures Search(a + b, p) == Search(b, p)
    decreases |a|
  {
    if a == [] {
      assert a + b == b;
    } else {
      assert (a + b)[0..] == a + b;
      assert (a + b)[1..] == a[1..] + b;
      forall i | 0 <= i < |a[1..]| ensures MatchHere((a[1..] + b)[i..], p).None? {
        assert (a[1..] + b)[i..] == (a + b)[i + 1..];
      }
      SearchSkip(a[1..], b, p);
    }
  }

  /** A stretch without the key's first character holds no match. */
  lemma SearchSkipUnmarked(a: string, b: string, p: FieldPattern)
    requires p.key != [] && p.key[0] !in a
    ensures Search(a + b, p) == Search(b, p)
  {
    forall i | 0 <= i < |a| ensures MatchHere((a + b)[i..], p).None? {
      assert (a + b)[i..][0] == a[i];
    }
    SearchSkip(a, b, p);
  }

  lemma {:induction false} NotContainsAt(s: string, t: string, i: nat)
    requires !Contains(s, t) && i <= |s|
    ensures !StartsWith(s[i..], t)
    decreases i
  {
    if i > 0 {
      assert s[1..][i - 1..] == s[i..];
      NotContainsAt(s[1..], t, i - 1);
    }
  }

  /** A value without the key, closed by a character outside the key, holds
      no match either. */
  lemma SearchSkipValue(v: string, b: string, p: FieldPattern)
    requires p.key != [] && !Contains(v, p.key)
    requires b != [] && b[0] !in p.key
    ensures Search(v + b, p) == Search(b, p)
  {
    var k := p.key;
    forall i | 0 <= i < |v| ensures MatchHere((v + b)[i..], p).None? {
      var s := (v + b)[i..];
      if |k| <= |v| - i {
        NotContainsAt(v, k, i);
        assert s[..|k|] == v[i..][..|k|];
      } else {
        assert s[|v| - i] == b[0];
        assert k[|v| - i] in k;
      }
    }
    SearchSkip(v, b, p);
  }

  /** The text "KEY = value" followed by the suffix and then something that
      cannot extend the value matches with the value as its group. */
  lemma MatchAssignment(v: string, p: FieldPattern, rest: string)
    requires v != [] && NoSpace(v) && forall i :: 0 <= i < |v| ==> InClass(v[i], p.value)
    requires p.suffix + rest == [] || !InClass((p.suffix + rest)[0], p.value)
    ensures MatchHere(p.key + " = " + v + p.suffix + rest, p) == Some(v)
  {
    var tail := p.suffix + rest;
    var s := p.key + " = " + v + p.suffix + rest;
    assert s == p.key + (" = " + v + tail);
    assert s[..|p.key|] == p.key;
    assert s[|p.key|..] == " = " + v + tail;
    AssignmentAfterKey(v, p, tail);
  }

  lemma AssignmentAfterKey(v: string, p: FieldPattern, tail: string)
    requires v != [] && NoSpace(v) && forall i :: 0 <= i < |v| ==> InClass(v[i], p.value)
    requires StartsWith(tail, p.suffix)
    requires tail == [] || !InClass(tail[0], p.value)
    ensures AfterKey(" = " + v + tail, p) == Some(v)
  {
    var b := " " + (v + tail);
    assert " = " + v + tail == " " + "=" + b;
    BlankChars();
    AfterKeyOfEquals(" ", b, p);
    AfterEqualsBlankValue(v, p, tail);
  }

  /** Any run of blanks before '=', none included, is stepped over whole:
      "KEY =", "KEY=" and "KEY   =" continue alike after the '='. */
  lemma AfterKeyOfEquals(gap: string, b: string, p: FieldPattern)
    requires AllSpace(gap)
    ensures AfterKey(gap + "=" + b, p) == AfterEquals(b, p)
  {
    var a := gap + "=" + b;
    VisibleNotSpace('=');
    assert a == gap + ("=" + b);
    SpaceRunOfBlanks(gap, "=" + b);
    assert a[|gap|] == '=';
    assert a[|gap| + 1..] == b;
  }

  /** A run of blanks followed by a non-blank is exactly that long. */
  lemma {:induction false} SpaceRunOfBlanks(gap: string, rest: string)
    requires AllSpace(gap) && rest != [] && !IsSpace(rest[0])
    ensures SpaceRun(gap + rest) == |gap|
    decreases |gap|
  {
    if gap == [] {
      assert gap + rest == rest;
    } else {
      assert (gap + rest)[0] == gap[0];
      assert (gap + rest)[1..] == gap[1..] + rest;
      SpaceRunOfBlanks(gap[1..], rest);
    }
  }

  /** A single blank followed by a non-blank is a blank run of length 1. */
  lemma LeadingBlank(rest: string)
    requires rest != [] && !IsSpace(rest[0])
    ensures SpaceRun(" " + rest) == 1
  {
    BlankChars();
    assert (" " + rest)[1..] == rest;
  }

  /** The value after '=' is captured whole. */
  lemma AfterEqualsValue(v: string, p: FieldPattern, tail: string)
    requires v != [] && NoSpace(v) && forall i :: 0 <= i < |v| ==> InClass(v[i], p.value)
    requires StartsWith(tail, p.suffix)
    requires tail == [] || !InClass(tail[0], p.value)
    ensures AfterEquals(v + tail, p) == Some(v)
  {
    assert !IsSpace((v + tail)[0]);
    ClassRunOfValue(v, tail, p.value);
    assert (v + tail)[..|v|] == v && (v + tail)[|v|..] == tail;
  }

  /** ... and so is the value after "= ". */
  lemma AfterEqualsBlankValue(v: string, p: FieldPattern, tail: string)
    requires v != [] && NoSpace(v) && forall i :: 0 <= i < |v| ==> InClass(v[i], p.value)
    requires StartsWith(tail, p.suffix)
    requires tail == [] || !InClass(tail[0], p.value)
    ensures AfterEquals(" " + (v + tail), p) == Some(v)
  {
    var b := " " + (v + tail);
    assert (v + tail)[0] == v[0];
    LeadingBlank(v + tail);
    assert b[1..] == v + tail;
    ClassRunOfValue(v, tail, p.value);
    assert (v + tail)[..|v|] == v && (v + tail)[|v|..] == tail;
  }

  lemma {:induction false} ClassRunOfValue(v: string, rest: string, cls: ValueClass)
    requires forall i :: 0 <= i < |v| ==> InClass(v[i], cls)
    requires rest == [] || !InClass(rest[0], cls)
    ensures ClassRun(v + rest, cls) == |v|
    decreases |v|
  {
    if v == [] {
      assert v + rest == rest;
    } else {
      assert (v + rest)[1..] == v[1..] + rest;
      ClassRunOfValue(v[1..], rest, cls);
    }
  }
}

=== FILE: registry.dfy ===
/** The peer registry kept in the server configuration: the "# Client:"
    markers, the AllowedIPs line that follows each of them, the listing and
    reverse lookup built on them, the allocation of a free host address in
    10.8.0.0/24 and the peer block appended for a new client. */
module Registry {
  import opened Options
  import opened Strings
  import opened Patterns
  import Numbers

  const Subnet := "10.8.0."
  const MarkerPrefix := "# Client:"
  const AllowedIpsKey := "AllowedIPs"
  /** AllowedIPs\s*=\s*([0-9.]+)/32 */
  const AllowedIps: SettledPattern := FieldPattern(AllowedIpsKey, Address, "/32")

  /** A listed client: its name and its host address. */
  datatype Client = Client(name: string, ip: string)

  function Min(a: int, b: int): int { if a < b then a else b }

  // ----- reading the registry -----

  /** A marker line: its stripped form starts with "# Client:". */
  predicate IsMarker(line: string)
  {
    StartsWith(Strip(line), MarkerPrefix)
  }

  /** The name a marker line announces: the line stripped, every
      "# Client:" removed from it, stripped again. */
  function MarkerName(line: string): string
  {
    Strip(RemoveAll(Strip(line), MarkerPrefix))
  }

  /** The address a line offers to the listing: the line must mention
      AllowedIPs, and the first match of the pattern gives the address. */
  function LineAddress(line: string): Option<string>
  {
    if Contains(line, AllowedIpsKey) then Search(line, AllowedIps) else None
  }

  /** End (exclusive) of the window of up to four lines after line i. */
  function WindowEnd(lines: seq<string>, i: nat): nat
  {
    Min(i + 5, |lines|)
  }

  /** The first address offered by a line in lines[lo..hi]. */
  function FirstAddressIn(lines: seq<string>, lo: nat, hi: nat): Option<string>
    requires lo <= hi <= |lines|
    decreases hi - lo
  {
    if lo == hi then None
    else if LineAddress(lines[lo]).Some? then LineAddress(lines[lo])
    else FirstAddressIn(lines, lo + 1, hi)
  }

  /** An address found in lines[lo..hi] comes lo the first line of the
      range that offers one. */
  lemma {:induction false} FirstAddressInFound(lines: seq<string>, lo: nat, hi: nat) returns (j: nat)
    requires lo <= hi <= |lines| && FirstAddressIn(lines, lo, hi).Some?
    ensures lo <= j < hi && LineAddress(lines[j]) == FirstAddressIn(lines, lo, hi)
    ensures forall k :: lo <= k < j ==> LineAddress(lines[k]).None?
    decreases hi - lo
  {
    if LineAddress(lines[lo]).Some? {
      j := lo;
    } else {
      j := FirstAddressInFound(lines, lo + 1, hi);
    }
  }

  /** The entry line i contributes to the listing, if any. */
  function ClientAt(lines: seq<string>, i: nat): Option<Client>
    requires i < |lines|
  {
    if !IsMarker(lines[i]) then None
    else
      match FirstAddressIn(lines, i + 1, WindowEnd(lines, i))
      case Some(ip) => Some(Client(MarkerName(lines[i]), ip))
      case None => None
  }

  /** What each line contributes to the listing. */
  function Entries(lines: seq<string>): (es: seq<Option<Client>>)
    ensures |es| == |lines|
    ensures forall i :: 0 <= i < |lines| ==> es[i] == ClientAt(lines, i)
  {
    seq(|lines|, i requires 0 <= i < |lines| => ClientAt(lines, i))
  }

  /** The entries that are there, in order. */
  function Present(es: seq<Option<Client>>): seq<Client>
  {
    if es == [] then []
    else
      Present(es[..|es| - 1])
      + (match es[|es| - 1] case Some(c) => [c] case None => [])
  }

  /** get_all_clients on a configuration read as `lines`. */
  function Clients(lines: seq<string>): seq<Client>
  {
    Present(Entries(lines))
  }

  /** The entries of the lines before line n, as a loop over the lines
      collects them. */
  function ListedBefore(lines: seq<string>, n: nat): seq<Client>
    requires n <= |lines|
  {
    if n == 0 then []
    else
      ListedBefore(lines, n - 1)
      + (match ClientAt(lines, n - 1) case Some(c) => [c] case None => [])
  }

  lemma {:induction false} ListedBeforePrefix(lines: seq<string>, n: nat)
    requires n <= |lines|
    ensures ListedBefore(lines, n) == Present(Entries(lines)[..n])
    decreases n
  {
    if n > 0 {
      ListedBeforePrefix(lines, n - 1);
      PresentPrefixStep(Entries(lines), n - 1);
    }
  }

  lemma ListedBeforeAll(lines: seq<string>)
    ensures ListedBefore(lines, |lines|) == Clients(lines)
  {
    ListedBeforePrefix(lines, |lines|);
    assert Entries(lines)[..|lines|] == Entries(lines);
  }

  /** The positions that hold an entry, in ascending order. */
  function EntryPositions(es: seq<Option<Client>>): (ix: seq<nat>)
    ensures forall k :: 0 <= k < |ix| ==> ix[k] < |es| && es[ix[k]].Some?
    ensures forall i :: 0 <= i < |es| && es[i].Some? ==> i in ix
    ensures forall k, l :: 0 <= k < l < |ix| ==> ix[k] < ix[l]
  {
    if es == [] then []
    else
      var init := es[..|es| - 1];
      assert forall i :: 0 <= i < |init| ==> init[i] == es[i];
      EntryPositions(init) + (if es[|es| - 1].Some? then [|es| - 1] else [])
  }

  /** The listing holds exactly one entry per line that yields one, in the
      order of those lines: entry k comes from the k-th such line. */
  lemma {:induction false} PresentInOrder(es: seq<Option<Client>>)
    ensures |Present(es)| == |EntryPositions(es)|
    ensures forall k :: 0 <= k < |Present(es)| ==>
      Some(Present(es)[k]) == es[EntryPositions(es)[k]]
    decreases |es|
  {
    if es != [] {
      var init := es[..|es| - 1];
      PresentInOrder(init);
      assert forall i :: 0 <= i < |init| ==> init[i] == es[i];
    }
  }

  lemma PresentSnoc(es: seq<Option<Client>>, e: Option<Client>)
    ensures Present(es + [e]) == Present(es) + (if e.Some? then [e.value] else [])
  {
    assert (es + [e])[..|es|] == es;
  }

  lemma PresentPrefixStep(es: seq<Option<Client>>, i: nat)
    requires i < |es|
    ensures Present(es[..i + 1]) == Present(es[..i]) + (if es[i].Some? then [es[i].value] else [])
  {
    assert es[..i + 1] == es[..i] + [es[i]];
    PresentSnoc(es[..i], es[i]);
  }

  lemma {:induction false} PresentAppend(a: seq<Option<Client>>, b: seq<Option<Client>>)
    ensures Present(a + b) == Present(a) + Present(b)
    decreases |b|
  {
    if b == [] {
      assert a + b == a;
    } else {
      var bi := b[..|b| - 1];
      assert (a + b)[..|a + b| - 1] == a + bi;
      assert (a + b)[|a + b| - 1] == b[|b| - 1];
      PresentAppend(a, bi);
    }
  }

  /** A listed client comes from a marker line: nothing without a marker is
      listed. */
  lemma ListedComesFromMarker(lines: seq<string>, k: nat)
    requires k < |Clients(lines)|
    ensures exists i ::
      0 <= i < |lines| && IsMarker(lines[i]) && ClientAt(lines, i) == Some(Clients(lines)[k])
  {
    PresentInOrder(Entries(lines));
    var i := EntryPositions(Entries(lines))[k];
    assert ClientAt(lines, i) == Some(Clients(lines)[k]);
  }

  /** A marker line yields (name, ip) exactly when ip is the first address
      offered within the four lines after it. */
  lemma ClientAtMeaning(lines: seq<string>, i: nat, c: Client)
    requires i < |lines|
    ensures ClientAt(lines, i) == Some(c) <==>
      IsMarker(lines[i]) && c.name == MarkerName(lines[i])
      && exists j ::
           i < j < WindowEnd(lines, i) && LineAddress(lines[j]) == Some(c.ip)
           && forall k :: i < k < j ==> LineAddress(lines[k]).None?
  {
    var e := WindowEnd(lines, i);
    if ClientAt(lines, i) == Some(c) {
      var j := FirstAddressInFound(lines, i + 1, e);
    }
    if IsMarker(lines[i]) && c.name == MarkerName(lines[i]) {
      if j :| (i < j < e && LineAddress(lines[j]) == Some(c.ip)
               && forall k :: i < k < j ==> LineAddress(lines[k]).None?) {
        FirstAddressInAt(lines, i + 1, e, j);
      }
    }
  }

  /** The first line of lines[lo..hi] that offers an address gives the
      range its address. */
  lemma {:induction false} FirstAddressInAt(lines: seq<string>, lo: nat, hi: nat, j: nat)
    requires lo <= j < hi <= |lines|
    requires forall k :: lo <= k < j ==> LineAddress(lines[k]).None?
    requires LineAddress(lines[j]).Some?
    ensures FirstAddressIn(lines, lo, hi) == LineAddress(lines[j])
    decreases j - lo
  {
    if lo < j {
      FirstAddressInAt(lines, lo + 1, hi, j);
    }
  }

  /** The listing as get_all_clients builds it: no configuration file gives
      an empty list; otherwise the file is read line by line, and every
      marker whose window offers an address adds an entry. */
  method GetAllClients(conf: Option<string>) returns (clients: seq<Client>)
    ensures conf.None? ==> clients == []
    ensures conf.Some? ==> clients == Clients(Lines(conf.value))
  {
    clients := [];
    if conf.None? {
      return;
    }
    var content := Lines(conf.value);
    var i := 0;
    while i < |content|
      invariant 0 <= i <= |content|
      invariant clients == ListedBefore(content, i)
    {
      var entry := ReadEntry(content, i);
      if entry.Some? {
        clients := clients + [entry.value];
      }
      i := i + 1;
    }
    ListedBeforeAll(content);
  }

  /** One step of get_all_clients: line i is stripped; a marker gives the
      name, and the window after it is scanned for an address. */
  method ReadEntry(content: seq<string>, i: nat) returns (entry: Option<Client>)
    requires i < |content|
    ensures entry == ClientAt(content, i)
  {
    entry := None;
    var line := Strip(content[i]);
    if StartsWith(line, MarkerPrefix) {
      var name := Strip(RemoveAll(line, MarkerPrefix));
      var ip := WindowAddress(content, i);
      if ip.Some? && ip.value != [] {
        entry := Some(Client(name, ip.value));
      }
      assert IsMarker(content[i]) && name == MarkerName(content[i]);
    } else {
      assert !IsMarker(content[i]);
    }
  }

  /** The inner scan of get_all_clients: the up to four lines after line i
      are tried in order, and the first match of the AllowedIPs pattern on a
      line mentioning AllowedIPs ends the scan. */
  method WindowAddress(content: seq<string>, i: nat) returns (ip: Option<string>)
    requires i < |content|
    ensures ip == FirstAddressIn(content, i + 1, WindowEnd(content, i))
    ensures ip.Some? ==> ip.value != []
  {
    ip := None;
    var j := i + 1;
    var end := Min(i + 5, |content|);
    while j < end
      invariant i + 1 <= j <= end
      invariant ip.None? ==> FirstAddressIn(content, j, end) == FirstAddressIn(content, i + 1, end)
      invariant ip.Some? ==> ip == FirstAddressIn(content, i + 1, end) && ip.value != []
    {
      if j < |content| && Contains(content[j], AllowedIpsKey) {
        var found := Search(content[j], AllowedIps);
        if found.Some? {
          ip := found;
          break;
        }
      }
      j := j + 1;
    }
  }

  // ----- reverse lookup -----

  /** Some line in the window after line i mentions AllowedIPs and contains
      `ip` as a substring. */
  predicate WindowMentions(lines: seq<string>, i: nat, ip: string)
  {
    exists j :: i < j < WindowEnd(lines, i)
      && Contains(lines[j], AllowedIpsKey) && Contains(lines[j], ip)
  }

  /** get_client_name_by_ip: the name of the first marker whose window
      mentions the address, or None when no marker's window does. */
  method ClientNameByIp(content: seq<string>, ip: string) returns (name: Option<string>)
    ensures name.Some? ==>
      exists i ::
        0 <= i < |content| && IsMarker(content[i])
        && WindowMentions(content, i, ip) && name.value == MarkerName(content[i])
        && forall k :: 0 <= k < i && IsMarker(content[k]) ==> !WindowMentions(content, k, ip)
    ensures name.None? <==>
      forall i :: 0 <= i < |content| && IsMarker(content[i]) ==> !WindowMentions(content, i, ip)
  {
    var i := 0;
    while i < |content|
      invariant 0 <= i <= |content|
      invariant forall k :: 0 <= k < i && IsMarker(content[k]) ==> !WindowMentions(content, k, ip)
    {
      if StartsWith(Strip(content[i]), MarkerPrefix) {
        var n := Strip(RemoveAll(Strip(content[i]), MarkerPrefix));
        var j := i + 1;
        while j < Min(i + 5, |content|)
          invariant i + 1 <= j
          invariant forall k :: i < k < j && k < WindowEnd(content, i) ==>
            !(Contains(content[k], AllowedIpsKey) && Contains(content[k], ip))
        {
          if Contains(content[j], AllowedIpsKey) && Contains(content[j], ip) {
            return Some(n);
          }
          j := j + 1;
        }
      }
      i := i + 1;
    }
    return None;
  }

  /** The lookup finds every listed client by its own address: the window
      that gave the listing its address mentions it. */
  lemma ListedClientIsMentioned(lines: seq<string>, i: nat)
    requires i < |lines| && ClientAt(lines, i).Some?
    ensures IsMarker(lines[i]) && WindowMentions(lines, i, ClientAt(lines, i).value.ip)
  {
    var c := ClientAt(lines, i).value;
    ClientAtMeaning(lines, i, c);
    var j :| i < j < WindowEnd(lines, i) && LineAddress(lines[j]) == Some(c.ip)
      && forall k :: i < k < j ==> LineAddress(lines[k]).None?;
    var k := SearchFound(lines[j], AllowedIps, c.ip);
    ContainsAt(lines[j], c.ip, k);
  }

  /** The lookup compares addresses as substrings: asked for 10.8.0.1 it
      answers with the client that holds 10.8.0.12. */
  lemma LookupMatchesLongerAddress()
    ensures WindowMentions(["# Client: bob\n", "AllowedIPs = 10.8.0.12/32\n"], 0, "10.8.0.1")
  {
    var lines := ["# Client: bob\n", "AllowedIPs = 10.8.0.12/32\n"];
    assert StartsWith(lines[1], AllowedIpsKey);
    assert StartsWith(lines[1][13..], "10.8.0.1");
    ContainsAt(lines[1], "10.8.0.1", 13);
  }

  // ----- address allocation -----

  /** 10.8.0.i */
  function HostAddress(i: nat): string
  {
    Subnet + Numbers.NatToString(i)
  }

  /** The text grep looks for to decide that host i is taken. */
  function GrepPattern(i: nat): string
  {
    "AllowedIPs = " + HostAddress(i) + "/32"
  }

  /** grep -q succeeds: some line contains the text. */
  predicate Occupied(lines: seq<string>, i: nat)
  {
    exists k :: 0 <= k < |lines| && Contains(lines[k], GrepPattern(i))
  }

  /** find_free_ip: hosts 2..254 in ascending order; the first one no line
      claims, or None when every one is claimed. */
  method FindFreeIp(lines: seq<string>) returns (ip: Option<string>)
    ensures ip.Some? ==>
      exists i ::
        2 <= i <= 254 && ip.value == HostAddress(i)
        && !Occupied(lines, i) && forall j :: 2 <= j < i ==> Occupied(lines, j)
    ensures ip.None? <==> forall i :: 2 <= i <= 254 ==> Occupied(lines, i)
  {
    var i := 2;
    while i < 255
      invariant 2 <= i <= 255
      invariant forall j :: 2 <= j < i ==> Occupied(lines, j)
    {
      var candidate := Subnet + Numbers.NatToString(i);
      var pattern := "AllowedIPs = " + candidate + "/32";
      if !(exists k :: 0 <= k < |lines| && Contains(lines[k], pattern)) {
        assert candidate == HostAddress(i) && pattern == GrepPattern(i);
        return Some(candidate);
      }
      i := i + 1;
    }
    return None;
  }

  /** Distinct hosts have distinct addresses, so the address handed out
      names exactly one host. */
  lemma HostAddressInjective(i: nat, j: nat)
    requires HostAddress(i) == HostAddress(j)
    ensures i == j
  {
    var a, b := Numbers.NatToString(i), Numbers.NatToString(j);
    assert a == HostAddress(i)[|Subnet|..];
    assert b == HostAddress(j)[|Subnet|..];
    Numbers.ParseIntOfNatToString(i);
    Numbers.ParseIntOfNatToString(j);
  }

  /** 10.8.0.i is made of digits and dots. */
  lemma HostAddressIsAddress(i: nat)
    ensures AddressText(HostAddress(i))
  {
    var d := Numbers.NatToString(i);
    forall k | 0 <= k < |HostAddress(i)| ensures InClass(HostAddress(i)[k], Address) {
      if k >= |Subnet| {
        assert HostAddress(i)[k] == d[k - |Subnet|];
      }
    }
  }

  /** Spacing the grep text does not expect leaves a listed address free:
      a client listed with "AllowedIPs=10.8.0.i/32" does not make host i
      occupied, so the allocator may hand its address out again. */
  lemma UnspacedAddressIsFree(name: string, i: nat)
    requires PlainName(name) && !Contains(name, AllowedIpsKey)
    ensures Clients(["# Client: " + name + "\n", "AllowedIPs=" + HostAddress(i) + "/32\n"])
      == [Client(name, HostAddress(i))]
    ensures !Occupied(["# Client: " + name + "\n", "AllowedIPs=" + HostAddress(i) + "/32\n"], i)
  {
    HostAddressIsAddress(i);
    UnspacedListing(name, HostAddress(i));
    UnspacedFree(name, i);
  }

  lemma UnspacedFree(name: string, i: nat)
    requires !Contains(name, AllowedIpsKey)
    ensures !Occupied(["# Client: " + name + "\n", "AllowedIPs=" + HostAddress(i) + "/32\n"], i)
  {
    var ip := HostAddress(i);
    var g := GrepPattern(i);
    var m := "# Client: " + name + "\n";
    QuietLine("# Client: ", name);
    if Contains(m, g) {
      assert g == AllowedIpsKey + (" = " + ip + "/32");
      ContainsShorter(m, AllowedIpsKey, " = " + ip + "/32");
    }
    ShortNotContains("AllowedIPs=" + ip + "/32\n", g);
  }

  lemma UnspacedListing(name: string, ip: string)
    requires PlainName(name) && AddressText(ip)
    ensures Clients(["# Client: " + name + "\n", "AllowedIPs=" + ip + "/32\n"]) == [Client(name, ip)]
  {
    var m := "# Client: " + name + "\n";
    var l := "AllowedIPs=" + ip + "/32\n";
    assert IsMarker(m) && MarkerName(m) == name by { RenderedMarkerName(name); }
    assert LineAddress(l) == Some(ip) && !IsMarker(l) by { UnspacedAddressLine(ip); }
    MarkerThenAddress(m, l, Client(name, ip));
  }

  /** A marker followed by a line offering an address lists one client. */
  lemma MarkerThenAddress(marker: string, line: string, c: Client)
    requires IsMarker(marker) && MarkerName(marker) == c.name
    requires LineAddress(line) == Some(c.ip) && !IsMarker(line)
    ensures Clients([marker, line]) == [c]
  {
    var lines := [marker, line];
    MarkerEntry(lines, c);
    assert ClientAt(lines, 1) == None;
    TwoEntries(lines);
    PresentFirstOnly(c);
  }

  lemma MarkerEntry(lines: seq<string>, c: Client)
    requires |lines| == 2 && IsMarker(lines[0]) && MarkerName(lines[0]) == c.name
    requires LineAddress(lines[1]) == Some(c.ip)
    ensures ClientAt(lines, 0) == Some(c)
  {
    FirstAddressInAt(lines, 1, 2, 1);
  }

  lemma TwoEntries(lines: seq<string>)
    requires |lines| == 2
    ensures Entries(lines) == [ClientAt(lines, 0), ClientAt(lines, 1)]
  {
  }

  lemma PresentFirstOnly(c: Client)
    ensures Present([Some(c), None]) == [c]
  {
    PresentSnoc([], Some(c));
    assert [] + [Some(c)] == [Some(c)];
    PresentSnoc([Some(c)], None);
    assert [Some(c)] + [None] == [Some(c), None];
  }

  /** The pattern's blanks around '=' are optional. */
  lemma UnspacedAddressLine(ip: string)
    requires AddressText(ip)
    ensures LineAddress("AllowedIPs=" + ip + "/32\n") == Some(ip)
    ensures !IsMarker("AllowedIPs=" + ip + "/32\n")
  {
    var l := "AllowedIPs=" + ip + "/32\n";
    NotMarker(l);
    ContainsAt(l, AllowedIpsKey, 0);
    assert l[..|AllowedIpsKey|] == AllowedIpsKey;
    assert l[|AllowedIpsKey|..] == "=" + ip + "/32\n";
    UnspacedAfterKey(ip);
  }

  lemma UnspacedAfterKey(ip: string)
    requires AddressText(ip)
    ensures AfterKey("=" + ip + "/32\n", AllowedIps) == Some(ip)
  {
    var a := "=" + ip + "/32\n";
    assert a[1..] == ip + "/32\n";
    assert NoSpace(ip) by {
      forall k | 0 <= k < |ip| ensures !IsSpace(ip[k]) { VisibleNotSpace(ip[k]); }
    }
    AfterEqualsValue(ip, AllowedIps, "/32\n");
    VisibleNotSpace(a[0]);
    assert SpaceRun(a) == 0;
  }

  // ----- the appended peer block -----

  /** The text add_client appends to the configuration for a new peer,
      written line by line. */
  function PeerBlock(name: string, pub: string, psk: string, ip: string): string
  {
    "\n"
    + ("# Client: " + name + "\n")
    + "[Peer]\n"
    + ("PublicKey = " + pub + "\n")
    + ("PresharedKey = " + psk + "\n")
    + ("AllowedIPs = " + ip + "/32\n")
  }

  /** The lines the block adds after the blank line it starts with. */
  function BlockLines(name: string, pub: string, psk: string, ip: string): seq<string>
  {
    ["# Client: " + name + "\n", "[Peer]\n", "PublicKey = " + pub + "\n",
     "PresharedKey = " + psk + "\n", "AllowedIPs = " + ip + "/32\n"]
  }

  /** What the new client's name, keys and address must look like for the
      block to read back as one entry: a name without line breaks, blanks
      at its ends, or a marker or AllowedIPs inside it; keys without
      whitespace or AllowedIPs inside them; an address of digits and dots. */
  predicate Renderable(name: string, pub: string, psk: string, ip: string)
  {
    PlainName(name) && '\n' !in name && !Contains(name, AllowedIpsKey)
    && NoSpace(pub) && !Contains(pub, AllowedIpsKey)
    && NoSpace(psk) && !Contains(psk, AllowedIpsKey)
    && AddressText(ip)
  }

  lemma {:induction false} ShortNotContains(s: string, t: string)
    requires |s| < |t|
    ensures !Contains(s, t)
    decreases |s|
  {
    if s != [] {
      ShortNotContains(s[1..], t);
    }
  }

  /** A name that reads back from its marker unchanged: not empty, no
      blank at either end, no "# Client:" inside. */
  predicate PlainName(name: string)
  {
    name != [] && !IsSpace(name[0]) && !IsSpace(name[|name| - 1]) && !Contains(name, MarkerPrefix)
  }

  /** Text the AllowedIPs pattern takes whole as an address: digits and dots. */
  predicate AddressText(ip: string)
  {
    ip != [] && forall k :: 0 <= k < |ip| ==> InClass(ip[k], Address)
  }

  /** A line that starts with neither whitespace nor '#' is no marker. */
  lemma NotMarker(s: string)
    requires s != [] && '!' <= s[0] <= '~' && s[0] != '#'
    ensures !IsMarker(s)
  {
    VisibleNotSpace(s[0]);
    assert TrimStart(s) == s;
    TrimEndSpec(s);
    var r := Strip(s);
    assert r != [] ==> r[0] == s[0];
  }

  /** The marker written for `name` reads back as that name. */
  lemma RenderedMarkerName(name: string)
    requires PlainName(name)
    ensures IsMarker("# Client: " + name + "\n")
    ensures MarkerName("# Client: " + name + "\n") == name
  {
    BlankChars();
    assert "# Client: " + name + "\n" == MarkerPrefix + " " + name + "\n";
    PaddedMarkerName(" ", name);
  }

  /** Any run of blanks may stand between "# Client:" and the name: the
      listing reads the same name whatever its length. */
  lemma PaddedMarkerName(gap: string, name: string)
    requires AllSpace(gap) && PlainName(name)
    ensures IsMarker(MarkerPrefix + gap + name + "\n")
    ensures MarkerName(MarkerPrefix + gap + name + "\n") == name
  {
    var line := MarkerPrefix + gap + name + "\n";
    var x := MarkerPrefix + gap + name;
    assert Strip(line) == x by { StripPaddedMarker(gap, name); }
    assert x[..|MarkerPrefix|] == MarkerPrefix;
    assert RemoveAll(x, MarkerPrefix) == gap + name by { RemovePaddedPrefix(gap, name); }
    assert Strip(gap + name) == name by {
      assert gap + name + [] == gap + name;
      StripSurrounded(gap, name, []);
    }
  }

  lemma StripPaddedMarker(gap: string, name: string)
    requires AllSpace(gap) && name != [] && !IsSpace(name[|name| - 1])
    ensures Strip(MarkerPrefix + gap + name + "\n") == MarkerPrefix + gap + name
  {
    var x := MarkerPrefix + gap + name;
    assert x[|x| - 1] == name[|name| - 1];
    VisibleNotSpace(x[0]);
    BlankChars();
    assert [] + x + "\n" == x + "\n";
    StripSurrounded([], x, "\n");
  }

  lemma RemovePaddedPrefix(gap: string, name: string)
    requires AllSpace(gap) && !Contains(name, MarkerPrefix)
    ensures RemoveAll(MarkerPrefix + gap + name, MarkerPrefix) == gap + name
  {
    var x := MarkerPrefix + gap + name;
    assert x[..|MarkerPrefix|] == MarkerPrefix;
    assert x[|MarkerPrefix|..] == gap + name;
    VisibleNotSpace('#');
    assert '#' !in gap;
    ContainsSkipPrefix(gap, name, MarkerPrefix);
  }

  /** A line made of a prefix without 'A', a text without AllowedIPs and a
      line break does not mention AllowedIPs. */
  lemma QuietLine(pre: string, key: string)
    requires 'A' !in pre && !Contains(key, AllowedIpsKey)
    ensures !Contains(pre + key + "\n", AllowedIpsKey)
  {
    assert pre + key + "\n" == pre + (key + "\n");
    ContainsSkipPrefix(pre, key + "\n", AllowedIpsKey);
    ContainsDropSuffix(key, "\n", AllowedIpsKey);
  }

  /** The block's AllowedIPs line offers the new address. */
  lemma AddressLine(ip: string)
    requires AddressText(ip)
    ensures LineAddress("AllowedIPs = " + ip + "/32\n") == Some(ip)
  {
    var l := "AllowedIPs = " + ip + "/32\n";
    assert l == AllowedIps.key + " = " + ip + AllowedIps.suffix + "\n";
    assert NoSpace(ip) by {
      forall i | 0 <= i < |ip| ensures !IsSpace(ip[i]) { VisibleNotSpace(ip[i]); }
    }
    MatchAssignment(ip, AllowedIps, "\n");
    ContainsAt(l, AllowedIpsKey, 0);
  }

  lemma JoinFive(b: seq<string>)
    requires |b| == 5
    ensures Join(b) == b[0] + b[1] + b[2] + b[3] + b[4]
  {
    assert Join(b[4..]) == b[4] by { assert b[4..][1..] == []; }
    assert Join(b[3..]) == b[3] + Join(b[4..]) by { assert b[3..][1..] == b[4..]; }
    assert Join(b[2..]) == b[2] + Join(b[3..]) by { assert b[2..][1..] == b[3..]; }
    assert Join(b[1..]) == b[1] + Join(b[2..]) by { assert b[1..][1..] == b[2..]; }
  }

  lemma BlockWellFormed(name: string, pub: string, psk: string, ip: string)
    requires Renderable(name, pub, psk, ip)
    ensures WellFormedLines(BlockLines(name, pub, psk, ip))
  {
    var b := BlockLines(name, pub, psk, ip);
    assert '\n' !in pub && '\n' !in psk && '\n' !in ip by {
      BlankChars();
      forall i | 0 <= i < |pub| ensures pub[i] != '\n' { assert !IsSpace(pub[i]); }
      forall i | 0 <= i < |psk| ensures psk[i] != '\n' { assert !IsSpace(psk[i]); }
      forall i | 0 <= i < |ip| ensures ip[i] != '\n' { assert InClass(ip[i], Address); }
    }
    forall k | 0 <= k < 5 ensures IsLine(b[k], k == 4) {
      assert b[k][|b[k]| - 1] == '\n';
    }
  }

  /** The block is a blank line followed by its five lines. */
  lemma BlockJoin(name: string, pub: string, psk: string, ip: string)
    ensures PeerBlock(name, pub, psk, ip) == "\n" + Join(BlockLines(name, pub, psk, ip))
  {
    JoinFive(BlockLines(name, pub, psk, ip));
  }

  lemma BlockQuiet(name: string, pub: string, psk: string, ip: string)
    requires Renderable(name, pub, psk, ip)
    ensures forall j :: 0 <= j < 4 ==> LineAddress(BlockLines(name, pub, psk, ip)[j]).None?
  {
    var b := BlockLines(name, pub, psk, ip);
    forall j | 0 <= j < 4 ensures LineAddress(b[j]).None? {
      if j == 0 {
        QuietLine("# Client: ", name);
      } else if j == 1 {
        QuietLine("[Peer]", []);
        assert b[1] == "[Peer]" + [] + "\n";
      } else if j == 2 {
        QuietLine("PublicKey = ", pub);
      } else {
        QuietLine("PresharedKey = ", psk);
      }
    }
  }

  lemma BlockMarkers(name: string, pub: string, psk: string, ip: string)
    ensures forall j :: 1 <= j < 5 ==> !IsMarker(BlockLines(name, pub, psk, ip)[j])
  {
    var b := BlockLines(name, pub, psk, ip);
    NotMarker(b[1]);
    NotMarker(b[2]);
    NotMarker(b[3]);
    NotMarker(b[4]);
  }

  // ----- how the listing reacts to appended lines -----

  lemma {:induction false} FirstAddressInAgree(l1: seq<string>, l2: seq<string>, lo: nat, hi: nat)
    requires lo <= hi <= |l1| && hi <= |l2|
    requires forall k :: lo <= k < hi ==> l1[k] == l2[k]
    ensures FirstAddressIn(l1, lo, hi) == FirstAddressIn(l2, lo, hi)
    decreases hi - lo
  {
    if lo < hi {
      FirstAddressInAgree(l1, l2, lo + 1, hi);
    }
  }

  lemma {:induction false} FirstAddressInNone(lines: seq<string>, lo: nat, hi: nat)
    requires lo <= hi <= |lines|
    requires forall k :: lo <= k < hi ==> LineAddress(lines[k]).None?
    ensures FirstAddressIn(lines, lo, hi).None?
    decreases hi - lo
  {
    if lo < hi {
      FirstAddressInNone(lines, lo + 1, hi);
    }
  }

  lemma {:induction false} FirstAddressInQuietTail(lines: seq<string>, lo: nat, mid: nat, hi: nat)
    requires lo <= mid <= hi <= |lines|
    requires forall k :: mid <= k < hi ==> LineAddress(lines[k]).None?
    ensures FirstAddressIn(lines, lo, hi) == FirstAddressIn(lines, lo, mid)
    decreases mid - lo
  {
    if lo < mid {
      FirstAddressInQuietTail(lines, lo + 1, mid, hi);
    } else {
      FirstAddressInNone(lines, mid, hi);
    }
  }

  /** Lines appended after a document keep its entries when the first four
      of them offer no address: no earlier window can reach further. */
  lemma AppendQuietLines(a: seq<string>, b: seq<string>)
    requires forall j :: 0 <= j < |b| && j < 4 ==> LineAddress(b[j]).None?
    ensures Entries(a + b)[..|a|] == Entries(a)
  {
    forall i | 0 <= i < |a| ensures ClientAt(a + b, i) == ClientAt(a, i) {
      AppendQuietWindow(a, b, i);
    }
  }

  lemma AppendQuietWindow(a: seq<string>, b: seq<string>, i: nat)
    requires forall j :: 0 <= j < |b| && j < 4 ==> LineAddress(b[j]).None?
    requires i < |a|
    ensures ClientAt(a + b, i) == ClientAt(a, i)
  {
    var l := a + b;
    assert l[i] == a[i];
    assert FirstAddressIn(l, i + 1, WindowEnd(l, i)) == FirstAddressIn(a, i + 1, WindowEnd(a, i)) by {
      AppendQuietFirstAddress(a, b, i);
    }
  }

  lemma AppendQuietFirstAddress(a: seq<string>, b: seq<string>, i: nat)
    requires forall j :: 0 <= j < |b| && j < 4 ==> LineAddress(b[j]).None?
    requires i < |a|
    ensures FirstAddressIn(a + b, i + 1, WindowEnd(a + b, i)) == FirstAddressIn(a, i + 1, WindowEnd(a, i))
  {
    var l := a + b;
    var e := WindowEnd(a, i);
    var f := WindowEnd(l, i);
    FirstAddressInAgree(l, a, i + 1, e);
    forall k | e <= k < f ensures LineAddress(l[k]).None? {
      assert l[k] == b[k - |a|];
    }
    FirstAddressInQuietTail(l, i + 1, e, f);
  }

  /** The entries of a document followed by a new peer block: the entries
      the document had, then the new client. */
  lemma AppendBlockLines(a: seq<string>, name: string, pub: string, psk: string, ip: string)
    requires Renderable(name, pub, psk, ip)
    ensures Clients(a + BlockLines(name, pub, psk, ip)) == Clients(a) + [Client(name, ip)]
  {
    var b := BlockLines(name, pub, psk, ip);
    var l := a + b;
    var n := |a|;
    BlockQuiet(name, pub, psk, ip);
    AppendQuietLines(a, b);
    BlockMarkerEntry(a, name, pub, psk, ip);
    BlockRestEntries(a, name, pub, psk, ip);
    var es := Entries(l);
    var c := Client(name, ip);
    assert es[n..] == [Some(c), None, None, None, None];
    assert es == es[..n] + es[n..];
    PresentAppend(es[..n], es[n..]);
    PresentOfBlock(es[n..], c);
  }

  lemma PresentOfBlock(tail: seq<Option<Client>>, c: Client)
    requires tail == [Some(c), None, None, None, None]
    ensures Present(tail) == [c]
  {
    var s0: seq<Option<Client>> := [];
    var s1 := s0 + [Some(c)];
    PresentSnoc(s0, Some(c));
    var s2 := s1 + [None];
    PresentSnoc(s1, None);
    var s3 := s2 + [None];
    PresentSnoc(s2, None);
    var s4 := s3 + [None];
    PresentSnoc(s3, None);
    PresentSnoc(s4, None);
    assert tail == s4 + [None];
  }

  /** The block's marker line lists the new client. */
  lemma BlockMarkerEntry(a: seq<string>, name: string, pub: string, psk: string, ip: string)
    requires Renderable(name, pub, psk, ip)
    ensures ClientAt(a + BlockLines(name, pub, psk, ip), |a|) == Some(Client(name, ip))
  {
    var b := BlockLines(name, pub, psk, ip);
    var l := a + b;
    var n := |a|;
    RenderedMarkerName(name);
    assert l[n] == b[0];
    assert FirstAddressIn(l, n + 1, WindowEnd(l, n)) == Some(ip) by {
      BlockWindow(a, name, pub, psk, ip);
    }
  }

  lemma BlockWindow(a: seq<string>, name: string, pub: string, psk: string, ip: string)
    requires Renderable(name, pub, psk, ip)
    ensures FirstAddressIn(a + BlockLines(name, pub, psk, ip), |a| + 1, |a| + 5) == Some(ip)
  {
    var b := BlockLines(name, pub, psk, ip);
    var l := a + b;
    var n := |a|;
    BlockQuiet(name, pub, psk, ip);
    AddressLine(ip);
    forall k | n + 1 <= k < n + 4 ensures LineAddress(l[k]).None? {
      assert l[k] == b[k - n];
    }
    assert l[n + 4] == b[4];
    FirstAddressInAt(l, n + 1, n + 5, n + 4);
  }

  /** The other four block lines list nobody. */
  lemma BlockRestEntries(a: seq<string>, name: string, pub: string, psk: string, ip: string)
    ensures forall k :: |a| < k < |a| + 5 ==> ClientAt(a + BlockLines(name, pub, psk, ip), k).None?
  {
    var b := BlockLines(name, pub, psk, ip);
    var l := a + b;
    BlockMarkers(name, pub, psk, ip);
    forall k | |a| < k < |a| + 5 ensures ClientAt(l, k).None? {
      assert l[k] == b[k - |a|];
    }
  }

  /** The lines of the configuration after the append. */
  lemma LinesAfterAppend(t: string, name: string, pub: string, psk: string, ip: string)
    requires Renderable(name, pub, psk, ip)
    ensures Lines(t + PeerBlock(name, pub, psk, ip)) == Lines(t + "\n") + BlockLines(name, pub, psk, ip)
  {
    var b := BlockLines(name, pub, psk, ip);
    BlockJoin(name, pub, psk, ip);
    BlockWellFormed(name, pub, psk, ip);
    assert t + PeerBlock(name, pub, psk, ip) == (t + "\n") + Join(b);
    LinesAppend(t + "\n", Join(b));
    LinesOfJoin(b);
  }

  /** After the block is appended to any configuration, the new client is
      the last entry of the listing. */
  lemma AppendedClientIsLast(t: string, name: string, pub: string, psk: string, ip: string)
    requires Renderable(name, pub, psk, ip)
    ensures Clients(Lines(t + PeerBlock(name, pub, psk, ip)))
      == Clients(Lines(t + "\n")) + [Client(name, ip)]
  {
    LinesAfterAppend(t, name, pub, psk, ip);
    AppendBlockLines(Lines(t + "\n"), name, pub, psk, ip);
  }

  /** The append keeps every earlier entry, in order, and adds the new
      client after them. */
  lemma AppendKeepsEntries(t: string, name: string, pub: string, psk: string, ip: string)
    requires Renderable(name, pub, psk, ip)
    ensures Clients(Lines(t + PeerBlock(name, pub, psk, ip)))
      == Clients(Lines(t)) + [Client(name, ip)]
  {
    AppendedClientIsLast(t, name, pub, psk, ip);
    LineBreakKeepsClients(t);
  }

  /** A line break added at the end of any configuration changes no entry:
      after a complete last line it is a blank line, after an open one it
      closes that line without changing what it says. */
  lemma LineBreakKeepsClients(t: string)
    ensures Clients(Lines(t + "\n")) == Clients(Lines(t))
  {
    if t == [] || t[|t| - 1] == '\n' {
      ClosedLineBreak(t);
    } else {
      LinesCloseLast(t);
      var ls := Lines(t);
      var a := ls[..|ls| - 1];
      assert ls == a + [ls[|ls| - 1]];
      CloseLastEntries(a, ls[|ls| - 1]);
    }
  }

  /** Closing the last line with a line break changes no entry. */
  lemma CloseLastEntries(a: seq<string>, l: string)
    ensures Clients(a + [l + "\n"]) == Clients(a + [l])
  {
    var l1 := a + [l + "\n"];
    var l2 := a + [l];
    LineBreakSameLine(l);
    forall i | 0 <= i < |l1| ensures ClientAt(l1, i) == ClientAt(l2, i) {
      assert IsMarker(l1[i]) == IsMarker(l2[i]) && MarkerName(l1[i]) == MarkerName(l2[i]);
      FirstAddressInSame(l1, l2, i + 1, WindowEnd(l1, i));
    }
    assert Entries(l1) == Entries(l2);
  }

  /** A final line break changes neither the marker reading nor the
      address of a line. */
  lemma LineBreakSameLine(l: string)
    ensures IsMarker(l + "\n") == IsMarker(l)
    ensures MarkerName(l + "\n") == MarkerName(l)
    ensures LineAddress(l + "\n") == LineAddress(l)
  {
    StripBreak(l);
    assert '\n' !in AllowedIpsKey;
    ContainsDropSuffix(l, "\n", AllowedIpsKey);
    assert WithinLine(AllowedIps);
    SearchBreak(l, AllowedIps);
  }

  /** Two line sequences whose lines offer the same addresses over a
      range find the same first address there. */
  lemma {:induction false} FirstAddressInSame(l1: seq<string>, l2: seq<string>, lo: nat, hi: nat)
    requires |l1| == |l2| && lo <= hi <= |l1|
    requires forall k :: lo <= k < hi ==> LineAddress(l1[k]) == LineAddress(l2[k])
    ensures FirstAddressIn(l1, lo, hi) == FirstAddressIn(l2, lo, hi)
    decreases hi - lo
  {
    if lo < hi {
      FirstAddressInSame(l1, l2, lo + 1, hi);
    }
  }

  /** A blank line after a complete last line changes no entry. */
  lemma ClosedLineBreak(t: string)
    requires t == [] || t[|t| - 1] == '\n'
    ensures Clients(Lines(t + "\n")) == Clients(Lines(t))
  {
    LinesAppend(t, "\n");
    LinesOfBlank();
    BlankLineEntries(Lines(t));
  }

  lemma LinesOfBlank()
    ensures Lines("\n") == ["\n"]
  {
    var ls := ["\n"];
    assert Join(ls) == "\n" by { assert ls[1..] == []; }
    assert WellFormedLines(ls);
    LinesOfJoin(ls);
  }

  lemma BlankLineEntries(a: seq<string>)
    ensures Clients(a + ["\n"]) == Clients(a)
  {
    var l := a + ["\n"];
    assert LineAddress("\n").None? by { ShortNotContains("\n", AllowedIpsKey); }
    AppendQuietLines(a, ["\n"]);
    assert !IsMarker(l[|a|]);
    var es := Entries(l);
    assert es == Entries(a) + [None] by {
      assert es[..|a|] == Entries(a);
    }
    PresentSnoc(Entries(a), None);
  }

  /** After the append, the new address is taken for the allocator. */
  lemma AppendOccupies(t: string, name: string, pub: string, psk: string, i: nat)
    requires Renderable(name, pub, psk, HostAddress(i))
    ensures Occupied(Lines(t + PeerBlock(name, pub, psk, HostAddress(i))), i)
  {
    var ip := HostAddress(i);
    var b := BlockLines(name, pub, psk, ip);
    LinesAfterAppend(t, name, pub, psk, ip);
    var ls := Lines(t + PeerBlock(name, pub, psk, ip));
    var k := |Lines(t + "\n")| + 4;
    assert ls[k] == b[4];
    assert StartsWith(b[4], GrepPattern(i));
    ContainsAt(b[4], GrepPattern(i), 0);
  }

  // ----- listings of joined documents -----

  /** The first four lines of `b` offer no address, so no window that
      starts before `b` reaches an address in it. */
  predicate QuietStart(b: seq<string>)
  {
    forall j :: 0 <= j < |b| && j < 4 ==> LineAddress(b[j]).None?
  }

  /** Windows look forward only: a window inside `y` reads the same
      addresses after any lines `x`. */
  lemma {:induction false} FirstAddressInShift(x: seq<string>, y: seq<string>, lo: nat, hi: nat)
    requires lo <= hi <= |y|
    ensures FirstAddressIn(x + y, |x| + lo, |x| + hi) == FirstAddressIn(y, lo, hi)
    decreases hi - lo
  {
    if lo < hi {
      assert (x + y)[|x| + lo] == y[lo];
      FirstAddressInShift(x, y, lo + 1, hi);
    }
  }

  lemma EntriesShift(x: seq<string>, y: seq<string>)
    ensures Entries(x + y)[|x|..] == Entries(y)
  {
    var l := x + y;
    forall k | 0 <= k < |y| ensures ClientAt(l, |x| + k) == ClientAt(y, k) {
      assert l[|x| + k] == y[k];
      assert WindowEnd(l, |x| + k) == |x| + WindowEnd(y, k);
      FirstAddressInShift(x, y, k + 1, WindowEnd(y, k));
    }
  }

  /** A document followed by lines that start quietly lists the clients of
      each part, one after the other. */
  lemma ClientsAppendQuiet(a: seq<string>, b: seq<string>)
    requires QuietStart(b)
    ensures Clients(a + b) == Clients(a) + Clients(b)
  {
    var es := Entries(a + b);
    AppendQuietLines(a, b);
    EntriesShift(a, b);
    assert es == es[..|a|] + es[|a|..];
    PresentAppend(es[..|a|], es[|a|..]);
  }

  /** Lines without a marker in front of a document list nobody. */
  lemma ClientsAfterUnmarked(x: seq<string>, y: seq<string>)
    requires forall k :: 0 <= k < |x| ==> !IsMarker(x[k])
    ensures Clients(x + y) == Clients(y)
  {
    var es := Entries(x + y);
    forall k | 0 <= k < |x| ensures es[k].None? {
      assert (x + y)[k] == x[k];
    }
    PresentOfNone(es[..|x|]);
    EntriesShift(x, y);
    assert es == es[..|x|] + es[|x|..];
    PresentAppend(es[..|x|], es[|x|..]);
  }

  lemma {:induction false} PresentOfNone(es: seq<Option<Client>>)
    requires forall k :: 0 <= k < |es| ==> es[k].None?
    ensures Present(es) == []
    decreases |es|
  {
    if es != [] {
      PresentOfNone(es[..|es| - 1]);
    }
  }

  /** grep finds a text in joined lines exactly when it finds it in one of
      the parts. */
  lemma OccupiedAppend(x: seq<string>, y: seq<string>, i: nat)
    ensures Occupied(x + y, i) <==> Occupied(x, i) || Occupied(y, i)
  {
    var l := x + y;
    if Occupied(l, i) {
      var k :| 0 <= k < |l| && Contains(l[k], GrepPattern(i));
      if k < |x| {
        assert l[k] == x[k];
      } else {
        assert l[k] == y[k - |x|];
      }
    }
    if Occupied(x, i) {
      var k :| 0 <= k < |x| && Contains(x[k], GrepPattern(i));
      assert l[k] == x[k];
    }
    if Occupied(y, i) {
      var k :| 0 <= k < |y| && Contains(y[k], GrepPattern(i));
      assert l[|x| + k] == y[k];
    }
  }
}

=== FILE: strings.dfy ===
/** Python string operations the peer registry relies on: str.isspace and
    str.strip, startswith, the `in` substring test, str.replace with an empty
    replacement, str.lower for the letters the menus compare, and the
    splitting of a file into lines done by readlines(). */
module Strings {

  /** str.isspace(): the characters removed by str.strip() and matched by
      the regular-expression class \s, by code point: tab to carriage
      return, the four separators 0x1C-0x1F, the blank, and the Unicode
      blanks from 0x85 up. */
  predicate IsSpace(c: char)
  {
    var n := c as int;
    if n < 0x85 then
      9 <= n <= 13 || 28 <= n <= 32
    else
      n == 0x85 || n == 0xA0 || n == 0x1680 || 0x2000 <= n <= 0x200A || n == 0x2028
      || n == 0x2029 || n == 0x202F || n == 0x205F || n == 0x3000
  }

  /** The blank and the line break are blanks. */
  lemma BlankChars()
    ensures IsSpace(' ') && IsSpace('\n')
  {
  }

  /** The visible ASCII characters, '!' to '~', are not blanks. */
  lemma VisibleNotSpace(c: char)
    requires '!' <= c <= '~'
    ensures !IsSpace(c)
  {
  }

  predicate NoSpace(s: string)
  {
    forall i :: 0 <= i < |s| ==> !IsSpace(s[i])
  }

  predicate StartsWith(s: string, prefix: string)
  {
    |prefix| <= |s| && s[..|prefix|] == prefix
  }

  /** Python's `t in s`. */
  predicate Contains(s: string, t: string)
    decreases |s|
  {
    StartsWith(s, t) || (|s| > 0 && Contains(s[1..], t))
  }

  lemma {:induction false} ContainsAt(s: string, t: string, i: nat)
    requires i <= |s| && StartsWith(s[i..], t)
    ensures Contains(s, t)
    decreases i
  {
    if i > 0 {
      assert s[1..][i - 1..] == s[i..];
      ContainsAt(s[1..], t, i - 1);
    }
  }

  lemma {:induction false} ContainsWitness(s: string, t: string) returns (i: nat)
    requires Contains(s, t)
    ensures i <= |s| && StartsWith(s[i..], t)
    decreases |s|
  {
    if StartsWith(s, t) {
      i := 0;
    } else {
      var j := ContainsWitness(s[1..], t);
      assert s[1..][j..] == s[j + 1..];
      i := j + 1;
    }
  }

  /** A text that contains t + u contains t. */
  lemma ContainsShorter(s: string, t: string, u: string)
    requires Contains(s, t + u)
    ensures Contains(s, t)
  {
    var i := ContainsWitness(s, t + u);
    assert s[i..][..|t|] == (t + u)[..|t|] == t;
    ContainsAt(s, t, i);
  }

  /** An occurrence of `t` cannot begin inside `a` when `a` lacks t's first
      character, so `a` can be skipped. */
  lemma {:induction false} ContainsSkipPrefix(a: string, b: string, t: string)
    requires t != [] && t[0] !in a
    ensures Contains(a + b, t) <==> Contains(b, t)
    decreases |a|
  {
    if a != [] {
      assert (a + b)[0] == a[0];
      assert !StartsWith(a + b, t);
      assert (a + b)[1..] == a[1..] + b;
      ContainsSkipPrefix(a[1..], b, t);
    } else {
      assert a + b == b;
    }
  }

  lemma {:induction false} NotContainsDisjoint(c: string, t: string)
    requires t != [] && forall ch :: ch in c ==> ch !in t
    ensures !Contains(c, t)
    decreases |c|
  {
    if c != [] {
      assert c[0] in c && t[0] in t;
      assert c[0] != t[0];
      forall ch | ch in c[1..] ensures ch !in t { assert ch in c; }
      NotContainsDisjoint(c[1..], t);
    } else {
      assert !StartsWith(c, t);
    }
  }

  /** An occurrence of `t` cannot reach into `c` when no character of `c`
      occurs in `t`, so `c` can be dropped. */
  lemma {:induction false} ContainsDropSuffix(b: string, c: string, t: string)
    requires t != [] && forall ch :: ch in c ==> ch !in t
    ensures Contains(b + c, t) <==> Contains(b, t)
    decreases |b|
  {
    if b == [] {
      assert b + c == c;
      NotContainsDisjoint(c, t);
      assert !StartsWith(b, t);
    } else {
      assert |t| > |b| && |b + c| > |b| ==> (b + c)[|b|] == c[0] && c[0] in c && t[|b|] in t;
      assert StartsWith(b + c, t) ==> StartsWith(b, t) by {
        if StartsWith(b + c, t) {
          assert |t| <= |b|;
          assert (b + c)[..|t|] == b[..|t|];
        }
      }
      assert StartsWith(b, t) ==> StartsWith(b + c, t) by {
        if StartsWith(b, t) {
          assert (b + c)[..|t|] == b[..|t|];
        }
      }
      assert (b + c)[1..] == b[1..] + c;
      ContainsDropSuffix(b[1..], c, t);
    }
  }

  /** str.lstrip() */
  function TrimStart(s: string): (r: string)
    ensures |r| <= |s|
    decreases |s|
  {
    if s != [] && IsSpace(s[0]) then TrimStart(s[1..]) else s
  }

  /** lstrip() removes a run of blanks from the front, and stops at the
      first character that is not one. */
  lemma {:induction false} TrimStartSpec(s: string)
    ensures TrimStart(s) == s[|s| - |TrimStart(s)|..]
    ensures TrimStart(s) != [] ==> !IsSpace(TrimStart(s)[0])
    ensures forall i :: 0 <= i < |s| - |TrimStart(s)| ==> IsSpace(s[i])
    decreases |s|
  {
    if s != [] && IsSpace(s[0]) {
      TrimStartSpec(s[1..]);
    }
  }

  /** str.rstrip() */
  function TrimEnd(s: string): (r: string)
    ensures |r| <= |s|
    decreases |s|
  {
    if s != [] && IsSpace(s[|s| - 1]) then TrimEnd(s[..|s| - 1]) else s
  }

  /** rstrip() removes a run of blanks from the back, and stops at the
      last character that is not one. */
  lemma {:induction false} TrimEndSpec(s: string)
    ensures TrimEnd(s) == s[..|TrimEnd(s)|]
    ensures TrimEnd(s) != [] ==> !IsSpace(TrimEnd(s)[|TrimEnd(s)| - 1])
    ensures forall i :: |TrimEnd(s)| <= i < |s| ==> IsSpace(s[i])
    decreases |s|
  {
    if s != [] && IsSpace(s[|s| - 1]) {
      TrimEndSpec(s[..|s| - 1]);
    }
  }

  /** str.strip() */
  function Strip(s: string): string
  {
    TrimEnd(TrimStart(s))
  }

  /** rstrip() takes a final line break along with the blanks before it. */
  lemma TrimEndBreak(s: string)
    ensures TrimEnd(s + "\n") == TrimEnd(s)
  {
    BlankChars();
    assert (s + "\n")[..|s|] == s;
  }

  /** lstrip() of a text with something appended: the appended part is
      kept whole once the text has a non-blank, and is stripped itself
      otherwise. */
  lemma {:induction false} TrimStartAppend(s: string, u: string)
    ensures TrimStart(s) != [] ==> TrimStart(s + u) == TrimStart(s) + u
    ensures TrimStart(s) == [] ==> TrimStart(s + u) == TrimStart(u)
    decreases |s|
  {
    if s == [] {
      assert s + u == u;
    } else {
      assert (s + u)[0] == s[0];
      assert (s + u)[1..] == s[1..] + u;
      if IsSpace(s[0]) {
        TrimStartAppend(s[1..], u);
      }
    }
  }

  /** strip() does not see a final line break. */
  lemma StripBreak(s: string)
    ensures Strip(s + "\n") == Strip(s)
  {
    BlankChars();
    TrimStartAppend(s, "\n");
    if TrimStart(s) != [] {
      TrimEndBreak(TrimStart(s));
    } else {
      assert "\n"[1..] == [];
    }
  }

  predicate AllSpace(s: string)
  {
    forall i :: 0 <= i < |s| ==> IsSpace(s[i])
  }

  /** Whitespace around a text that neither begins nor ends with whitespace
      is exactly what strip() removes. */
  lemma StripSurrounded(pre: string, x: string, post: string)
    requires AllSpace(pre) && AllSpace(post)
    requires x != [] ==> !IsSpace(x[0]) && !IsSpace(x[|x| - 1])
    ensures Strip(pre + x + post) == x
  {
    assert pre + x + post == pre + (x + post);
    if x != [] {
      assert (x + post)[0] == x[0];
      TrimStartSpaces(pre, x + post);
      TrimEndSpaces(x, post);
    } else {
      assert x + post == post;
      TrimStartSpaces(pre, post);
      TrimStartSpaces(post, []);
      assert post + [] == post;
    }
  }

  /** A text that neither begins nor ends with whitespace is left alone by
      strip(). */
  lemma StripClean(s: string)
    requires s != [] && !IsSpace(s[0]) && !IsSpace(s[|s| - 1])
    ensures Strip(s) == s
  {
    StripSurrounded([], s, []);
    assert [] + s + [] == s;
  }

  /** A text that does not begin with a blank keeps its first character
      through strip(). */
  lemma StripFirst(s: string)
    requires s != [] && !IsSpace(s[0])
    ensures Strip(s) != [] && Strip(s)[0] == s[0]
  {
    assert TrimStart(s) == s;
    TrimEndSpec(s);
  }

  lemma {:induction false} TrimStartSpaces(pre: string, rest: string)
    requires AllSpace(pre) && (rest == [] || !IsSpace(rest[0]) || AllSpace(rest))
    ensures TrimStart(pre + rest) == TrimStart(rest)
    decreases |pre|
  {
    if pre == [] {
      assert pre + rest == rest;
    } else {
      assert (pre + rest)[0] == pre[0];
      assert (pre + rest)[1..] == pre[1..] + rest;
      TrimStartSpaces(pre[1..], rest);
    }
  }

  /** rstrip() removes exactly a trailing run of whitespace. */
  lemma {:induction false} TrimEndSpaces(x: string, post: string)
    requires AllSpace(post) && x != [] && !IsSpace(x[|x| - 1])
    ensures TrimEnd(x + post) == x
    decreases |post|
  {
    if post == [] {
      assert x + post == x;
    } else {
      var s := x + post;
      assert s[|s| - 1] == post[|post| - 1];
      assert s[..|s| - 1] == x + post[..|post| - 1];
      TrimEndSpaces(x, post[..|post| - 1]);
    }
  }

  /** `s.replace(pattern, '')`: every non-overlapping occurrence, found left
      to right, is removed. */
  function RemoveAll(s: string, pattern: string): (r: string)
    requires pattern != []
    ensures |r| <= |s|
    ensures !Contains(s, pattern) ==> r == s
    decreases |s|
  {
    if s == [] then []
    else if StartsWith(s, pattern) then RemoveAll(s[|pattern|..], pattern)
    else [s[0]] + RemoveAll(s[1..], pattern)
  }

  /** What follows the last `c` in `s`, or all of `s` without one: the last
      piece of s.split(c), and os.path.basename for c = '/'. */
  function AfterLast(s: string, c: char): (r: string)
    ensures |r| <= |s| && s[|s| - |r|..] == r
    ensures c !in r
    ensures |r| < |s| ==> s[|s| - |r| - 1] == c
    decreases |s|
  {
    if s == [] || s[|s| - 1] == c then []
    else AfterLast(s[..|s| - 1], c) + [s[|s| - 1]]
  }

  /** What follows a `c` that is the last one is the piece after it. */
  lemma {:induction false} AfterLastOfJoin(head: string, c: char, tail: string)
    requires c !in tail
    ensures AfterLast(head + [c] + tail, c) == tail
    decreases |tail|
  {
    var s := head + [c] + tail;
    if tail == [] {
      assert s[|s| - 1] == c;
    } else {
      var init := tail[..|tail| - 1];
      assert s[..|s| - 1] == head + [c] + init;
      assert s[|s| - 1] == tail[|tail| - 1];
      AfterLastOfJoin(head, c, init);
      assert init + [tail[|tail| - 1]] == tail;
    }
  }

  /** The letters str.lower() changes among those the menus compare:
      Latin A-Z and the Cyrillic capitals U+0400..U+042F. */
  function LowerChar(c: char): (r: char)
    ensures ('a' <= r <= 'z') <==> ('a' <= c <= 'z' || 'A' <= c <= 'Z')
  {
    if 'A' <= c <= 'Z' then (c as int + 32) as char
    else if '\U{410}' <= c <= '\U{42F}' then (c as int + 32) as char
    else if '\U{400}' <= c <= '\U{40F}' then (c as int + 80) as char
    else c
  }

  /** str.lower(): every capital becomes its small letter, every other
      character is kept. */
  function Lower(s: string): (r: string)
    ensures |r| == |s|
    ensures forall i :: 0 <= i < |s| && 'A' <= s[i] <= 'Z' ==> 'a' <= r[i] <= 'z' && r[i] as int - 'a' as int == s[i] as int - 'A' as int
    ensures forall i :: 0 <= i < |s| && '\U{410}' <= s[i] <= '\U{42F}' ==>
      '\U{430}' <= r[i] <= '\U{44F}' && r[i] as int - 0x430 == s[i] as int - 0x410
    ensures forall i :: 0 <= i < |s| && '\U{400}' <= s[i] <= '\U{40F}' ==>
      '\U{450}' <= r[i] <= '\U{45F}' && r[i] as int - 0x450 == s[i] as int - 0x400
    ensures forall i :: 0 <= i < |s| && !('A' <= s[i] <= 'Z') && !('\U{400}' <= s[i] <= '\U{42F}') ==> r[i] == s[i]
    ensures forall i :: 0 <= i < |s| ==> r[i] == LowerChar(s[i])
  {
    seq(|s|, i requires 0 <= i < |s| => LowerChar(s[i]))
  }

  // ----- readlines() and writelines() -----

  /** A piece of a file as readlines() returns it: non-empty, a line break
      only at its end, and one there unless it is the file's last line. */
  predicate IsLine(line: string, last: bool)
  {
    line != []
    && (forall i :: 0 <= i < |line| - 1 ==> line[i] != '\n')
    && (!last ==> line[|line| - 1] == '\n')
  }

  predicate WellFormedLines(ls: seq<string>)
  {
    forall k :: 0 <= k < |ls| ==> IsLine(ls[k], k == |ls| - 1)
  }

  /** writelines(): the lines concatenated. */
  function Join(ls: seq<string>): string
  {
    if ls == [] then [] else ls[0] + Join(ls[1..])
  }

  /** Length of the first line of `t`, its line break included. */
  function FirstLineLength(t: string): (n: nat)
    requires t != []
    ensures 0 < n <= |t|
    ensures forall i :: 0 <= i < n - 1 ==> t[i] != '\n'
    ensures n < |t| ==> t[n - 1] == '\n'
    decreases |t|
  {
    if t[0] == '\n' || |t| == 1 then 1 else 1 + FirstLineLength(t[1..])
  }

  /** readlines(): the text cut after every line break. */
  function Lines(t: string): seq<string>
    decreases |t|
  {
    if t == [] then []
    else
      var n := FirstLineLength(t);
      [t[..n]] + Lines(t[n..])
  }

  /** readlines() splits the text into lines that writelines() joins back
      into the same text; every line but the last ends with its line
      break. */
  lemma LinesJoin(t: string)
    ensures Join(Lines(t)) == t
    ensures WellFormedLines(Lines(t))
  {
    LinesJoinText(t);
    LinesWellFormed(t);
  }

  lemma {:induction false} LinesJoinText(t: string)
    ensures Join(Lines(t)) == t
    decreases |t|
  {
    if t != [] {
      var n := FirstLineLength(t);
      LinesJoinText(t[n..]);
      assert t == t[..n] + t[n..];
    }
  }

  lemma {:induction false} LinesWellFormed(t: string)
    ensures WellFormedLines(Lines(t))
    decreases |t|
  {
    if t != [] {
      var n := FirstLineLength(t);
      LinesWellFormed(t[n..]);
      WellFormedCons(t[..n], Lines(t[n..]));
    }
  }

  /** A line in front of well-formed lines; it may end without a line break
      only when nothing follows it. */
  lemma WellFormedCons(l: string, rest: seq<string>)
    requires IsLine(l, rest == []) && WellFormedLines(rest)
    ensures WellFormedLines([l] + rest)
  {
    var ls := [l] + rest;
    forall k | 0 <= k < |ls| ensures IsLine(ls[k], k == |ls| - 1) {
      if k > 0 {
        assert ls[k] == rest[k - 1];
      }
    }
  }

  lemma {:induction false} FirstLineOfJoin(ls: seq<string>)
    requires ls != [] && WellFormedLines(ls)
    ensures Join(ls) != [] && FirstLineLength(Join(ls)) == |ls[0]|
  {
    var t := Join(ls);
    var l := ls[0];
    assert IsLine(l, 0 == |ls| - 1);
    assert t[..|l|] == l;
    var n := FirstLineLength(t);
    assert n - 1 < |l| ==> t[n - 1] == l[n - 1];
    assert t[|l| - 1] == l[|l| - 1];
    assert |ls| == 1 ==> Join(ls[1..]) == [] && |t| == |l|;
    assert n == |l|;
  }

  /** readlines() gives back the lines that writelines() wrote. */
  lemma {:induction false} LinesOfJoin(ls: seq<string>)
    requires WellFormedLines(ls)
    ensures Lines(Join(ls)) == ls
    decreases |ls|
  {
    if ls != [] {
      FirstLineOfJoin(ls);
      var t := Join(ls);
      assert t[..|ls[0]|] == ls[0];
      assert t[|ls[0]|..] == Join(ls[1..]);
      assert WellFormedLines(ls[1..]) by {
        forall k | 0 <= k < |ls[1..]| ensures IsLine(ls[1..][k], k == |ls[1..]| - 1) {
          assert IsLine(ls[k + 1], k + 1 == |ls| - 1);
        }
      }
      LinesOfJoin(ls[1..]);
    }
  }

  lemma {:induction false} JoinAppend(a: seq<string>, b: seq<string>)
    ensures Join(a + b) == Join(a) + Join(b)
    decreases |a|
  {
    if a != [] {
      assert (a + b)[1..] == a[1..] + b;
      JoinAppend(a[1..], b);
    } else {
      assert a + b == b;
    }
  }

  lemma {:induction false} FirstLineLengthAppend(t: string, u: string)
    requires t != [] && t[|t| - 1] == '\n'
    ensures FirstLineLength(t + u) == FirstLineLength(t)
    decreases |t|
  {
    if t[0] != '\n' {
      assert |t| > 1;
      assert (t + u)[1..] == t[1..] + u;
      FirstLineLengthAppend(t[1..], u);
    }
  }

  /** Text appended to a file whose last line is complete starts new lines. */
  lemma {:induction false} LinesAppend(t: string, u: string)
    requires t == [] || t[|t| - 1] == '\n'
    ensures Lines(t + u) == Lines(t) + Lines(u)
    decreases |t|
  {
    if t == [] {
      assert t + u == u;
      assert Lines(t) + Lines(u) == Lines(u);
    } else {
      var n := FirstLineLength(t);
      assert Lines(t + u) == [t[..n]] + Lines(t[n..] + u) by { LinesAppendFirst(t, u); }
      assert t[n..] == [] || t[n..][|t[n..]| - 1] == '\n';
      LinesAppend(t[n..], u);
      assert [t[..n]] + (Lines(t[n..]) + Lines(u)) == [t[..n]] + Lines(t[n..]) + Lines(u);
    }
  }

  /** Closing an open last line with a line break changes that line only. */
  lemma {:induction false} LinesCloseLast(t: string)
    requires t != [] && t[|t| - 1] != '\n'
    ensures Lines(t) != []
    ensures Lines(t + "\n") == Lines(t)[..|Lines(t)| - 1] + [Lines(t)[|Lines(t)| - 1] + "\n"]
    decreases |t|
  {
    var n := FirstLineLength(t);
    if n == |t| {
      OpenLineClosed(t);
    } else {
      var rest := t[n..];
      FirstLineLengthPrefix(t, "\n");
      assert (t + "\n")[..n] == t[..n];
      assert (t + "\n")[n..] == rest + "\n";
      LinesCloseLast(rest);
      ConsCloseLast(t[..n], Lines(rest), Lines(rest + "\n"));
    }
  }

  /** A text that is one open line becomes one complete line. */
  lemma OpenLineClosed(t: string)
    requires t != [] && t[|t| - 1] != '\n' && FirstLineLength(t) == |t|
    ensures Lines(t) == [t]
    ensures Lines(t + "\n") == [t + "\n"]
  {
    assert t[|t|..] == [];
    LinesWellFormed(t);
    assert Lines(t)[0] == t;
    assert IsLine(t, true);
    var ls := [t + "\n"];
    assert IsLine(t + "\n", true);
    assert WellFormedLines(ls);
    assert Join(ls) == t + "\n" by { assert ls[1..] == []; }
    LinesOfJoin(ls);
  }

  /** A first line that ends before the text does stays the first line
      whatever is appended. */
  lemma {:induction false} FirstLineLengthPrefix(t: string, u: string)
    requires t != [] && FirstLineLength(t) < |t|
    ensures FirstLineLength(t + u) == FirstLineLength(t)
    decreases |t|
  {
    if t[0] != '\n' {
      assert (t + u)[1..] == t[1..] + u;
      FirstLineLengthPrefix(t[1..], u);
    }
  }

  lemma ConsCloseLast(x: string, ls: seq<string>, closed: seq<string>)
    requires ls != [] && closed == ls[..|ls| - 1] + [ls[|ls| - 1] + "\n"]
    ensures [x] + closed == ([x] + ls)[..|ls|] + [([x] + ls)[|ls|] + "\n"]
  {
    assert ([x] + ls)[..|ls|] == [x] + ls[..|ls| - 1];
  }

  /** Appending after a complete line leaves that first line alone. */
  lemma LinesAppendFirst(t: string, u: string)
    requires t != [] && t[|t| - 1] == '\n'
    ensures Lines(t + u) == [t[..FirstLineLength(t)]] + Lines(t[FirstLineLength(t)..] + u)
  {
    var n := FirstLineLength(t);
    FirstLineLengthAppend(t, u);
    var tu := t + u;
    assert tu[..n] == t[..n];
    assert tu[n..] == t[n..] + u;
  }

  /** The last character of a text is the last character of its last line. */
  lemma {:induction false} JoinLastLemma(ls: seq<string>)
    requires ls != [] && WellFormedLines(ls)
    ensures Join(ls) != [] && |ls[|ls| - 1]| > 0
    ensures Join(ls)[|Join(ls)| - 1] == ls[|ls| - 1][|ls[|ls| - 1]| - 1]
  {
    assert IsLine(ls[|ls| - 1], true);
    JoinAppend(ls[..|ls| - 1], [ls[|ls| - 1]]);
    assert ls[..|ls| - 1] + [ls[|ls| - 1]] == ls;
    assert Join([ls[|ls| - 1]]) == ls[|ls| - 1] + Join([]);
  }
}
